=== FILE: README.md ===
# HokkaidoRailGTFS, the core in Dafny

HokkaidoRailGTFS builds a GTFS feed for JR Hokkaido from the timetable
pages of jrhokkaidonorikae.com. This project models the parts of it that
decide what goes into the feed and proves properties of them:

- **Operating-day texts (運転日).** Every timetable column carries a
  text such as `3月19日～4月10・13日運転` or `全日運転と12月31日運休`.
  The model has three parts:
  - the grammar, as an ordered-choice parser (`UntenbiGrammar`);
  - the interpreter, which turns the parsed rules into a pattern, a
    start and an end date, and added and removed dates (`UntenbiRules`);
  - the year-less date arithmetic beneath both (`MonthDays`).

  A printer (`UntenbiText`) ties them together. Every printable rule
  list reads back as what was printed, with the month carry and range
  expansion applied. The printer writes each day with or without the
  optional 日, as the example's `4月10・` does.
- **GTFS times (`Time`)** (`Times`). This covers:
  - seconds since midnight split by floor `divmod`;
  - the `HH:MM:SS` text;
  - arithmetic and comparison;
  - `from_str`, which reads `HMM` or `HHMM` from the digits of a cell.
- **The timetable body scan** (`Timetable`). This is one pass over the
  cells in row-major order. It covers:
  - the evening latch, set by a time after 22:00;
  - the next-day shift of times before 04:00 once the latch is on;
  - the insert-or-update of station times;
  - terminal cells;
  - the `区休` (section change) calendar swap with the previous column;
  - the filter `get_trains` applies afterwards.
- **Route assignment** (`Trains`, `Splitting`). This covers:
  - `has_station`;
  - `split_train` at a junction;
  - the `exclude` list;
  - the drop of Sapporo–Shiroishi and Tomakomai–Numanohata stubs;
  - the bus route offset of +100;
  - the per-train loop of `trains_normal`.
- **Calendars** (`Calendars`). This covers:
  - resolving a service description against the regular patterns, the
    manually described services, and the operating-day parser;
  - the first-match decision for each day of the window;
  - the `calendar_dates` rows.
- **Identifiers** (`Identifiers`). Service ids are allocated densely by
  calendar text, starting from `毎日 → 0`. Trip ids count up. Block ids
  are keyed by the train's two terminals and are empty for a trip that
  is the whole train.

Errors the program raises become the `Error` values of `Results`:
- a `ValueError` from the grammar;
- a `KeyError` on a month table, a dictionary or a column;
- a failing `Time.from_str`;
- an unsplittable train;
- a `区休` cell after a train whose calendar the section-change table does not list (a `ValueError`, `UnknownSectionChange`).

The model follows the code as written, including these behaviours:
- `day_plus_one` computes the next month as `(m + 1) % 12`. So the day
  after 30 November is (0, 1), and the step after that fails on the
  month table. Any range that reaches 30 November, or that reaches
  31 December and wraps to January, fails with `NoSuchMonth(0)`
  (`ExpandRangeIntoDecemberFails`, `ExpandRangeThroughYearEndFails`).
- Dates carry no year. A range across New Year, such as `12月25日～1月5日`,
  expands to nothing (`NewYearRangeAddsNothing`).
- Reading an operating-day text uses `parse`, not `parse_strict`. Text
  after the last rule is ignored.
- The exceptions are reconciled by key presence. That happens only under
  the patterns `毎日` and `全休`.
- At the junction, both parts of a split train share one stop record.
  After the two writes, its departure equals its arrival. Both parts get
  that stop.
- The `last_stations` check of the body scan (hokkaidorail.py:370)
  compares a row label that no row has, so it never fires. It is not
  modelled.
- A `station_` row whose kind is neither `arr` nor `dep` appends a second
  stop for a station already listed.
- A `区休` cell in column 0 looks up column −1. That fails as
  `NoSuchColumn(-1)`.

## Model

| member | source | states |
|---|---|---|
| Digits.DigitValue | untenbiparser.py:45 | a digit the numeral pattern accepts, ASCII or full-width, has a value below 10 |
| Digits.RangeValue | untenbiparser.py:59-63 | `int()` of one digit is below 10 and of two digits below 100 |
| Digits.NatTextRoundTrip | hokkaidorail.py:150 | reading the decimal text of a number back with `int()` gives the number |
| Digits.NatTextLength | hokkaidorail.py:150 | `str(n)` has one digit exactly when n < 10, two exactly when 10 ≤ n < 100, and no leading zero |
| MonthDays.MaxDays | untenbiparser.py:17-20 | the month table is defined exactly on months 1..12, with 29 to 31 days; any other month is a `KeyError` on that month |
| MonthDays.DayPlusOne | untenbiparser.py:23-27 | fails exactly on a month outside 1..12; in months 1..12 it gives the next real date after any day number, so (2, 0) gives (2, 1) and (2, 30) gives (3, 1), except that from 30 Nov on it gives (0, 1) and from 31 Dec on it gives 1 Jan |
| MonthDays.DayMinusOne | untenbiparser.py:30-40 | fails exactly when the day is 0 or 1 and the month is 14 or more; a day above 1 steps back in the same month, whatever the month; for a real date other than 1 Jan it gives the previous real date; day 0 or 1 of months 2..13 gives the last real date before the 1st, so (3, 0) gives (2, 29) and (13, 1) gives (12, 31); day 0 or 1 of month 0 or 1 gives 31 Dec |
| MonthDays.MinusThenPlus | untenbiparser.py:23-40 | stepping back then forward returns every real date except 1 Dec |
| MonthDays.PlusThenMinus | untenbiparser.py:23-40 | stepping forward then back returns every real date except 30 Nov |
| MonthDays.DecemberSeamBreaksInverse | untenbiparser.py:23-27 | the day before 1 Dec is 30 Nov, the day after that is (0, 1), and stepping on from (0, 1) fails |
| MonthDays.RankFalls | untenbiparser.py:127-131 | every successful forward step lowers a natural measure, so the range loop ends |
| MonthDays.ExpandRange | untenbiparser.py:126-131 | a start after the end gives no dates; a non-empty expansion begins at the start |
| MonthDays.ExpandRangeBounded | untenbiparser.py:126-131 | every date a successful expansion lists is at most the end |
| MonthDays.ExpandRangeExact | untenbiparser.py:126-131 | from a real start, for ends before 30 Nov, or December ranges ending before 31 Dec, the expansion succeeds and lists, in increasing order, exactly the real dates from start to end |
| MonthDays.ExpandRangeFromAnyStart | untenbiparser.py:126-131 | from any start in months 1..12, real or not, under the same end bounds, the expansion succeeds and lists the start itself when it is not after the end, and otherwise exactly the real dates after the start up to the end; so `2月30日～3月1日` lists (2, 30) and (3, 1) |
| MonthDays.ExpandRangeIntoDecemberFails | untenbiparser.py:126-131 | every range from a real date up to 30 Nov whose end is on or after 30 Nov fails with `NoSuchMonth(0)` |
| MonthDays.ExpandRangeThroughYearEndFails | untenbiparser.py:126-131 | every December range whose end is on or after 31 Dec fails with `NoSuchMonth(0)` |
| UntenbiGrammar.Number | untenbiparser.py:45 | never raises; matches exactly when the text starts with a digit; takes two digits when there are two, else one; value below 100 |
| UntenbiGrammar.MonthDef | untenbiparser.py:46 | always succeeds; gives no month exactly when it consumes nothing; a month read starts with a digit, is below 100 and consumes text |
| UntenbiGrammar.DayDef | untenbiparser.py:47 | never raises; matches exactly when the text starts with a digit; value below 100 |
| UntenbiGrammar.EndpointDef | untenbiparser.py:71-82 | never raises and a match consumes text |
| UntenbiGrammar.RangeDef | untenbiparser.py:49-69 | never raises; a match is a range and consumes text |
| UntenbiGrammar.SingleDayDef | untenbiparser.py:71-82 | never raises and a match consumes text |
| UntenbiGrammar.DateDef | untenbiparser.py:84 | never raises and a match consumes text |
| UntenbiGrammar.DateList | untenbiparser.py:85 | never raises; a match holds at least one date |
| UntenbiGrammar.ResolveMonth | untenbiparser.py:95-124 | a date without a month fails exactly when no month has been seen earlier in the list, with the "month required" error; otherwise it takes its own month or the carried one |
| UntenbiGrammar.FlattenConcat | untenbiparser.py:89-133 | flattening a concatenation flattens the first part, then the second from the month the first part leaves |
| UntenbiGrammar.MonthlessDateTakesCarriedMonth | untenbiparser.py:96-100 | a monthless date after a list takes that list's last explicit month, and raises when there is none |
| UntenbiGrammar.FirstDateNeedsMonth | untenbiparser.py:95-112 | a list whose first date or range start has no month raises "month required" |
| UntenbiGrammar.BoundaryKeyword | untenbiparser.py:154-160 | never raises and a match consumes text |
| UntenbiGrammar.SingleDayRule | untenbiparser.py:151-168 | the only error is "month required"; a match is a boundary rule |
| UntenbiGrammar.RuleTypeDef | untenbiparser.py:172-174 | never raises and a match consumes text |
| UntenbiGrammar.MultiDayRule | untenbiparser.py:176-183 | a match is a rule listing dates |
| UntenbiGrammar.RuleDef | untenbiparser.py:186 | a match consumes text |
| UntenbiGrammar.AllRules | untenbiparser.py:187 | a match holds at least one rule |
| UntenbiGrammar.LeadingPattern | untenbiparser.py:190-201 | always succeeds; a pattern is read exactly when the text starts with 全日運転 or 土曜・休日 followed by と or 。, and then the name and its connector are consumed; otherwise nothing is read |
| UntenbiRules.TranslatePattern | untenbiparser.py:194-197 | 全日運転 becomes 毎日, 土曜・休日 stays as it is |
| UntenbiRules.Reconcile | untenbiparser.py:246-254 | with both sets present: under 毎日 the added dates leave the removed set and the added set goes; under 全休 the reverse; otherwise nothing changes; the pattern, start and end are kept |
| UntenbiRules.ReconcileIdempotent | untenbiparser.py:246-254 | reconciling a second time changes nothing |
| UntenbiRules.ApplyAllSucceeds | untenbiparser.py:210-244 | interpreting rules succeeds exactly when every "until … suspended" day can be stepped forward and every "from … suspended" day can be stepped back |
| UntenbiRules.ApplyAllPattern | untenbiparser.py:221-239 | the pattern is the one already set, or else the one the first rule chooses: 全休 for a first rule that adds dates, 毎日 otherwise |
| UntenbiRules.ApplyAllStart | untenbiparser.py:212-231 | the start is the day of the last start rule, shifted by a day for "until … suspended"; with no start rule, an end rule gives 1 Jan when no start was set |
| UntenbiRules.ApplyAllEnd | untenbiparser.py:212-234 | the end is the day of the last end rule, shifted back for "from … suspended"; with no end rule, a start rule gives 31 Dec when no end was set |
| UntenbiRules.ApplyAllListed | untenbiparser.py:236-244 | the added and the removed sets are the union of the dates their rules list, and are absent when no rule of that kind occurs |
| UntenbiRules.ParsedHasPattern | untenbiparser.py:199-256 | every text that interprets successfully has a pattern |
| UntenbiText.NumberRoundTrip | untenbiparser.py:45 | a printed number below 100 reads back as itself |
| UntenbiText.EndpointRoundTrip | untenbiparser.py:45-47 | a printed `[M月]D` reads back as the same month and day, with or without the optional 日; a day written without 日 reads back only when the text after it does not start with a digit, 日 or 月, which the parser would take as part of the date |
| UntenbiText.DateRoundTrip | untenbiparser.py:84 | a printed single date or range reads back as itself, each day written with or without 日, under the same condition on the text after its last day |
| UntenbiText.DatesRoundTrip | untenbiparser.py:85 | a printed ・-separated date list reads back as the same list, each day written with or without 日; only the last day constrains what may follow, since ・ and ～ end a day cleanly |
| UntenbiText.KeywordRoundTrip | untenbiparser.py:154-160 | each of the seven boundary keywords reads back as its own kind; the keywords that share a leading から or まで are told apart by what follows |
| UntenbiText.RuleTypeRoundTrip | untenbiparser.py:172-174 | 運転 or 運休, with or without は, reads back as that rule type |
| UntenbiText.LeadingPatternRead | untenbiparser.py:190-192 | 全日運転 or 土曜・休日 followed by と or 。 is read as that pattern |
| UntenbiText.AllRulesTrailing | untenbiparser.py:187 | a trailing 、 or 。 after the last rule is consumed |
| UntenbiText.RuleRoundTrip | untenbiparser.py:186 | a printed rule, each day written with or without 日, reads back as its elaboration: a boundary rule with its month, or a list rule with months carried and ranges expanded, or the error elaboration meets |
| UntenbiText.RulesRoundTrip | untenbiparser.py:187 | a printed rule list, with any mix of separators and an optional trailing one, reads back as the elaborated rules, stopping at the first error |
| UntenbiText.ProgramRoundTrip | untenbiparser.py:199-256 | a printed operating-day text, each day written with or without 日, parses and interprets exactly as its elaborated rules interpreted after its leading pattern |
| UntenbiText.UntilDayRuns | untenbiparser.py:224-234 | `M月D日まで運転` means every day from 1 Jan to (M, D) |
| UntenbiText.FromDayNeedsMonth | untenbiparser.py:162-163 | `D日から運転` without a month is rejected with "month required" |
| UntenbiText.TwoDatesRun | untenbiparser.py:236-244 | two dates followed by 運転 give pattern 全休 with exactly those two dates added |
| UntenbiText.RangeRuns | untenbiparser.py:126-131 | `M月D1日～D2日運転`, the second 日 optional, adds exactly the real dates from (M, D1) to (M, D2), under 全休 |
| UntenbiText.RangeThenDayRuns | untenbiparser.py:89-131 | `M1月D1日～M2月D2・D3日運転`, with no 日 after D2, adds exactly the real dates from (M1, D1) to (M2, D2) and the day (M2, D3), which takes the month the range ended in |
| UntenbiText.SpringExampleRuns | untenbiparser.py:47 | the text `3月19日～4月10・13日運転` gives pattern 全休 and adds exactly 19 to 31 March, 1 to 10 April and 13 April |
| UntenbiText.NewYearRangeAddsNothing | untenbiparser.py:128 | `12月D1日～1月D2日運転` succeeds with an empty added set |
| Times.FromSeconds | hokkaidorail.py:143-145 | the constructor gives minutes and seconds in 0..59 and keeps the count of seconds, for negative counts too |
| Times.FromSecondsOfNormal | hokkaidorail.py:143-153 | a normal time is rebuilt from its own count of seconds |
| Times.SameSecondsSameTime | hokkaidorail.py:161 | on normal times, equal counts of seconds mean equal times, and the converse |
| Times.LessIsLexicographic | hokkaidorail.py:157 | on normal times, `<` is the order of (hours, minutes, seconds) |
| Times.Add | hokkaidorail.py:155 | adding k seconds gives a normal time whose count of seconds is k more |
| Times.Sub | hokkaidorail.py:156 | subtracting k seconds gives a normal time whose count of seconds is k less |
| Times.SubUndoesAdd | hokkaidorail.py:155-156 | subtracting what was added gives the time back |
| Times.AddUndoesSub | hokkaidorail.py:155-156 | adding what was subtracted gives the time back |
| Times.AddsCompose | hokkaidorail.py:155 | two additions are one addition of the sum |
| Times.AddSubInverse | hokkaidorail.py:155-156 | adding then subtracting the same amount returns the time, and the other way round; additions compose; adding makes a time later exactly when the amount is positive |
| Times.Pad2 | hokkaidorail.py:150 | the `0>2` format pads to width 2 and never cuts |
| Times.FormatRoundTrip | hokkaidorail.py:147-150 | the `HH:MM:SS` text of any non-negative count of seconds reads back as that count |
| Times.FormatReadsBack | hokkaidorail.py:147-150 | the text of any normal time with non-negative hours reads back as its count of seconds |
| Times.FormatWidth | hokkaidorail.py:150 | below 100 hours the text is exactly 8 characters |
| Times.HourRange | hokkaidorail.py:143-145 | a non-negative count has non-negative hours, below 100 for counts below 360000 |
| Times.KeepDigits | hokkaidorail.py:166 | the kept characters are all digits and no more than the input |
| Times.KeepDigitsConcat | hokkaidorail.py:166 | removing non-digits from a concatenation removes them from each part |
| Times.NonDigitIgnored | hokkaidorail.py:166 | inserting a non-digit anywhere does not change what `from_str` gives |
| Times.FromStr | hokkaidorail.py:164-176 | succeeds exactly when the text holds 3 or 4 digits; otherwise fails with those digits; a result is a normal whole minute |
| Times.HoursMinutes | hokkaidorail.py:169-172 | hours and minutes make a normal whole-minute time, non-negative and bounded for two-digit parts |
| Times.FromStrOfDigits | hokkaidorail.py:168-172 | three or four digits read as H·MM or HH·MM: the last two digits are the minutes |
| Times.FromStrReadsHoursMinutes | hokkaidorail.py:168-172 | an unpadded hour followed by two minute digits reads as that hour and minute |
| Times.FromStrWithColon | hokkaidorail.py:165-172 | `H:MM` and `HH:MM` read as the same time as without the colon |
| Trains.HasStation | hokkaidorail.py:68-76 | the index is −1 or a position of the train; it is the first stop with that name; −1 exactly when the train does not stop there |
| Timetable.TerminalName | hokkaidorail.py:349 | the name holds exactly the characters of the text that are word characters and not digits, and is no longer than the text |
| Timetable.TerminalNameIdempotent | hokkaidorail.py:349 | cleaning a name a second time changes nothing |
| Timetable.Rollover | hokkaidorail.py:390-393 | a time is shifted exactly when the latch is on and the time is before 04:00, and then by 24 hours |
| Timetable.Upsert | hokkaidorail.py:395-417 | the station set gains the name; a listed station with kind arr or dep gets that time set to the value at its first index, the other time and every other stop unchanged; otherwise a stop with both times equal is appended; distinct names are kept distinct |
| Timetable.StationCell | hokkaidorail.py:374-417 | a skip marker leaves the scan unchanged; otherwise the cell fails exactly on an unreadable time (with the time's error) or a missing column; the latch turns on for a time after 22:00; only the cell's column changes, and only its stops; the stops are the upsert of the read time, shifted to the next day when the latch is on and the time is before 04:00 |
| Timetable.TerminalCell | hokkaidorail.py:344-349 | succeeds exactly when the time reads and the column exists; sets that terminal's time, and its name to the pop-up text when there is one, else to the text's word characters; leaves the stops, the fields, the other terminal and the other columns alone |
| Timetable.FieldCell | hokkaidorail.py:354-420 | a plain labelled cell stores its text under its key in its column and fails exactly when the column is missing; only this column and, for 区休, the previous one change, and never their stops |
| Timetable.SectionChangeCell | hokkaidorail.py:355-365 | a 区休 cell succeeds exactly when the previous column exists, has a calendar known to the section table, and this column exists; it moves the previous train to the table's first calendar and gives this one the second; a previous calendar the table does not list fails with the `ValueError` that names it |
| Timetable.ProcessCell | hokkaidorail.py:327-420 | one cell keeps the set of columns; the latch is on afterwards exactly when it was on or the cell is a station time after 22:00; at most this and the previous column change; distinct station names stay distinct |
| Timetable.ScanInvariants | hokkaidorail.py:315-422 | a successful scan keeps the set of columns; the latch ends on exactly when it started on or some station cell has a time after 22:00; distinct station names stay distinct for arr and dep rows |
| Timetable.EveningStaysOn | hokkaidorail.py:386-388 | once on, the latch stays on for the rest of the page |
| Timetable.NewStationAppends | hokkaidorail.py:411-417 | a readable time for a station the train does not list yet appends one stop with both times equal to the, possibly shifted, time |
| Timetable.DepartureOfLast | hokkaidorail.py:395-409 | a departure for the station just appended overwrites only that stop's departure |
| Timetable.ArrivalThenDeparture | hokkaidorail.py:386-417 | an arrival cell then a departure cell for a new station leave one stop holding the two (possibly shifted) times |
| Timetable.AppendToOnlyColumn | hokkaidorail.py:384-417 | the same for a page with one column, stated on the whole scan |
| Timetable.EveningStation | hokkaidorail.py:386-393 | a time past 22:00 is appended as read and latches the scan into the evening, whatever it was before |
| Timetable.NightStation | hokkaidorail.py:386-393 | once latched, a time before 04:00 is appended 24 hours later and the latch stays on |
| Timetable.EveningThenNight | hokkaidorail.py:386-393 | after a time past 22:00, a later time before 04:00 in the same column is put on the next day, whatever cells follow |
| Timetable.DayStationFirst | hokkaidorail.py:384-417 | a first time between 04:00 and 22:00 read into an empty train is appended as read and leaves the latch off |
| Timetable.EveningLatchScenario | hokkaidorail.py:386-393 | three stations read into an empty train, at a day time, a time after 22:00 and a time before 04:00, give three stops with only the last shifted by 24 hours |
| Timetable.KeepUsable | hokkaidorail.py:445-448 | a train is kept exactly when it has stops and its calendar is neither 時変 nor 臨停 |
| Timetable.KeepUsableConcat | hokkaidorail.py:445-448 | filtering two pages in turn is filtering each, in order |
| Splitting.StopsAtAnyMeansShared | hokkaidorail.py:93 | the `any(has_station …)` test holds exactly when the names share a station with the train |
| Splitting.PartNames | hokkaidorail.py:108-114 | neither part visits a station the train does not |
| Splitting.PartsRejoin | hokkaidorail.py:108-114 | both parts have at least two stops; they share the junction stop, whose departure equals its arrival; together they are the train with that stop changed; ends are kept |
| Splitting.PartsCover | hokkaidorail.py:108-114 | between them the two parts visit every station of the train |
| Splitting.CutSucceeds | hokkaidorail.py:106-135 | a cut train is placed exactly when it visits a station of route A or route B |
| Splitting.SplitTrainSucceeds | hokkaidorail.py:78-135 | `split_train` succeeds exactly for a train that visits a station of either route, or for the airport stub |
| Splitting.SplitTrain | hokkaidorail.py:78-135 | the errors are the unsplittable train and the missing trip name or number; each part is the train with a non-empty stop list that visits only its stations; when both exist, part A stops at an A station or part B at a B station |
| Splitting.Whole | hokkaidorail.py:91-104 | a train not cut goes whole to A if it stops at an A station, else whole to B if at a B station; stopping at neither, it goes nowhere exactly when it is the one-stop Sapporo airport stub, and otherwise fails on a missing trip name, a missing train number, or as unsplittable |
| Splitting.Cut | hokkaidorail.py:106-135 | a train cut at an inner junction gives both parts; the first part goes to A if it stops at an A station, else to B if at a B station, else the second part goes to A if at an A station, else to B if at a B station; it fails exactly when none of these holds, on the train number or as unsplittable |
| Splitting.Excluding | hokkaidorail.py:848-850 | the station set loses exactly the excluded names; what is left keeps its records |
| Splitting.ExcludingConcat | hokkaidorail.py:848-850 | excluding keeps order: excluding from a concatenation excludes from each part |
| Splitting.DropStubs | hokkaidorail.py:857-870 | only one part is dropped; a dropped part is a stub; B is looked at only when A is not a stub; a kept A is no stub |
| Splitting.RouteId | hokkaidorail.py:875-878 | needs the train's type; a bus goes to the route id plus 100, everything else to the route id |
| Splitting.Emit | hokkaidorail.py:873-885 | a missing or stop-less part emits nothing; a part with stops and a type emits exactly itself on the route id the type selects (the bus counterpart for a bus); without a type it fails on that key |
| Splitting.SplitTrips | hokkaidorail.py:852-900 | a split route emits at most two trips, each with stops, all at stations the train calls at, on A's or B's route id or its bus counterpart; a train that cannot be split fails with the split's error |
| Splitting.SplitTripsOfParts | hokkaidorail.py:852-900 | parts that are not stubs are all emitted, A's part on A's route first, then B's part on B's route |
| Splitting.SplitTripsDropsStubA | hokkaidorail.py:860-866 | a stub part on A is dropped and only B's part is emitted |
| Splitting.SplitTripsDropsStubB | hokkaidorail.py:860-870 | a stub part on B, when A's part is kept, is dropped and only A's part is emitted |
| Splitting.RouteTripsOfTrain | hokkaidorail.py:840-916 | a named train that is not skipped loses the excluded stations; on an unsplit route it then emits exactly itself on the route's id for its type when it still has stops, nothing when it has none, and fails without a type; on a split route it goes through the split |
| Splitting.RouteTrips | hokkaidorail.py:840-916 | a train needs a trip name; an express name emits nothing; at most two trips, each with stops, all at stations left after the route's exclusions, on the route's ids or their bus counterparts |
| Splitting.RouteTripsAvoidExcluded | hokkaidorail.py:848-916 | no trip a route emits calls at one of the route's excluded stations, and every trip has stops and one of the route's ids |
| Calendars.RunsExactly | hokkaidorail.py:589-608 | a day runs exactly when it is in the window and not removed, and either added or on a running weekday |
| Calendars.HolidayIsSunday | hokkaidorail.py:584 | a holiday runs exactly when a Sunday on that date would |
| Calendars.RegularRunsByWeekday | hokkaidorail.py:562-566 | a regular pattern runs on a real date exactly when its weekday slot is 1 |
| Calendars.PatternOf | hokkaidorail.py:572-577 | the weekly pattern is the regular entry the description names; a missing `pattern` key or an unknown pattern fails on that key |
| Calendars.ResolveService | hokkaidorail.py:561-577 | a regular name stands for itself with no exceptions; a manual entry uses its own data; anything else is parsed as an operating-day text; the pattern is the regular one named |
| Calendars.ServiceRows | hokkaidorail.py:579-622 | the rows are exactly those of type 1 for the service on the window's days on which it runs |
| Calendars.ServiceRowsConcat | hokkaidorail.py:579-622 | rows follow the days: two windows in turn give their rows in turn |
| Calendars.CalendarRows | hokkaidorail.py:559-622 | on success every service resolved and every row is of type 1, on a window day, for a known service id; a failure comes from a service that does not resolve |
| Calendars.CalendarRowsExactly | hokkaidorail.py:559-620 | a row is written if and only if some service resolves and runs on that window day, under its own id |
| Identifiers.Allocate | hokkaidorail.py:747-751 | a known key keeps its id and nothing changes; a new key gets the next id, above all others; no other id changes; ids stay 0..n−1 |
| Identifiers.AllocateIdempotent | hokkaidorail.py:747-751 | asking again for the same key gives the same id and changes nothing |
| Identifiers.AllocateDistinct | hokkaidorail.py:747-751 | two different keys never get the same id |
| Identifiers.InitialServicesDense | hokkaidorail.py:182 | the initial service table `毎日 → 0` is dense |
| Identifiers.BlockOf | hokkaidorail.py:762-778 | needs both terminals, failing on the first then the last; the block is empty exactly when the trip starts and ends at the train's own terminals; otherwise the block id is the one of the terminal pair, allocated when new |
| Identifiers.ConvertIds | hokkaidorail.py:746-778 | needs a calendar and both terminals; the trip id is the counter, which goes up by one; the service id is the calendar's, allocated when new; the id tables only grow and stay dense |
| Identifiers.ConvertAllIds | hokkaidorail.py:755-757 | converting a list of trains hands out consecutive trip ids, maps each train's calendar to its service id, and keeps the id tables dense |
| Identifiers.ServiceIdsMatchCalendars | hokkaidorail.py:747-751 | two converted trains share a service id exactly when they have the same calendar text |
| Identifiers.ConvertIdsKeepsServices | hokkaidorail.py:747-751 | converting a train leaves the ids of known calendars as they were |

## Left out

- Downloading and reading HTML are not modelled: `requests`, BeautifulSoup, `get_text()`, the `onclick` regular expression, and `strip()`. A cell arrives as its stripped text plus the pop-up text the regular expression would extract. Empty cells are skipped.
- The timetable header (`parse_web_timeheader`) and the station column (`parse_web_ekidori`) are not modelled. The scan starts from the trains by column, and each row's label is already split into a station and a kind.
- Labels that contain extra `_`, and the field rows `stations` and `dir`, are not modelled. They would overwrite the train's own fields.
- File, CSV and YAML reading and writing are not modelled. The calendar tables, the section-change table, the express names and the routes are inputs. The rows are the values written, not their CSV text.
- `date.today()`, the window of 365 days and the holiday download are not modelled. The window is an input list of days, each with its weekday and holiday flag.
- Headsigns, translations, route colours, `stop_id` lookup, `OUTPUT_SERVICE_DESC`, feed info and `used_routes` are not modelled. They choose output text, not which trips, days or ids exist.
- Express trains (`trains_express`) are not modelled. Only their names are used, to skip their trains in the normal routes.
- The `parsec` library is not modelled. Its combinators are written out as ordered-choice functions on strings, with a result of no match, a raised error, or a value and the rest of the text.
- Progress printing and `warn` are not modelled.
- Times.KeepDigits: counts only ASCII and full-width digits as digits. Python's `\D` keeps every Unicode decimal digit.
- Digits.DigitValue: covers only the ASCII and full-width digits.
- Timetable.TerminalName: takes the word-character test as a parameter (`keep`). The Unicode category tables behind Python's `\w` and `\d` are not modelled.
- Splitting.Emit: checks only the `type` key. `convert_to_gtfs` also reads other keys before it, and which of those missing keys is reported first is not modelled.
- Splitting.SplitTrain: treats the parts as values. In the program, the two parts share the junction stop's record with the original train, and the original train is changed too.
- UntenbiRules.ParseUntenbi: has no contract of its own. Its meaning is stated by `UntenbiText.ProgramRoundTrip` and `UntenbiRules.ParsedHasPattern`.
- UntenbiRules.Interpret: has no contract of its own. The `ApplyAll` lemmas and `Reconcile` state its meaning.
- Timetable.ProcessAll: has no contract of its own. `Timetable.ScanInvariants` states its meaning.
- UntenbiGrammar.DateList: leaves a trailing `・` unread, as `sepBy1` is documented to do. The `parsec` library's own code is not part of this model, so that behaviour is assumed.
- Calendars.CalendarRows: returns only the error when a service does not resolve. The program writes rows as it goes, so the rows of the services before that one are already in the file.
- Timetable.EveningLatchScenario: states the 21:50 / 23:10 / 00:20 walk-through for any three distinct station names and any three readable cell texts with times in those bands, not for particular literals.

=== FILE: calendars.dfy ===
/** Turning service descriptions into GTFS `calendar_dates` rows.

    Each service is looked up among the named weekly patterns, then among
    the hand-written descriptions, and otherwise parsed as operating-day
    text. Every day of the generation window is then decided by a
    first-match rule, and the days that run become rows with exception
    type 1 ("service added"). Dates carry no year; the window itself, from
    today for a year, is an input. */
module Calendars {
  import opened Results
  import opened MonthDays
  import opened UntenbiRules

  /** `date.weekday()`: 0 is Monday, 6 is Sunday. */
  type Weekday = n: nat | n < 7

  /** One day of the window, with whether it is a public holiday. */
  datatype Day = Day(date: MonthDay, weekday: Weekday, holiday: bool)

  /** Which days of the week (Monday first) a pattern runs on; 1 means it
      runs. */
  type WeekPattern = s: seq<int> | |s| == 7 witness [0, 0, 0, 0, 0, 0, 0]

  /** The parts of the calendar table a service is resolved against. */
  datatype CalendarData = CalendarData(regular: map<string, WeekPattern>, other: map<string, Untenbi>)

  /** `exception_type` 1: service added on that date. */
  const Added: int := 1

  datatype Row = Row(serviceId: nat, day: Day, exceptionType: int)

  /** Holidays use the Sunday slot of the pattern. */
  function Slot(d: Day): Weekday {
    if d.holiday then 6 else d.weekday
  }

  /** The first-match decision for one day: outside the window, no;
      removed, no; added, yes; otherwise the weekly pattern. A missing
      window end reads as 1 January or 31 December, and a missing date set
      as empty. */
  predicate Runs(data: Untenbi, pattern: WeekPattern, d: Day) {
    if Before(data.end.GetOr(MD(12, 31)), d.date) || Before(d.date, data.start.GetOr(MD(1, 1))) then false
    else if d.date in SetOrEmpty(data.removed) then false
    else if d.date in SetOrEmpty(data.added) then true
    else pattern[Slot(d)] == 1
  }

  predicate InWindow(data: Untenbi, d: Day) {
    NotAfter(data.start.GetOr(MD(1, 1)), d.date) && NotAfter(d.date, data.end.GetOr(MD(12, 31)))
  }

  /** The same decision stated without an order of tests: inside the
      window, not removed, and either added or on a running weekday. So a
      date both added and removed does not run. */
  lemma RunsExactly(data: Untenbi, pattern: WeekPattern, d: Day)
    ensures Runs(data, pattern, d) <==>
              InWindow(data, d) && d.date !in SetOrEmpty(data.removed) &&
              (d.date in SetOrEmpty(data.added) || pattern[Slot(d)] == 1)
  {
  }

  /** A holiday runs exactly when a Sunday on the same date would. */
  lemma HolidayIsSunday(data: Untenbi, pattern: WeekPattern, d: Day)
    requires d.holiday
    ensures Runs(data, pattern, d) == Runs(data, pattern, d.(weekday := 6, holiday := false))
  {
  }

  /** The pattern a service description names. */
  function PatternOf(cal: CalendarData, data: Untenbi): (r: Result<WeekPattern>)
    ensures r.Ok? <==> data.pattern.Some? && data.pattern.value in cal.regular
    ensures r.Ok? ==> r.value == cal.regular[data.pattern.value]
    ensures data.pattern.None? ==> r == Err(MissingKey("pattern"))
    ensures data.pattern.Some? && data.pattern.value !in cal.regular ==> r == Err(MissingKey(data.pattern.value))
  {
    if data.pattern.None? then Err(MissingKey("pattern"))
    else if data.pattern.value !in cal.regular then Err(MissingKey(data.pattern.value))
    else Ok(cal.regular[data.pattern.value])
  }

  /** A service's description and weekly pattern: a regular pattern stands
      alone; a hand-written description or a parsed text names its pattern. */
  function ResolveService(cal: CalendarData, desc: string): (r: Result<(Untenbi, WeekPattern)>)
    ensures desc in cal.regular ==> r == Ok((NoFields, cal.regular[desc]))
    ensures desc !in cal.regular && desc in cal.other ==>
              (r.Ok? <==> PatternOf(cal, cal.other[desc]).Ok?) && (r.Ok? ==> r.value.0 == cal.other[desc])
    ensures desc !in cal.regular && desc !in cal.other ==>
              (r.Ok? <==> ParseUntenbi(desc).Ok? && PatternOf(cal, ParseUntenbi(desc).value).Ok?) &&
              (r.Ok? ==> r.value.0 == ParseUntenbi(desc).value)
    ensures r.Ok? ==> r.value.0.pattern.None? || r.value.1 == cal.regular[r.value.0.pattern.value]
  {
    if desc in cal.regular then Ok((NoFields, cal.regular[desc]))
    else if desc in cal.other then
      var data := cal.other[desc];
      var pattern :- PatternOf(cal, data);
      Ok((data, pattern))
    else
      var data :- ParseUntenbi(desc);
      var pattern :- PatternOf(cal, data);
      Ok((data, pattern))
  }

  /** A regular pattern runs on its weekdays all year round. */
  lemma RegularRunsByWeekday(pattern: WeekPattern, d: Day)
    requires Valid(d.date)
    ensures Runs(NoFields, pattern, d) <==> pattern[Slot(d)] == 1
  {
  }

  /** The rows of one service over the window, in the window's order. */
  function ServiceRows(id: nat, data: Untenbi, pattern: WeekPattern, days: seq<Day>): (r: seq<Row>)
    ensures |r| <= |days|
    ensures forall row :: row in r <==> row.serviceId == id && row.exceptionType == Added &&
                                         row.day in days && Runs(data, pattern, row.day)
  {
    if |days| == 0 then []
    else
      var rest := ServiceRows(id, data, pattern, days[1..]);
      assert forall d :: d in days <==> d == days[0] || d in days[1..];
      if Runs(data, pattern, days[0]) then [Row(id, days[0], Added)] + rest else rest
  }

  /** Rows follow the days: the rows of two windows in turn are the rows of
      the joined window. */
  lemma {:induction false} ServiceRowsConcat(id: nat, data: Untenbi, pattern: WeekPattern, xs: seq<Day>, ys: seq<Day>)
    ensures ServiceRows(id, data, pattern, xs + ys) == ServiceRows(id, data, pattern, xs) + ServiceRows(id, data, pattern, ys)
  {
    if |xs| == 0 {
      assert xs + ys == ys;
    } else {
      assert (xs + ys)[1..] == xs[1..] + ys;
      ServiceRowsConcat(id, data, pattern, xs[1..], ys);
    }
  }

  /** `calendars`: every used service, in the order the ids were handed
      out, resolved and expanded over the window. The first service that
      cannot be resolved stops the run. */
  function CalendarRows(cal: CalendarData, services: seq<(string, nat)>, days: seq<Day>): (r: Result<seq<Row>>)
    decreases |services|
    ensures r.Ok? ==> forall k :: 0 <= k < |services| ==> ResolveService(cal, services[k].0).Ok?
    ensures r.Ok? ==> forall row :: row in r.value ==> row.exceptionType == Added && row.day in days
    ensures r.Ok? ==> forall row :: row in r.value ==> exists k :: 0 <= k < |services| && row.serviceId == services[k].1
    ensures r.Err? ==> exists k :: 0 <= k < |services| && ResolveService(cal, services[k].0).Err?
  {
    if |services| == 0 then Ok([])
    else
      var resolved :- ResolveService(cal, services[0].0);
      var here := ServiceRows(services[0].1, resolved.0, resolved.1, days);
      var rest :- CalendarRows(cal, services[1..], days);
      assert forall k :: 1 <= k < |services| ==> services[k] == services[1..][k - 1];
      Ok(here + rest)
  }

  /** A row the program writes for `service` over the window: the service
      resolves, and the row is its id on a window day the service runs. */
  predicate RowOf(cal: CalendarData, service: (string, nat), days: seq<Day>, row: Row) {
    && ResolveService(cal, service.0).Ok?
    && row.serviceId == service.1 && row.exceptionType == Added && row.day in days
    && Runs(ResolveService(cal, service.0).value.0, ResolveService(cal, service.0).value.1, row.day)
  }

  /** The rows are exactly the running days of every service: a row is
      written if and only if some service runs on that window day under
      its own description and pattern. */
  lemma {:induction false} CalendarRowsExactly(cal: CalendarData, services: seq<(string, nat)>, days: seq<Day>)
    requires CalendarRows(cal, services, days).Ok?
    decreases |services|
    ensures forall row :: row in CalendarRows(cal, services, days).value <==>
                          exists k :: 0 <= k < |services| && RowOf(cal, services[k], days, row)
  {
    if |services| > 0 {
      var resolved := ResolveService(cal, services[0].0).value;
      var here := ServiceRows(services[0].1, resolved.0, resolved.1, days);
      var rest := CalendarRows(cal, services[1..], days).value;
      CalendarRowsExactly(cal, services[1..], days);
      assert CalendarRows(cal, services, days).value == here + rest;
      forall row | row in here + rest
        ensures exists k :: 0 <= k < |services| && RowOf(cal, services[k], days, row)
      {
        if row in here {
          assert RowOf(cal, services[0], days, row);
        } else {
          var k :| 0 <= k < |services[1..]| && RowOf(cal, services[1..][k], days, row);
          assert RowOf(cal, services[k + 1], days, row);
        }
      }
      forall row | exists k :: 0 <= k < |services| && RowOf(cal, services[k], days, row)
        ensures row in here + rest
      {
        var k :| 0 <= k < |services| && RowOf(cal, services[k], days, row);
        if k == 0 {
          assert row in here;
        } else {
          assert RowOf(cal, services[1..][k - 1], days, row);
        }
      }
    }
  }
}

=== FILE: digits.dfy ===
/** Decimal digits and numerals. Both the operating-day grammar and the
    time reader accept ASCII and full-width digits, and read each as the
    digit value `int()` gives it. */
module Digits {

  /** A character the numeral pattern `[０-９0-9]` accepts. */
  predicate IsDigit(c: char) {
    ('0' <= c <= '9') || ('０' <= c <= '９')
  }

  /** The value Python's `int()` gives such a digit. */
  function DigitValue(c: char): (v: nat)
    requires IsDigit(c)
    ensures v < 10
  {
    if '0' <= c <= '9' then c as int - '0' as int else c as int - '０' as int
  }

  /** The ASCII digit for a value. */
  function Digit(n: nat): (c: char)
    requires n < 10
    ensures IsDigit(c) && DigitValue(c) == n
    ensures '0' <= c <= '9'
  {
    ('0' as int + n) as char
  }

  /** Positions `lo` to `hi - 1` of `s` hold digits. */
  predicate DigitsIn(s: string, lo: int, hi: int)
    requires 0 <= lo <= hi <= |s|
  {
    forall i :: lo <= i < hi ==> IsDigit(s[i])
  }

  predicate AllDigits(s: string) {
    DigitsIn(s, 0, |s|)
  }

  /** `int()` of the digits at positions `lo` to `hi - 1`, most
      significant first; an empty range reads as 0 here, though `int("")`
      raises. */
  function RangeValue(s: string, lo: int, hi: int): (n: nat)
    requires 0 <= lo <= hi <= |s| && DigitsIn(s, lo, hi)
    decreases hi - lo
    ensures hi - lo <= 1 ==> n < 10
    ensures hi - lo <= 2 ==> n < 100
  {
    if hi == lo then 0 else 10 * RangeValue(s, lo, hi - 1) + DigitValue(s[hi - 1])
  }

  /** `int()` of a whole digit string. */
  function DecimalValue(s: string): nat
    requires AllDigits(s)
  {
    RangeValue(s, 0, |s|)
  }

  /** The value of a leading range depends on its characters alone. */
  lemma {:induction false} PrefixValue(s: string, t: string, hi: nat)
    requires hi <= |s| && hi <= |t| && DigitsIn(s, 0, hi)
    requires forall i :: 0 <= i < hi ==> s[i] == t[i]
    decreases hi
    ensures DigitsIn(t, 0, hi) && RangeValue(t, 0, hi) == RangeValue(s, 0, hi)
  {
    if hi > 0 {
      PrefixValue(s, t, hi - 1);
    }
  }

  /** The same for a range that starts at `off` in `t`: it has the value
      of the leading range of `s` with the same characters. */
  lemma {:induction false} ShiftValue(s: string, t: string, off: nat, hi: nat)
    requires hi <= |s| && off + hi <= |t| && DigitsIn(s, 0, hi)
    requires forall i :: 0 <= i < hi ==> s[i] == t[off + i]
    decreases hi
    ensures DigitsIn(t, off, off + hi) && RangeValue(t, off, off + hi) == RangeValue(s, 0, hi)
  {
    if hi > 0 {
      ShiftValue(s, t, off, hi - 1);
      var j := off + hi;
      assert j - 1 == off + (hi - 1);
      assert t[j - 1] == s[hi - 1];
    }
  }

  /** `str(n)` for a natural number. */
  function NatText(n: nat): (s: string)
    decreases n
    ensures |s| > 0 && AllDigits(s)
    ensures forall i :: 0 <= i < |s| ==> '0' <= s[i] <= '9'
  {
    if n < 10 then [Digit(n)] else NatText(n / 10) + [Digit(n % 10)]
  }

  /** `NatText` is read back by `DecimalValue`. */
  lemma {:induction false} NatTextRoundTrip(n: nat)
    decreases n
    ensures DecimalValue(NatText(n)) == n
  {
    if n >= 10 {
      var s := NatText(n);
      var head := NatText(n / 10);
      var k := |head|;
      assert s == head + [Digit(n % 10)];
      assert |s| == k + 1 && s[k] == Digit(n % 10);
      NatTextRoundTrip(n / 10);
      PrefixValue(head, s, k);
      assert RangeValue(s, 0, k + 1) == 10 * RangeValue(s, 0, k) + DigitValue(s[k]);
    }
  }

  /** `NatText` has no leading zero and is as long as the number needs. */
  lemma {:induction false} NatTextLength(n: nat)
    decreases n
    ensures n < 10 <==> |NatText(n)| == 1
    ensures 10 <= n < 100 <==> |NatText(n)| == 2
    ensures |NatText(n)| > 1 ==> NatText(n)[0] != '0'
  {
    if n >= 10 {
      NatTextLength(n / 10);
      assert NatText(n)[0] == NatText(n / 10)[0];
    }
  }

  /** Leading zeros do not change the value. */
  lemma LeadingZero(s: string)
    requires AllDigits(s)
    ensures AllDigits(['0'] + s) && DecimalValue(['0'] + s) == DecimalValue(s)
  {
    LeadingZeroPrefix(s, |s|);
  }

  lemma {:induction false} LeadingZeroPrefix(s: string, k: nat)
    requires AllDigits(s) && k <= |s|
    decreases k
    ensures AllDigits(['0'] + s) && RangeValue(['0'] + s, 0, k + 1) == RangeValue(s, 0, k)
  {
    var t := ['0'] + s;
    assert t[k] == if k == 0 then '0' else s[k - 1];
    if k > 0 {
      LeadingZeroPrefix(s, k - 1);
    } else {
      assert RangeValue(t, 0, 1) == 10 * RangeValue(t, 0, 0) + DigitValue(t[0]);
    }
  }
}

=== FILE: identifiers.dfy ===
/** The numeric identifiers the GTFS conversion hands out: service ids by
    calendar description, block ids by the pair of terminals a through
    train runs between, and consecutive trip ids.

    Service and block ids come from dictionaries that grow by one entry
    per new key, the new key taking the dictionary's size as its id. The
    service dictionary starts with "every day" as 0. */
module Identifiers {
  import opened Results
  import opened Trains
  import opened UntenbiRules

  /** The ids are 0, 1, ..., |ids| - 1, one per key. */
  ghost predicate Dense<K>(ids: map<K, nat>) {
    && (forall k :: k in ids ==> ids[k] < |ids|)
    && (forall a, b :: a in ids && b in ids && a != b ==> ids[a] != ids[b])
  }

  /** The id of `key`, allocating the next one for a key not seen yet. */
  function Allocate<K>(ids: map<K, nat>, key: K): (r: (map<K, nat>, nat))
    ensures key in r.0 && r.0[key] == r.1
    ensures r.0.Keys == ids.Keys + {key}
    ensures forall k :: k in ids ==> r.0[k] == ids[k]
    ensures key in ids ==> r.0 == ids
    ensures Dense(ids) ==> Dense(r.0)
    ensures Dense(ids) && key !in ids ==> forall k :: k in ids ==> ids[k] < r.1
  {
    if key in ids then (ids, ids[key])
    else
      var n := |ids|;
      var m := ids[key := n];
      assert |m| == n + 1 by {
        assert m.Keys == ids.Keys + {key};
        assert |m.Keys| == |ids.Keys| + 1;
      }
      (m, n)
  }

  /** Asking again for a key gives the same id and changes nothing. */
  lemma AllocateIdempotent<K>(ids: map<K, nat>, key: K)
    ensures var (m, n) := Allocate(ids, key); Allocate(m, key) == (m, n)
  {
  }

  /** Distinct keys never share an id. */
  lemma AllocateDistinct<K>(ids: map<K, nat>, a: K, b: K)
    requires Dense(ids) && a != b
    ensures var (m1, x) := Allocate(ids, a);
            var (m2, y) := Allocate(m1, b);
            x != y
  {
  }

  const InitialServices: map<string, nat> := map[EveryDay := 0]

  lemma InitialServicesDense()
    ensures Dense(InitialServices)
  {
  }

  /** A block key: both terminals of the train the trip belongs to. */
  datatype BlockKey = BlockKey(firstName: string, firstTime: int, lastName: string, lastTime: int)

  /** GTFS `block_id`: empty for a trip that is the whole train. */
  datatype BlockId = NoBlock | Block(n: nat)

  /** The trip runs between the train's own terminals: its first stop and
      departure, and its last stop and arrival, are the train's. */
  predicate IsWholeTrain(stations: seq<Stop>, first: Terminal, last: Terminal)
    requires |stations| > 0
  {
    && stations[0].station == first.name && stations[0].dep == first.time
    && stations[|stations| - 1].station == last.name && stations[|stations| - 1].arr == last.time
  }

  /** The id state: services, blocks and the next trip id. */
  datatype Ids = Ids(services: map<string, nat>, blocks: map<BlockKey, nat>, nextTrip: nat)

  const InitialIds: Ids := Ids(InitialServices, map[], 0)

  ghost predicate WellFormed(ids: Ids) {
    Dense(ids.services) && Dense(ids.blocks)
  }

  /** The ids of one converted trip. */
  datatype TripIds = TripIds(service: nat, trip: nat, block: BlockId)

  /** The block part of `convert_to_gtfs`. */
  function BlockOf(blocks: map<BlockKey, nat>, train: Train): (r: Result<(map<BlockKey, nat>, BlockId)>)
    requires |train.stations| > 0
    ensures r.Ok? <==> train.first.Some? && train.last.Some?
    ensures train.first.None? ==> r == Err(MissingKey("first_station"))
    ensures train.first.Some? && train.last.None? ==> r == Err(MissingKey("last_station"))
    ensures r.Ok? ==> (r.value.1 == NoBlock <==> IsWholeTrain(train.stations, train.first.value, train.last.value))
    ensures r.Ok? && r.value.1 == NoBlock ==> r.value.0 == blocks
    ensures r.Ok? && r.value.1.Block? ==>
              var key := BlockKey(train.first.value.name, train.first.value.time, train.last.value.name, train.last.value.time);
              key in r.value.0 && r.value.0[key] == r.value.1.n
    ensures r.Ok? ==> r.value.0.Keys >= blocks.Keys && (Dense(blocks) ==> Dense(r.value.0))
  {
    if train.first.None? then Err(MissingKey("first_station"))
    else if train.last.None? then Err(MissingKey("last_station"))
    else
      var first := train.first.value;
      var last := train.last.value;
      if IsWholeTrain(train.stations, first, last) then Ok((blocks, NoBlock))
      else
        var given := Allocate(blocks, BlockKey(first.name, first.time, last.name, last.time));
        Ok((given.0, Block(given.1)))
  }

  /** The id part of `convert_to_gtfs`: the service id of the train's
      calendar, the next trip id, and the block id. */
  function ConvertIds(ids: Ids, train: Train): (r: Result<(Ids, TripIds)>)
    requires |train.stations| > 0
    ensures r.Ok? <==> "active_days" in train.info && train.first.Some? && train.last.Some?
    ensures "active_days" !in train.info ==> r == Err(MissingKey("active_days"))
    ensures r.Ok? ==> r.value.1.trip == ids.nextTrip && r.value.0.nextTrip == ids.nextTrip + 1
    ensures r.Ok? ==> var days := train.info["active_days"];
              days in r.value.0.services && r.value.0.services[days] == r.value.1.service &&
              (days in ids.services ==> r.value.1.service == ids.services[days])
    ensures r.Ok? ==> r.value.0.services.Keys >= ids.services.Keys && r.value.0.blocks.Keys >= ids.blocks.Keys
    ensures r.Ok? && WellFormed(ids) ==> WellFormed(r.value.0)
    ensures r.Ok? ==> (r.value.1.block == NoBlock <==> IsWholeTrain(train.stations, train.first.value, train.last.value))
  {
    var days :- Field(train, "active_days");
    var service := Allocate(ids.services, days);
    var block :- BlockOf(ids.blocks, train);
    Ok((Ids(service.0, block.0, ids.nextTrip + 1), TripIds(service.1, ids.nextTrip, block.1)))
  }

  /** Converting trains one after another. */
  function ConvertAll(ids: Ids, trains: seq<Train>): (r: Result<(Ids, seq<TripIds>)>)
    requires forall k :: 0 <= k < |trains| ==> |trains[k].stations| > 0
    decreases |trains|
  {
    if |trains| == 0 then Ok((ids, []))
    else
      var one :- ConvertIds(ids, trains[0]);
      var rest :- ConvertAll(one.0, trains[1..]);
      Ok((rest.0, [one.1] + rest.1))
  }

  /** Trip ids are handed out consecutively, one per train; the id
      dictionaries stay dense; and two trains with the same calendar get
      the same service id, two with different calendars different ones. */
  lemma {:induction false} ConvertAllIds(ids: Ids, trains: seq<Train>)
    requires forall k :: 0 <= k < |trains| ==> |trains[k].stations| > 0
    requires ConvertAll(ids, trains).Ok?
    decreases |trains|
    ensures var (out, trips) := ConvertAll(ids, trains).value;
            && |trips| == |trains|
            && out.nextTrip == ids.nextTrip + |trains|
            && (forall k :: 0 <= k < |trips| ==> trips[k].trip == ids.nextTrip + k)
            && (forall k :: 0 <= k < |trips| ==>
                  && "active_days" in trains[k].info
                  && trains[k].info["active_days"] in out.services
                  && out.services[trains[k].info["active_days"]] == trips[k].service)
            && out.services.Keys >= ids.services.Keys
            && (forall key :: key in ids.services ==> out.services[key] == ids.services[key])
            && (WellFormed(ids) ==> WellFormed(out))
  {
    if |trains| > 0 {
      var one := ConvertIds(ids, trains[0]).value;
      ConvertIdsKeepsServices(ids, trains[0]);
      ConvertAllIds(one.0, trains[1..]);
      var (out, tail) := ConvertAll(one.0, trains[1..]).value;
      var trips := [one.1] + tail;
      assert forall k :: 1 <= k < |trains| ==> trains[k] == trains[1..][k - 1];
      forall k | 0 <= k < |trips|
        ensures trips[k].trip == ids.nextTrip + k
        ensures "active_days" in trains[k].info && trains[k].info["active_days"] in out.services &&
                out.services[trains[k].info["active_days"]] == trips[k].service
      {
        if k > 0 {
          assert trips[k] == tail[k - 1];
        }
      }
    }
  }

  /** Starting from well-formed ids, two converted trains share a service
      id exactly when they share a calendar description. */
  lemma ServiceIdsMatchCalendars(ids: Ids, trains: seq<Train>, j: nat, k: nat)
    requires forall i :: 0 <= i < |trains| ==> |trains[i].stations| > 0
    requires WellFormed(ids) && ConvertAll(ids, trains).Ok?
    requires j < |trains| && k < |trains|
    ensures "active_days" in trains[j].info && "active_days" in trains[k].info
    ensures var trips := ConvertAll(ids, trains).value.1;
            |trips| == |trains| &&
            (trips[j].service == trips[k].service <==> trains[j].info["active_days"] == trains[k].info["active_days"])
  {
    ConvertAllIds(ids, trains);
  }

  /** Converting a train leaves the ids of known calendars as they were. */
  lemma ConvertIdsKeepsServices(ids: Ids, train: Train)
    requires |train.stations| > 0 && ConvertIds(ids, train).Ok?
    ensures forall key :: key in ids.services ==> ConvertIds(ids, train).value.0.services[key] == ids.services[key]
  {
  }
}

=== FILE: month_days.dfy ===
/** Year-less calendar dates and the day-stepping arithmetic of the
    operating-day interpreter.

    Dates carry no year. Every month table lookup goes through one fixed
    table, where February always has 29 days, and a month outside 1..12
    makes the lookup fail. Stepping forward computes the next month as
    `(m + 1) % 12`. So the day after 30 November is "month 0, day 1". The
    next forward step from there then fails on the table lookup. */
module MonthDays {
  import opened Results

  /** (month, day). Both parts are read from one- or two-digit numerals,
      so neither is negative. Nothing here restricts them to a real
      calendar: see `Valid`. */
  datatype MonthDay = MD(month: nat, day: nat)

  /** Tuple order `a < b`: by month, then by day. */
  predicate Before(a: MonthDay, b: MonthDay) {
    a.month < b.month || (a.month == b.month && a.day < b.day)
  }

  /** Tuple order `a <= b`. */
  predicate NotAfter(a: MonthDay, b: MonthDay) {
    !Before(b, a)
  }

  /** The month-length table, defined on months 1..12 only. */
  function DaysIn(month: int): nat
    requires 1 <= month <= 12
  {
    if month == 2 then 29
    else if month == 4 || month == 6 || month == 9 || month == 11 then 30
    else 31
  }

  /** A table lookup, failing like a missing dictionary key. */
  function MaxDays(month: int): (r: Result<nat>)
    ensures r.Ok? <==> 1 <= month <= 12
    ensures r.Ok? ==> 29 <= r.value <= 31
    ensures r.Err? ==> r.error == NoSuchMonth(month)
  {
    if 1 <= month <= 12 then Ok(DaysIn(month)) else Err(NoSuchMonth(month))
  }

  /** A date that exists in the (leap-year) calendar. */
  predicate Valid(x: MonthDay) {
    1 <= x.month <= 12 && 1 <= x.day <= DaysIn(x.month)
  }

  /** `y` is the first real date strictly after `x`. */
  ghost predicate IsNextValid(x: MonthDay, y: MonthDay) {
    && Valid(y)
    && Before(x, y)
    && forall z :: Valid(z) && Before(x, z) ==> NotAfter(y, z)
  }

  /** `y` is the last real date strictly before `x`. */
  ghost predicate IsPrevValid(x: MonthDay, y: MonthDay) {
    && Valid(y)
    && Before(y, x)
    && forall z :: Valid(z) && Before(z, x) ==> NotAfter(z, y)
  }

  /** `day_plus_one`. In months 1..12 this is the calendar's next real
      day, whatever the day number: day 0 goes to day 1, and a day past
      the month's length to the 1st of the next month. From 30 November
      on, the month wraps to the non-date (0, 1); from 31 December on, to
      1 January. */
  function DayPlusOne(x: MonthDay): (r: Result<MonthDay>)
    ensures r.Err? <==> !(1 <= x.month <= 12)
    ensures r.Err? ==> r.error == NoSuchMonth(x.month)
    ensures 1 <= x.month <= 12 && !(x.month == 11 && x.day >= 30) && !(x.month == 12 && x.day >= 31) ==>
              r.Ok? && IsNextValid(x, r.value)
    ensures x.month == 12 && x.day >= 31 ==> r == Ok(MD(1, 1))
    ensures x.month == 11 && x.day >= 30 ==> r == Ok(MD(0, 1))
    ensures r.Ok? ==> r.value.day >= 1
  {
    var max :- MaxDays(x.month);
    if x.day + 1 > max then Ok(MD((x.month + 1) % 12, 1))
    else Ok(MD(x.month, x.day + 1))
  }

  /** `day_minus_one`. A day above 1 just steps back, whatever the month.
      Day 0 or 1 goes to the last day of the previous month, for months
      2..13 the last real date before the 1st; from month 0 or 1 it goes to
      31 December. */
  function DayMinusOne(x: MonthDay): (r: Result<MonthDay>)
    ensures r.Err? <==> x.day <= 1 && x.month >= 14
    ensures r.Err? ==> r.error == NoSuchMonth(x.month - 1)
    ensures x.day > 1 ==> r == Ok(MD(x.month, x.day - 1))
    ensures Valid(x) && x != MD(1, 1) ==> r.Ok? && IsPrevValid(x, r.value)
    ensures x.day <= 1 && 2 <= x.month <= 13 ==> r.Ok? && IsPrevValid(MD(x.month, 1), r.value)
    ensures x.day <= 1 && x.month <= 1 ==> r == Ok(MD(12, 31))
  {
    var d := x.day - 1;
    if d <= 0 then
      var m := if x.month - 1 <= 0 then 12 else x.month - 1;
      var max :- MaxDays(m);
      Ok(MD(m, max))
    else
      Ok(MD(x.month, d))
  }

  /** Stepping back from a real date is undone by stepping forward,
      except across the 30 November / 1 December seam. */
  lemma MinusThenPlus(x: MonthDay)
    requires Valid(x) && x != MD(12, 1)
    ensures DayMinusOne(x).Ok?
    ensures DayPlusOne(DayMinusOne(x).value) == Ok(x)
  {
    if x != MD(1, 1) {
      var y := DayMinusOne(x).value;
      assert IsPrevValid(x, y);
      if y == MD(11, 30) {
        assert false;
      }
      if y == MD(12, 31) {
        assert false;
      }
      var z := DayPlusOne(y).value;
      assert IsNextValid(y, z);
      assert NotAfter(z, x);
      assert NotAfter(x, z);
    }
  }

  /** Stepping forward from a real date is undone by stepping back, except
      from 30 November, whose successor is not a real date. */
  lemma PlusThenMinus(x: MonthDay)
    requires Valid(x) && x != MD(11, 30)
    ensures DayPlusOne(x).Ok?
    ensures DayMinusOne(DayPlusOne(x).value) == Ok(x)
  {
    if x != MD(12, 31) {
      var y := DayPlusOne(x).value;
      assert IsNextValid(x, y);
      if y == MD(1, 1) {
        assert false;
      }
      var z := DayMinusOne(y).value;
      assert IsPrevValid(y, z);
      assert NotAfter(z, x);
      assert NotAfter(x, z);
    }
  }

  /** The seam: the day before 1 December is 30 November, and the day
      after that is (0, 1), not 1 December. */
  lemma DecemberSeamBreaksInverse()
    ensures DayMinusOne(MD(12, 1)) == Ok(MD(11, 30))
    ensures DayPlusOne(MD(11, 30)) == Ok(MD(0, 1))
    ensures DayPlusOne(MD(0, 1)) == Err(NoSuchMonth(0))
  {
  }

  /** A measure that falls with each successful forward step. December
      wraps into January, January to November climb to November,
      and month 0 or a month above 12 cannot step at all. */
  function Rank(x: MonthDay): nat {
    var gap := if x.day < 32 then 32 - x.day else 0;
    if x.month == 12 then 800 + gap
    else if 1 <= x.month <= 11 then (12 - x.month) * 40 + gap
    else 0
  }

  lemma RankFalls(x: MonthDay)
    requires DayPlusOne(x).Ok?
    ensures Rank(DayPlusOne(x).value) < Rank(x)
  {
  }

  /** The range loop of `flatten_multiple_dates`: starting at `cur`,
      append the current date while it is not after `end`, then step with
      `DayPlusOne`. A failed step ends the whole expansion with that
      error. */
  function ExpandRange(cur: MonthDay, end: MonthDay): (r: Result<seq<MonthDay>>)
    decreases Rank(cur)
    ensures Before(end, cur) ==> r == Ok([])
    ensures r.Ok? && |r.value| > 0 ==> r.value[0] == cur
  {
    if Before(end, cur) then Ok([])
    else
      var next :- DayPlusOne(cur);
      RankFalls(cur);
      var tail :- ExpandRange(next, end);
      Ok([cur] + tail)
  }

  /** Every expanded date is at most the end. */
  lemma {:induction false} ExpandRangeBounded(cur: MonthDay, end: MonthDay)
    decreases Rank(cur)
    ensures ExpandRange(cur, end).Ok? ==>
              forall i :: 0 <= i < |ExpandRange(cur, end).value| ==> NotAfter(ExpandRange(cur, end).value[i], end)
  {
    if !Before(end, cur) && DayPlusOne(cur).Ok? {
      var next := DayPlusOne(cur).value;
      RankFalls(cur);
      ExpandRangeBounded(next, end);
      if ExpandRange(next, end).Ok? {
        var tail := ExpandRange(next, end).value;
        assert ExpandRange(cur, end).value == [cur] + tail;
        forall i | 0 <= i < |[cur] + tail| ensures NotAfter(([cur] + tail)[i], end) {
          if i > 0 {
            assert ([cur] + tail)[i] == tail[i - 1];
          }
        }
      }
    }
  }

  ghost predicate Increasing(xs: seq<MonthDay>) {
    forall i, j :: 0 <= i < j < |xs| ==> Before(xs[i], xs[j])
  }

  /** The ends for which a range expands to exactly the calendar dates it
      spans: an end before 30 November, or a December range that stops
      before 31 December. */
  predicate ExpandsExactly(start: MonthDay, end: MonthDay) {
    Valid(start) && (Before(end, MD(11, 30)) || (start.month == 12 && Before(end, MD(12, 31))))
  }

  /** Within those ends, a range yields the real dates from start to end
      inclusive, in increasing order. A start after the end yields none. */
  lemma {:induction false} ExpandRangeExact(start: MonthDay, end: MonthDay)
    requires ExpandsExactly(start, end)
    decreases Rank(start)
    ensures ExpandRange(start, end).Ok?
    ensures Increasing(ExpandRange(start, end).value)
    ensures forall x :: x in ExpandRange(start, end).value <==>
                        Valid(x) && NotAfter(start, x) && NotAfter(x, end)
  {
    if !Before(end, start) {
      var next := DayPlusOne(start).value;
      assert IsNextValid(start, next);
      RankFalls(start);
      assert ExpandsExactly(next, end);
      ExpandRangeExact(next, end);
      var tail := ExpandRange(next, end).value;
      assert ExpandRange(start, end) == Ok([start] + tail);
      forall x | Valid(x) && NotAfter(start, x) && NotAfter(x, end)
        ensures x in [start] + tail
      {
        if x != start {
          assert NotAfter(next, x);
        }
      }
      forall i, j | 0 <= i < j < |[start] + tail|
        ensures Before(([start] + tail)[i], ([start] + tail)[j])
      {
        if i == 0 {
          assert tail[j - 1] in tail;
        }
      }
    }
  }

  /** A range whose start is not a real date, such as (2, 30) or (3, 0),
      lists that start itself, then the real dates after it up to the end.
      The start's month must be in 1..12; the ends are bounded as for
      real starts. */
  lemma ExpandRangeFromAnyStart(start: MonthDay, end: MonthDay)
    requires 1 <= start.month <= 12
    requires Before(end, MD(11, 30)) || (start.month == 12 && Before(end, MD(12, 31)))
    ensures ExpandRange(start, end).Ok?
    ensures forall x :: x in ExpandRange(start, end).value <==>
                        (x == start && NotAfter(start, end)) ||
                        (Valid(x) && Before(start, x) && NotAfter(x, end))
  {
    if !Before(end, start) {
      var next := DayPlusOne(start).value;
      assert IsNextValid(start, next);
      ExpandRangeExact(next, end);
      var tail := ExpandRange(next, end).value;
      assert ExpandRange(start, end) == Ok([start] + tail);
      forall x | Valid(x) && Before(start, x) && NotAfter(x, end)
        ensures x in tail
      {
        assert NotAfter(next, x);
      }
    }
  }

  /** Once the loop passes 30 November without having passed the end, it
      reaches (0, 1) and the next step fails on month 0. So every range
      from a real date up to 30 November that ends on or after 30 November
      fails. */
  lemma {:induction false} ExpandRangeIntoDecemberFails(start: MonthDay, end: MonthDay)
    requires Valid(start) && NotAfter(start, MD(11, 30)) && NotAfter(MD(11, 30), end)
    decreases Rank(start)
    ensures ExpandRange(start, end) == Err(NoSuchMonth(0))
  {
    if start == MD(11, 30) {
      assert DayPlusOne(start) == Ok(MD(0, 1));
      assert ExpandRange(MD(0, 1), end) == Err(NoSuchMonth(0));
    } else {
      var next := DayPlusOne(start).value;
      assert IsNextValid(start, next);
      assert NotAfter(next, MD(11, 30)) by {
        assert Valid(MD(11, 30));
      }
      RankFalls(start);
      ExpandRangeIntoDecemberFails(next, end);
    }
  }

  /** A December range that reaches 31 December wraps to 1 January, which
      is still not after the end, so the loop runs on into November and
      fails there too. */
  lemma {:induction false} ExpandRangeThroughYearEndFails(start: MonthDay, end: MonthDay)
    requires Valid(start) && start.month == 12 && NotAfter(MD(12, 31), end)
    decreases Rank(start)
    ensures ExpandRange(start, end) == Err(NoSuchMonth(0))
  {
    if start == MD(12, 31) {
      assert DayPlusOne(start) == Ok(MD(1, 1));
      ExpandRangeIntoDecemberFails(MD(1, 1), end);
    } else {
      var next := DayPlusOne(start).value;
      assert IsNextValid(start, next);
      assert next.month == 12 by {
        assert Valid(MD(12, 31));
      }
      RankFalls(start);
      ExpandRangeThroughYearEndFails(next, end);
    }
  }
}

=== FILE: results.dfy ===
/** Failure-carrying values shared by every part of the model.

    The repository signals every error by raising a Python exception, and
    none of the modelled code catches one: an `Err` here always means the
    whole conversion run stops. */
module Results {

  datatype Option<+T> = None | Some(value: T) {

    predicate IsFailure() {
      None?
    }

    function PropagateFailure<U>(): Option<U>
      requires None?
    {
      None
    }

    function Extract(): T
      requires Some?
    {
      value
    }

    function GetOr(default: T): T {
      match this
      case Some(v) => v
      case None => default
    }
  }

  /** The exceptions the modelled code can raise. */
  datatype Error =
    /** `parsec.ParseError`: the operating-day text matches no rule at all. */
    | GrammarError
    /** `ValueError`: a date needs a month and none is written or carried. */
    | MonthRequired
    /** `KeyError` on `max_days_in_month` for a month outside 1..12. */
    | NoSuchMonth(month: int)
    /** `ValueError` from `Time.from_str`: not 3 or 4 digits. */
    | TimeFormatError(digits: string)
    /** `ValueError` from `split_train`: no route fits the train. */
    | SplitError
    /** `ValueError` from the timetable scan: a 区休 cell follows a train
        whose calendar the section-change table does not list. */
    | UnknownSectionChange(calendar: string)
    /** `KeyError` on one of the program's own dictionaries. */
    | MissingKey(key: string)
    /** `KeyError` on the column-indexed dictionary of trains. */
    | NoSuchColumn(column: int)

  datatype Result<+T> = Ok(value: T) | Err(error: Error) {

    predicate IsFailure() {
      Err?
    }

    function PropagateFailure<U>(): Result<U>
      requires Err?
    {
      Err(error)
    }

    function Extract(): T
      requires Ok?
    {
      value
    }
  }
}

=== FILE: splitting.dfy ===
/** Assigning scraped trains to GTFS routes.

    Some timetable pages cover two routes that meet at a junction. A train
    on such a page either belongs wholly to one route, or is cut in two at
    the junction, and each part goes to the route whose identifying
    stations it visits. Stub parts that only cover a shared section are
    dropped, and a bus substituting for a train goes to the route's bus
    counterpart, whose id is 100 higher. */
module Splitting {
  import opened Results
  import opened Trains

  /** `any(has_station(train, n) != -1 for n in names)`. */
  predicate StopsAtAny(stations: seq<Stop>, names: set<string>) {
    exists n :: n in names && HasStation(stations, n) != -1
  }

  lemma StopsAtAnyMeansShared(stations: seq<Stop>, names: set<string>)
    ensures StopsAtAny(stations, names) <==> names * Names(stations) != {}
  {
    if names * Names(stations) != {} {
      var n :| n in names * Names(stations);
      assert HasStation(stations, n) != -1;
    }
    if StopsAtAny(stations, names) {
      var n :| n in names && HasStation(stations, n) != -1;
      assert n in names * Names(stations);
    }
  }

  /** The junction stop after the cut: both parts keep the one stop record,
      so it ends with its departure overwritten by its arrival. */
  function Junction(s: Stop): Stop {
    s.(dep := s.arr)
  }

  /** The part up to the junction and the part from it. */
  function PartBefore(stations: seq<Stop>, i: nat): seq<Stop>
    requires i < |stations|
  {
    stations[..i] + [Junction(stations[i])]
  }

  function PartAfter(stations: seq<Stop>, i: nat): seq<Stop>
    requires i < |stations|
  {
    [Junction(stations[i])] + stations[i + 1..]
  }

  /** Neither part visits a station the train does not. */
  lemma PartNames(stations: seq<Stop>, i: nat)
    requires i < |stations|
    ensures Names(PartBefore(stations, i)) <= Names(stations)
    ensures Names(PartAfter(stations, i)) <= Names(stations)
  {
    var p1 := PartBefore(stations, i);
    var p2 := PartAfter(stations, i);
    forall n | n in Names(p1) ensures n in Names(stations) {
      var j :| 0 <= j < |p1| && p1[j].station == n;
      if j < i { assert stations[j].station == n; } else { assert stations[i].station == n; }
    }
    forall n | n in Names(p2) ensures n in Names(stations) {
      var j :| 0 <= j < |p2| && p2[j].station == n;
      if j > 0 { assert stations[i + j].station == n; } else { assert stations[i].station == n; }
    }
  }

  /** The two parts overlap in exactly the junction, and together they are
      the train with the junction's departure set to its arrival. */
  lemma PartsRejoin(stations: seq<Stop>, i: nat)
    requires 0 < i < |stations| - 1
    ensures var p1 := PartBefore(stations, i);
            var p2 := PartAfter(stations, i);
            && |p1| >= 2 && |p2| >= 2 && |p1| + |p2| == |stations| + 1
            && p1[|p1| - 1] == p2[0] == Junction(stations[i])
            && p1[..|p1| - 1] + p2 == stations[i := Junction(stations[i])]
            && p1[0] == stations[0] && p2[|p2| - 1] == stations[|stations| - 1]
  {
    var p1 := PartBefore(stations, i);
    var p2 := PartAfter(stations, i);
    assert p1[..|p1| - 1] == stations[..i];
    var joined := p1[..|p1| - 1] + p2;
    forall k | 0 <= k < |stations|
      ensures joined[k] == stations[i := Junction(stations[i])][k]
    {
      if k > i {
        assert joined[k] == p2[k - i];
      }
    }
  }

  /** `split_train`. A train that does not pass through the junction (it is
      absent, first or last) goes wholly to route A if it stops at one of
      A's stations, else to B if it stops at one of B's; a lone Sapporo
      stop of an airport train is dropped; anything else is an error. A
      train through the junction is cut there, and the parts are matched in
      the order: first part on A, first part on B, second part on A, second
      part on B. The error message reads the train number, so a train
      without one fails on that key instead. */
  function SplitTrain(train: Train, at: string, aNames: set<string>, bNames: set<string>)
    : (r: Result<(Option<Train>, Option<Train>)>)
    ensures r.Err? ==> r.error in {SplitError, MissingKey("trip_name"), MissingKey("trip_number")}
    ensures r.Ok? && r.value.0.Some? ==>
              && |r.value.0.value.stations| > 0 && r.value.0.value == train.(stations := r.value.0.value.stations)
              && Names(r.value.0.value.stations) <= Names(train.stations)
    ensures r.Ok? && r.value.1.Some? ==>
              && |r.value.1.value.stations| > 0 && r.value.1.value == train.(stations := r.value.1.value.stations)
              && Names(r.value.1.value.stations) <= Names(train.stations)
    ensures r.Ok? && r.value.0.Some? && r.value.1.Some? ==>
              StopsAtAny(r.value.0.value.stations, aNames) || StopsAtAny(r.value.1.value.stations, bNames)
  {
    var i := HasStation(train.stations, at);
    if i == -1 || i == 0 || i == |train.stations| - 1 then Whole(train, aNames, bNames)
    else Cut(train, i, aNames, bNames)
  }

  /** A lone Sapporo stop of an airport train, which some Hakodate line
      pages carry. */
  predicate AirportStub(train: Train) {
    Lookup(train, "trip_name") == Some("エアポート") && |train.stations| == 1 && train.stations[0].station == "札幌"
  }

  /** The error `split_train` raises for a train it cannot place: reading
      the train number for the message fails first when there is none. */
  function SplitFailure(train: Train): Error {
    if "trip_number" in train.info then SplitError else MissingKey("trip_number")
  }

  /** The case of a train that is not cut. */
  function Whole(train: Train, aNames: set<string>, bNames: set<string>): (r: Result<(Option<Train>, Option<Train>)>)
    ensures r.Err? ==> r.error in {SplitError, MissingKey("trip_name"), MissingKey("trip_number")}
    ensures r.Ok? ==> r.value.0.None? || r.value.1.None?
    ensures StopsAtAny(train.stations, aNames) ==> r == Ok((Some(train), None))
    ensures !StopsAtAny(train.stations, aNames) && StopsAtAny(train.stations, bNames) ==> r == Ok((None, Some(train)))
    ensures !StopsAtAny(train.stations, aNames) && !StopsAtAny(train.stations, bNames) ==>
              && (r.Ok? <==> AirportStub(train))
              && (r.Ok? ==> r.value == (None, None))
              && ("trip_name" !in train.info ==> r == Err(MissingKey("trip_name")))
              && ("trip_name" in train.info && !AirportStub(train) ==> r == Err(SplitFailure(train)))
  {
    if StopsAtAny(train.stations, aNames) then Ok((Some(train), None))
    else if StopsAtAny(train.stations, bNames) then Ok((None, Some(train)))
    else
      var name :- Field(train, "trip_name");
      if name == "エアポート" && |train.stations| == 1 && train.stations[0].station == "札幌" then Ok((None, None))
      else
        var _ :- Field(train, "trip_number");
        Err(SplitError)
  }

  /** The case of a train cut at the stop with index `i`. The parts are
      tested in turn: the first part on A, on B, then the second part on
      A, on B; the first test that holds decides which part is A's. */
  function Cut(train: Train, i: nat, aNames: set<string>, bNames: set<string>): (r: Result<(Option<Train>, Option<Train>)>)
    requires 0 < i < |train.stations| - 1
    ensures var p1 := train.(stations := PartBefore(train.stations, i));
            var p2 := train.(stations := PartAfter(train.stations, i));
            && (StopsAtAny(p1.stations, aNames) ==> r == Ok((Some(p1), Some(p2))))
            && (!StopsAtAny(p1.stations, aNames) && StopsAtAny(p1.stations, bNames) ==> r == Ok((Some(p2), Some(p1))))
            && (!StopsAtAny(p1.stations, aNames) && !StopsAtAny(p1.stations, bNames) && StopsAtAny(p2.stations, aNames) ==>
                  r == Ok((Some(p2), Some(p1))))
            && ((!StopsAtAny(p1.stations, aNames) && !StopsAtAny(p1.stations, bNames) && !StopsAtAny(p2.stations, aNames) &&
                 StopsAtAny(p2.stations, bNames)) ==> r == Ok((Some(p1), Some(p2))))
            && (r.Ok? <==> StopsAtAny(p1.stations, aNames) || StopsAtAny(p1.stations, bNames) ||
                           StopsAtAny(p2.stations, aNames) || StopsAtAny(p2.stations, bNames))
    ensures r.Err? ==> r.error == SplitFailure(train)
    ensures r.Ok? ==> r.value.0.Some? && r.value.1.Some?
    ensures r.Ok? ==> StopsAtAny(r.value.0.value.stations, aNames) || StopsAtAny(r.value.1.value.stations, bNames)
    ensures r.Ok? ==> && |r.value.0.value.stations| > 0 && r.value.0.value == train.(stations := r.value.0.value.stations)
                      && Names(r.value.0.value.stations) <= Names(train.stations)
    ensures r.Ok? ==> && |r.value.1.value.stations| > 0 && r.value.1.value == train.(stations := r.value.1.value.stations)
                      && Names(r.value.1.value.stations) <= Names(train.stations)
  {
    PartNames(train.stations, i);
    var p1 := train.(stations := PartBefore(train.stations, i));
    var p2 := train.(stations := PartAfter(train.stations, i));
    if StopsAtAny(p1.stations, aNames) then Ok((Some(p1), Some(p2)))
    else if StopsAtAny(p1.stations, bNames) then Ok((Some(p2), Some(p1)))
    else if StopsAtAny(p2.stations, aNames) then Ok((Some(p2), Some(p1)))
    else if StopsAtAny(p2.stations, bNames) then Ok((Some(p1), Some(p2)))
    else
      var _ :- Field(train, "trip_number");
      Err(SplitError)
  }

  /** Between them the two parts visit every station of the train. */
  lemma PartsCover(stations: seq<Stop>, i: nat)
    requires i < |stations|
    ensures Names(PartBefore(stations, i)) + Names(PartAfter(stations, i)) == Names(stations)
  {
    PartNames(stations, i);
    var p1 := PartBefore(stations, i);
    var p2 := PartAfter(stations, i);
    forall n | n in Names(stations) ensures n in Names(p1) + Names(p2) {
      var j :| 0 <= j < |stations| && stations[j].station == n;
      if j <= i {
        assert p1[j].station == n;
      } else {
        assert p2[j - i].station == n;
      }
    }
  }

  /** A cut train can be placed exactly when it visits some station of
      either route. */
  lemma CutSucceeds(train: Train, i: nat, aNames: set<string>, bNames: set<string>)
    requires 0 < i < |train.stations| - 1
    ensures Cut(train, i, aNames, bNames).Ok? <==> (aNames + bNames) * Names(train.stations) != {}
  {
    var s1 := PartBefore(train.stations, i);
    var s2 := PartAfter(train.stations, i);
    PartsCover(train.stations, i);
    StopsAtAnyMeansShared(s1, aNames);
    StopsAtAnyMeansShared(s1, bNames);
    StopsAtAnyMeansShared(s2, aNames);
    StopsAtAnyMeansShared(s2, bNames);
    assert (aNames + bNames) * Names(train.stations) ==
           (aNames * Names(s1)) + (bNames * Names(s1)) + (aNames * Names(s2)) + (bNames * Names(s2));
  }

  /** `split_train` succeeds exactly for a train that visits some station
      of either route, and for the airport stub. */
  lemma SplitTrainSucceeds(train: Train, at: string, aNames: set<string>, bNames: set<string>)
    ensures SplitTrain(train, at, aNames, bNames).Ok? <==>
              (aNames + bNames) * Names(train.stations) != {} || AirportStub(train)
  {
    var i := HasStation(train.stations, at);
    if i == -1 || i == 0 || i == |train.stations| - 1 {
      StopsAtAnyMeansShared(train.stations, aNames);
      StopsAtAnyMeansShared(train.stations, bNames);
      assert (aNames + bNames) * Names(train.stations) == (aNames * Names(train.stations)) + (bNames * Names(train.stations));
    } else {
      CutSucceeds(train, i, aNames, bNames);
    }
  }

  /** The stations a route's `exclude` list removes from every train. */
  function Excluding(stations: seq<Stop>, exclude: set<string>): (r: seq<Stop>)
    ensures |r| <= |stations|
    ensures Names(r) == Names(stations) - exclude
    ensures forall k :: 0 <= k < |r| ==> r[k] in stations && r[k].station !in exclude
  {
    if |stations| == 0 then []
    else
      var rest := Excluding(stations[1..], exclude);
      assert Names(stations) == {stations[0].station} + Names(stations[1..]) by {
        assert stations == [stations[0]] + stations[1..];
        NamesOfCons(stations[0], stations[1..]);
      }
      if stations[0].station in exclude then rest
      else
        NamesOfCons(stations[0], rest);
        [stations[0]] + rest
  }

  /** Excluding keeps the order of what is left: excluding from two lists
      in turn is excluding from their concatenation. */
  lemma {:induction false} ExcludingConcat(xs: seq<Stop>, ys: seq<Stop>, exclude: set<string>)
    ensures Excluding(xs + ys, exclude) == Excluding(xs, exclude) + Excluding(ys, exclude)
  {
    if |xs| == 0 {
      assert xs + ys == ys;
    } else {
      assert (xs + ys)[1..] == xs[1..] + ys;
      ExcludingConcat(xs[1..], ys, exclude);
    }
  }

  /** A part whose two ends are Sapporo and Shiroishi, or Tomakomai and
      Numanohata, in either order. */
  predicate IsStub(stations: seq<Stop>)
    requires |stations| > 0
  {
    var ends := {stations[0].station, stations[|stations| - 1].station};
    ends == {"札幌", "白石"} || ends == {"苫小牧", "沼ノ端"}
  }

  /** Drops a stub part. Only one part is dropped: the second is looked at
      only when the first is kept. */
  function DropStubs(a: Option<Train>, b: Option<Train>): (r: (Option<Train>, Option<Train>))
    requires a.Some? ==> |a.value.stations| > 0
    requires b.Some? ==> |b.value.stations| > 0
    ensures r.0 == a || r.1 == b
    ensures r.0 != a ==> r.0.None? && IsStub(a.value.stations)
    ensures r.1 != b ==> r.1.None? && IsStub(b.value.stations) && !(a.Some? && IsStub(a.value.stations))
    ensures r.0.Some? ==> !IsStub(r.0.value.stations)
    ensures r.1.Some? && !(a.Some? && IsStub(a.value.stations)) ==> !IsStub(r.1.value.stations)
  {
    if a.Some? && IsStub(a.value.stations) then (None, b)
    else if b.Some? && IsStub(b.value.stations) then (a, None)
    else (a, b)
  }

  /** The route a trip goes to: the bus counterpart for a bus. */
  function RouteId(base: int, train: Train): (r: Result<int>)
    ensures r.Ok? <==> "type" in train.info
    ensures r.Err? ==> r.error == MissingKey("type")
    ensures r.Ok? ==> (r.value == base + 100 <==> train.info["type"] == "バス") && (r.value == base || r.value == base + 100)
  {
    var kind :- Field(train, "type");
    Ok(if kind == "バス" then base + 100 else base)
  }

  /** A part becomes a trip on the route when it exists and stops somewhere. */
  function Emit(base: int, part: Option<Train>): (r: Result<seq<(int, Train)>>)
    ensures r.Ok? ==> |r.value| <= 1
    ensures r.Ok? && |r.value| == 1 ==> part == Some(r.value[0].1) && |r.value[0].1.stations| > 0
    ensures r.Ok? && |r.value| == 1 ==> r.value[0].0 in {base, base + 100}
    ensures part.Some? && |part.value.stations| > 0 ==> (r.Ok? <==> "type" in part.value.info) && (r.Ok? ==> |r.value| == 1)
    ensures part.None? || |part.value.stations| == 0 ==> r == Ok([])
    ensures part.Some? && |part.value.stations| > 0 && "type" in part.value.info ==>
              r == Ok([(RouteId(base, part.value).value, part.value)])
    ensures part.Some? && |part.value.stations| > 0 && "type" !in part.value.info ==> r == Err(MissingKey("type"))
  {
    if part.Some? && |part.value.stations| > 0 then
      var id :- RouteId(base, part.value);
      Ok([(id, part.value)])
    else Ok([])
  }

  /** One side of a route that is split at a junction. */
  datatype Side = Side(id: int, names: set<string>)

  /** A route's YAML entry, as far as assigning trains goes. */
  datatype Route = Route(id: int, exclude: set<string>, split: Option<SplitPlan>)
  datatype SplitPlan = SplitPlan(at: string, a: Side, b: Side)

  /** An emitted trip runs on one of `ids` and visits only stations of `t`. */
  predicate Fits(trip: (int, Train), t: Train, ids: set<int>) {
    |trip.1.stations| > 0 && Names(trip.1.stations) <= Names(t.stations) && trip.0 in ids
  }

  /** Every trip of `trips` fits. */
  predicate AllFit(trips: seq<(int, Train)>, t: Train, ids: set<int>) {
    forall k :: 0 <= k < |trips| ==> Fits(trips[k], t, ids)
  }

  /** What `Emit` gives for a part within the train. */
  lemma EmitFits(base: int, part: Option<Train>, t: Train, ids: set<int>)
    requires part.Some? ==> Names(part.value.stations) <= Names(t.stations)
    requires base in ids && base + 100 in ids
    ensures Emit(base, part).Ok? ==> AllFit(Emit(base, part).value, t, ids)
  {
  }

  lemma AllFitConcat(xs: seq<(int, Train)>, ys: seq<(int, Train)>, t: Train, ids: set<int>)
    requires AllFit(xs, t, ids) && AllFit(ys, t, ids)
    ensures AllFit(xs + ys, t, ids)
  {
    forall k | 0 <= k < |xs + ys| ensures Fits((xs + ys)[k], t, ids) {
      if k >= |xs| {
        assert (xs + ys)[k] == ys[k - |xs|];
      }
    }
  }

  /** The trips a split route emits for one train, after the stubs are
      dropped: part A on route A, part B on route B. */
  function SplitTrips(plan: SplitPlan, t: Train): (r: Result<seq<(int, Train)>>)
    ensures r.Ok? ==> |r.value| <= 2
    ensures r.Ok? ==> AllFit(r.value, t, SplitIds(plan))
    ensures SplitTrain(t, plan.at, plan.a.names, plan.b.names).Err? ==>
              r == Err(SplitTrain(t, plan.at, plan.a.names, plan.b.names).error)
  {
    var parts :- SplitTrain(t, plan.at, plan.a.names, plan.b.names);
    var kept := DropStubs(parts.0, parts.1);
    var first :- Emit(plan.a.id, kept.0);
    var second :- Emit(plan.b.id, kept.1);
    EmitFits(plan.a.id, kept.0, t, SplitIds(plan));
    EmitFits(plan.b.id, kept.1, t, SplitIds(plan));
    AllFitConcat(first, second, t, SplitIds(plan));
    Ok(first + second)
  }

  /** The trip a placed part becomes on a route, if there is a part. */
  function TripOf(base: int, p: Option<Train>): seq<(int, Train)>
    requires p.Some? ==> "type" in p.value.info
  {
    if p.None? then [] else [(RouteId(base, p.value).value, p.value)]
  }

  /** Parts that are not stubs are all emitted: A's part on A's route
      first, then B's part on B's route, each moved to the bus counterpart
      when it is a bus. */
  lemma SplitTripsOfParts(plan: SplitPlan, t: Train, pa: Option<Train>, pb: Option<Train>)
    requires SplitTrain(t, plan.at, plan.a.names, plan.b.names) == Ok((pa, pb))
    requires pa.Some? ==> !IsStub(pa.value.stations) && "type" in pa.value.info
    requires pb.Some? ==> !IsStub(pb.value.stations) && "type" in pb.value.info
    ensures SplitTrips(plan, t) == Ok(TripOf(plan.a.id, pa) + TripOf(plan.b.id, pb))
  {
    assert DropStubs(pa, pb) == (pa, pb);
  }

  /** A stub part on A is dropped and B's part alone is emitted. */
  lemma SplitTripsDropsStubA(plan: SplitPlan, t: Train, pa: Train, pb: Option<Train>)
    requires SplitTrain(t, plan.at, plan.a.names, plan.b.names) == Ok((Some(pa), pb))
    requires IsStub(pa.stations)
    requires pb.Some? ==> "type" in pb.value.info
    ensures SplitTrips(plan, t) == Ok(TripOf(plan.b.id, pb))
  {
    assert DropStubs(Some(pa), pb) == (None, pb);
    assert Emit(plan.a.id, None) == Ok([]);
    assert [] + TripOf(plan.b.id, pb) == TripOf(plan.b.id, pb);
  }

  /** A stub part on B, when A's part is kept, is dropped and A's part
      alone is emitted. */
  lemma SplitTripsDropsStubB(plan: SplitPlan, t: Train, pa: Option<Train>, pb: Train)
    requires SplitTrain(t, plan.at, plan.a.names, plan.b.names) == Ok((pa, Some(pb)))
    requires IsStub(pb.stations)
    requires pa.Some? ==> !IsStub(pa.value.stations) && "type" in pa.value.info
    ensures SplitTrips(plan, t) == Ok(TripOf(plan.a.id, pa))
  {
    assert DropStubs(pa, Some(pb)) == (pa, None);
    assert Emit(plan.b.id, None) == Ok([]);
    assert TripOf(plan.a.id, pa) + [] == TripOf(plan.a.id, pa);
  }

  /** The route ids of the two sides and their bus counterparts. */
  function SplitIds(plan: SplitPlan): set<int> {
    {plan.a.id, plan.a.id + 100, plan.b.id, plan.b.id + 100}
  }

  /** The route ids a route's trips may get. */
  function RouteIds(route: Route): set<int> {
    match route.split
    case None => {route.id, route.id + 100}
    case Some(plan) => SplitIds(plan)
  }

  /** The trips the train loop of `trains_normal` emits for one scraped
      train, with their route ids. Trains that an express timetable covers
      are skipped; the rest lose the route's excluded stations first. */
  function RouteTrips(route: Route, ignore: set<string>, train: Train): (r: Result<seq<(int, Train)>>)
    ensures r.Ok? ==> |r.value| <= 2
    ensures r.Ok? && Lookup(train, "trip_name").Some? && Lookup(train, "trip_name").value in ignore ==> r.value == []
    ensures r.Ok? ==> AllFit(r.value, train.(stations := Excluding(train.stations, route.exclude)), RouteIds(route))
    ensures "trip_name" !in train.info ==> r == Err(MissingKey("trip_name"))
  {
    var name :- Field(train, "trip_name");
    if name in ignore then Ok([])
    else
      var t := train.(stations := Excluding(train.stations, route.exclude));
      match route.split
      case None =>
        EmitFits(route.id, Some(t), t, RouteIds(route));
        Emit(route.id, Some(t))
      case Some(plan) => SplitTrips(plan, t)
  }

  /** A train that is not skipped loses the excluded stations. On a route
      that is not split it then becomes one trip when it still stops
      somewhere, on the route or on its bus counterpart; on a split route
      it goes through the split. */
  lemma RouteTripsOfTrain(route: Route, ignore: set<string>, train: Train)
    requires "trip_name" in train.info && train.info["trip_name"] !in ignore
    ensures var t := train.(stations := Excluding(train.stations, route.exclude));
            && (route.split.None? && |t.stations| == 0 ==> RouteTrips(route, ignore, train) == Ok([]))
            && (route.split.None? && |t.stations| > 0 && "type" in train.info ==>
                  RouteTrips(route, ignore, train) == Ok([(RouteId(route.id, t).value, t)]))
            && (route.split.None? && |t.stations| > 0 && "type" !in train.info ==>
                  RouteTrips(route, ignore, train) == Err(MissingKey("type")))
            && (route.split.Some? ==> RouteTrips(route, ignore, train) == SplitTrips(route.split.value, t))
  {
  }

  /** No emitted trip stops at an excluded station, and each stops
      somewhere. */
  lemma RouteTripsAvoidExcluded(route: Route, ignore: set<string>, train: Train)
    requires RouteTrips(route, ignore, train).Ok?
    ensures var r := RouteTrips(route, ignore, train).value;
            forall k :: 0 <= k < |r| ==>
              |r[k].1.stations| > 0 && Names(r[k].1.stations) * route.exclude == {} && r[k].0 in RouteIds(route)
  {
    var r := RouteTrips(route, ignore, train).value;
    var t := train.(stations := Excluding(train.stations, route.exclude));
    forall k | 0 <= k < |r|
      ensures |r[k].1.stations| > 0 && Names(r[k].1.stations) * route.exclude == {} && r[k].0 in RouteIds(route)
    {
      assert Fits(r[k], t, RouteIds(route));
    }
  }
}

=== FILE: times.dfy ===
/** Times of day as GTFS writes them: seconds since midnight split into
    hours, minutes and seconds. The hours may pass 23, because a train
    that runs past midnight keeps counting from the day it set out. */
module Times {
  import opened Results
  import opened Digits

  /** The three parts the constructor computes, by `divmod` twice. */
  datatype Time = Time(h: int, m: int, s: int)

  /** What `divmod` by 60 guarantees: minutes and seconds in 0..59. */
  predicate Normal(t: Time) {
    0 <= t.m < 60 && 0 <= t.s < 60
  }

  /** `int(t)`. */
  function Seconds(t: Time): int {
    t.h * 3600 + t.m * 60 + t.s
  }

  /** `Time(seconds)`. Python's `divmod` floors; for the positive divisor
      60 that agrees with Dafny's Euclidean `/` and `%`, negative counts
      included. */
  function FromSeconds(n: int): (t: Time)
    ensures Normal(t)
    ensures Seconds(t) == n
  {
    Time((n / 60) / 60, (n / 60) % 60, n % 60)
  }

  /** A normal time is rebuilt from its own count of seconds. */
  lemma FromSecondsOfNormal(t: Time)
    requires Normal(t)
    ensures FromSeconds(Seconds(t)) == t
  {
    var n := Seconds(t);
    assert n == (t.h * 60 + t.m) * 60 + t.s;
    assert n / 60 == t.h * 60 + t.m && n % 60 == t.s by {
      DivModUnique(n, t.h * 60 + t.m, t.s);
    }
    DivModUnique(t.h * 60 + t.m, t.h, t.m);
  }

  lemma DivModUnique(n: int, q: int, r: int)
    requires 0 <= r < 60 && n == q * 60 + r
    ensures n / 60 == q && n % 60 == r
  {
  }

  /** `__eq__` compares counts of seconds; on normal times that is equality
      of all three parts. */
  lemma SameSecondsSameTime(a: Time, b: Time)
    requires Normal(a) && Normal(b)
    ensures Seconds(a) == Seconds(b) <==> a == b
  {
    if Seconds(a) == Seconds(b) {
      FromSecondsOfNormal(a);
      FromSecondsOfNormal(b);
    }
  }

  /** `__lt__`. */
  predicate Less(a: Time, b: Time) {
    Seconds(a) < Seconds(b)
  }

  /** On normal times, `<` is the order of (hours, minutes, seconds). */
  lemma LessIsLexicographic(a: Time, b: Time)
    requires Normal(a) && Normal(b)
    ensures Less(a, b) <==>
      a.h < b.h || (a.h == b.h && (a.m < b.m || (a.m == b.m && a.s < b.s)))
  {
    var ra := a.m * 60 + a.s;
    var rb := b.m * 60 + b.s;
    assert 0 <= ra < 3600 && 0 <= rb < 3600;
    if a.h < b.h {
      assert a.h * 3600 + 3600 <= b.h * 3600;
    } else if a.h > b.h {
      assert b.h * 3600 + 3600 <= a.h * 3600;
    } else if a.m < b.m {
      assert a.m * 60 + 60 <= b.m * 60;
    } else if a.m > b.m {
      assert b.m * 60 + 60 <= a.m * 60;
    }
  }

  /** `t + k`. */
  function Add(t: Time, k: int): (r: Time)
    ensures Normal(r)
    ensures Seconds(r) == Seconds(t) + k
  {
    FromSeconds(Seconds(t) + k)
  }

  /** `t - k`. */
  function Sub(t: Time, k: int): (r: Time)
    ensures Normal(r)
    ensures Seconds(r) == Seconds(t) - k
  {
    FromSeconds(Seconds(t) - k)
  }

  /** Adding then subtracting the same amount gives the time back, and so
      does the reverse order; additions compose. */
  lemma AddSubInverse(t: Time, k: int, j: int)
    requires Normal(t)
    ensures Sub(Add(t, k), k) == t
    ensures Add(Sub(t, k), k) == t
    ensures Add(Add(t, k), j) == Add(t, k + j)
    ensures Less(t, Add(t, k)) <==> k > 0
  {
    SubUndoesAdd(t, k);
    AddUndoesSub(t, k);
    AddsCompose(t, k, j);
  }

  lemma SubUndoesAdd(t: Time, k: int)
    requires Normal(t)
    ensures Sub(Add(t, k), k) == t
  {
    FromSecondsOfNormal(t);
    SameCount(Seconds(Add(t, k)) - k, Seconds(t));
  }

  lemma AddUndoesSub(t: Time, k: int)
    requires Normal(t)
    ensures Add(Sub(t, k), k) == t
  {
    FromSecondsOfNormal(t);
    SameCount(Seconds(Sub(t, k)) + k, Seconds(t));
  }

  lemma AddsCompose(t: Time, k: int, j: int)
    ensures Add(Add(t, k), j) == Add(t, k + j)
  {
    SameCount(Seconds(Add(t, k)) + j, Seconds(t) + (k + j));
  }

  /** Equal counts give equal times. */
  lemma SameCount(a: int, b: int)
    requires a == b
    ensures FromSeconds(a) == FromSeconds(b)
  {
  }

  // Writing a time.

  /** `str(n)` for any integer. */
  function IntText(n: int): string {
    if n < 0 then ['-'] + NatText(-n) else NatText(n)
  }

  /** The format `0>2`: zeros on the left up to width 2, nothing cut. */
  function Pad2(s: string): (r: string)
    ensures |r| == if |s| < 2 then 2 else |s|
  {
    if |s| == 0 then "00" else if |s| == 1 then ['0'] + s else s
  }

  /** `str(t)`: `HH:MM:SS`. */
  function Format(t: Time): string {
    Pad2(IntText(t.h)) + [':'] + Pad2(IntText(t.m)) + [':'] + Pad2(IntText(t.s))
  }

  /** Reads `H…H:MM:SS`, with at least two hour digits, back into a count
      of seconds. */
  function ReadClock(text: string): Option<int> {
    var n := |text|;
    if n >= 8 && text[n - 3] == ':' && text[n - 6] == ':'
       && DigitsIn(text, 0, n - 6) && DigitsIn(text, n - 5, n - 3) && DigitsIn(text, n - 2, n)
    then Some(RangeValue(text, 0, n - 6) * 3600 + RangeValue(text, n - 5, n - 3) * 60 + RangeValue(text, n - 2, n))
    else None
  }

  lemma PaddedNumber(x: nat)
    ensures AllDigits(Pad2(NatText(x)))
    ensures DecimalValue(Pad2(NatText(x))) == x
    ensures |Pad2(NatText(x))| >= 2
    ensures x < 100 ==> |Pad2(NatText(x))| == 2
  {
    NatTextRoundTrip(x);
    NatTextLength(x);
    if x < 10 {
      LeadingZero(NatText(x));
    }
  }

  lemma ClockParts(a: string, b: string, c: string)
    requires |a| >= 2 && |b| == 2 && |c| == 2
    ensures var text := a + [':'] + b + [':'] + c;
      var n := |text|;
      && n >= 8 && text[n - 3] == ':' && text[n - 6] == ':'
      && text[..n - 6] == a && text[n - 5..n - 3] == b && text[n - 2..] == c
  {
  }

  /** Every time of day from a non-negative count of seconds is read back
      from its text. */
  lemma FormatRoundTrip(n: nat)
    ensures ReadClock(Format(FromSeconds(n))) == Some(n)
  {
    HourRange(n);
    FormatReadsBack(FromSeconds(n));
  }

  /** The same for any normal time with non-negative hours. */
  lemma FormatReadsBack(t: Time)
    requires Normal(t) && t.h >= 0
    ensures ReadClock(Format(t)) == Some(Seconds(t))
  {
    var h: nat := t.h;
    var a, b, c := Pad2(NatText(h)), Pad2(NatText(t.m)), Pad2(NatText(t.s));
    assert Format(t) == a + [':'] + b + [':'] + c;
    assert DecimalValue(a) == h && |a| >= 2 && AllDigits(a) by {
      PaddedNumber(h);
    }
    assert DecimalValue(b) == t.m && |b| == 2 && AllDigits(b) by {
      PaddedNumber(t.m);
    }
    assert DecimalValue(c) == t.s && |c| == 2 && AllDigits(c) by {
      PaddedNumber(t.s);
    }
    ReadClockParts(a, b, c);
  }

  /** The hours of a non-negative count are non-negative, and below 100
      for counts below 100 hours. */
  lemma HourRange(n: nat)
    ensures FromSeconds(n).h >= 0
    ensures n < 360000 ==> FromSeconds(n).h < 100
  {
  }

  lemma ReadClockParts(a: string, b: string, c: string)
    requires |a| >= 2 && |b| == 2 && |c| == 2
    requires AllDigits(a) && AllDigits(b) && AllDigits(c)
    ensures ReadClock(a + [':'] + b + [':'] + c) ==
            Some(DecimalValue(a) * 3600 + DecimalValue(b) * 60 + DecimalValue(c))
  {
    var text := a + [':'] + b + [':'] + c;
    var n := |text|;
    assert text[n - 3] == ':' && text[n - 6] == ':';
    PrefixValue(a, text, |a|);
    ShiftValue(b, text, |a| + 1, 2);
    ShiftValue(c, text, |a| + 4, 2);
  }

  /** Below 100 hours the text is exactly `HH:MM:SS`. */
  lemma FormatWidth(n: nat)
    requires n < 360000
    ensures |Format(FromSeconds(n))| == 8
  {
    var t := FromSeconds(n);
    HourRange(n);
    var h: nat := t.h;
    assert |Pad2(NatText(h))| == 2 by {
      PaddedNumber(h);
    }
    assert |Pad2(NatText(t.m))| == 2 by {
      PaddedNumber(t.m);
    }
    assert |Pad2(NatText(t.s))| == 2 by {
      PaddedNumber(t.s);
    }
  }

  // Reading a timetable entry.

  /** `re.sub(r"\D", "", text)`: the digits, in order. */
  function KeepDigits(text: string): (d: string)
    decreases |text|
    ensures AllDigits(d) && |d| <= |text|
  {
    if |text| == 0 then []
    else if IsDigit(text[0]) then [text[0]] + KeepDigits(text[1..])
    else KeepDigits(text[1..])
  }

  lemma {:induction false} KeepDigitsConcat(a: string, b: string)
    decreases |a|
    ensures KeepDigits(a + b) == KeepDigits(a) + KeepDigits(b)
  {
    if |a| == 0 {
      assert a + b == b;
    } else {
      assert (a + b)[1..] == a[1..] + b;
      KeepDigitsConcat(a[1..], b);
    }
  }

  /** `Time.from_str`: three digits are `HMM`, four are `HHMM`, and any
      other count is an error. The minutes are not checked. */
  function FromStr(text: string): (r: Result<Time>)
    ensures r.Ok? <==> |KeepDigits(text)| == 3 || |KeepDigits(text)| == 4
    ensures r.Err? ==> r.error == TimeFormatError(KeepDigits(text))
    ensures r.Ok? ==> Normal(r.value) && Seconds(r.value) % 60 == 0
                      && 0 <= Seconds(r.value) <= 99 * 3600 + 99 * 60
  {
    var v := KeepDigits(text);
    if |v| == 3 then
      Ok(HoursMinutes(RangeValue(v, 0, 1), RangeValue(v, 1, 3)))
    else if |v| == 4 then
      Ok(HoursMinutes(RangeValue(v, 0, 2), RangeValue(v, 2, 4)))
    else
      Err(TimeFormatError(v))
  }

  /** The time `hours` hours and `minutes` minutes after midnight. */
  function HoursMinutes(hours: nat, minutes: nat): (t: Time)
    ensures Normal(t) && Seconds(t) % 60 == 0
    ensures hours < 100 && minutes < 100 ==> 0 <= Seconds(t) <= 99 * 3600 + 99 * 60
  {
    var n := hours * 3600 + minutes * 60;
    DivModUnique(n, hours * 60 + minutes, 0);
    FromSeconds(n)
  }

  /** Characters other than digits, wherever they stand, do not matter. */
  lemma NonDigitIgnored(a: string, c: char, b: string)
    requires !IsDigit(c)
    ensures FromStr(a + [c] + b) == FromStr(a + b)
  {
    KeepDigitsConcat(a + [c], b);
    KeepDigitsConcat(a, [c]);
    KeepDigitsConcat(a, b);
    assert KeepDigits([c]) == [];
    assert KeepDigits(a) + [] == KeepDigits(a);
  }

  /** An hour written without padding and a two-digit minute, as in
      `2150` or `950`, read as that many hours and minutes. */
  lemma FromStrReadsHoursMinutes(h: nat, m: nat)
    requires h < 100 && m < 100
    ensures FromStr(NatText(h) + Pad2(NatText(m))) == Ok(FromSeconds(h * 3600 + m * 60))
  {
    var v := NatText(h) + Pad2(NatText(m));
    HoursMinutesDigits(h, m);
    FromStrOfDigits(v);
  }

  /** On a digit string, `FromStr` splits off the last two digits as the
      minutes. */
  lemma FromStrOfDigits(v: string)
    requires AllDigits(v) && (|v| == 3 || |v| == 4)
    ensures FromStr(v) == Ok(HoursMinutes(RangeValue(v, 0, |v| - 2), RangeValue(v, |v| - 2, |v|)))
  {
    KeepDigitsAll(v);
  }

  lemma HoursMinutesDigits(h: nat, m: nat)
    requires h < 100 && m < 100
    ensures var hs := NatText(h);
      var v := hs + Pad2(NatText(m));
      && |hs| == (if h < 10 then 1 else 2) && |v| == |hs| + 2 && AllDigits(v)
      && RangeValue(v, 0, |hs|) == h && RangeValue(v, |hs|, |hs| + 2) == m
  {
    NatTextLength(h);
    NatTextRoundTrip(h);
    PaddedNumber(m);
    DigitsOfConcat(NatText(h), Pad2(NatText(m)));
  }

  /** Two digit strings side by side keep their values. */
  lemma DigitsOfConcat(a: string, b: string)
    requires AllDigits(a) && AllDigits(b)
    ensures AllDigits(a + b)
    ensures RangeValue(a + b, 0, |a|) == DecimalValue(a)
    ensures RangeValue(a + b, |a|, |a| + |b|) == DecimalValue(b)
  {
    AllDigitsConcat(a, b);
    ConcatHeadValue(a, b);
    ConcatTailValue(a, b);
  }

  lemma ConcatHeadValue(a: string, b: string)
    requires AllDigits(a)
    ensures RangeValue(a + b, 0, |a|) == DecimalValue(a)
  {
    PrefixValue(a, a + b, |a|);
  }

  lemma ConcatTailValue(a: string, b: string)
    requires AllDigits(b)
    ensures DigitsIn(a + b, |a|, |a| + |b|)
    ensures RangeValue(a + b, |a|, |a| + |b|) == DecimalValue(b)
  {
    var t := a + b;
    forall i | 0 <= i < |b| ensures b[i] == t[|a| + i] {
    }
    ShiftValue(b, t, |a|, |b|);
  }

  lemma AllDigitsConcat(a: string, b: string)
    requires AllDigits(a) && AllDigits(b)
    ensures AllDigits(a + b)
  {
    var t := a + b;
    forall i | 0 <= i < |t| ensures IsDigit(t[i]) {
      if i < |a| { assert IsDigit(a[i]); } else { assert IsDigit(b[i - |a|]); }
    }
  }

  lemma {:induction false} KeepDigitsAll(s: string)
    requires AllDigits(s)
    decreases |s|
    ensures KeepDigits(s) == s
  {
    if |s| > 0 {
      KeepDigitsAll(s[1..]);
    }
  }

  /** The colon some timetables print changes nothing. */
  lemma FromStrWithColon(h: nat, m: nat)
    requires h < 100 && m < 100
    ensures FromStr(NatText(h) + [':'] + Pad2(NatText(m))) == Ok(FromSeconds(h * 3600 + m * 60))
  {
    NonDigitIgnored(NatText(h), ':', Pad2(NatText(m)));
    FromStrReadsHoursMinutes(h, m);
  }
}

=== FILE: timetable.dfy ===
/** The body of a scraped timetable: one pass over its cells in row-major
    order that writes stop times and per-train fields into the trains the
    header created, then the filter that drops unusable trains.

    The HTML itself is not modelled. A cell is given with its row label, its
    column, its stripped text, and the second argument of its pop-up
    dialog, when it has one. */
module Timetable {
  import opened Results
  import opened Digits
  import Times
  import opened Trains

  /** What a row of the timetable holds, as the station column names it. */
  datatype RowLabel =
    /** A row with no label: every cell in it is ignored. */
    | Blank
    /** `station_<name>_<kind>`, where `kind` is normally `arr` or `dep`. */
    | StationRow(station: string, kind: string)
    /** Any other row: the cell is stored under `key`. */
    | FieldRow(key: string)

  datatype Cell = Cell(row: RowLabel, column: nat, text: string, popup: Option<string>)

  /** The scan's state: the evening latch and the trains by column. */
  datatype Scan = Scan(evening: bool, trains: map<int, Train>)

  /** 22:00. A time after this switches the latch on. */
  const EveningStart: int := 79200
  /** 04:00. Once the latch is on, a time before this is on the next day. */
  const MorningEnd: int := 14400
  const DaySeconds: int := 86400

  /** Cell texts that mark a train passing or not serving the station. */
  predicate IsSkipMarker(v: string) {
    v in {"||", "レ", "・", "┐", "＝", ""}
  }

  /** The text a cell stands for: its pop-up text if it has one. */
  function Shown(c: Cell): string {
    c.popup.GetOr(c.text)
  }

  /** Drops the characters that the `(\W|\d)` substitution removes.
      `keep` says which characters are word characters and not decimal
      digits, as Python's Unicode tables classify them. */
  function TerminalName(text: string, keep: char -> bool): (r: string)
    ensures |r| <= |text|
    ensures forall c :: c in r <==> c in text && keep(c)
  {
    if |text| == 0 then ""
    else
      var rest := TerminalName(text[1..], keep);
      assert forall c :: c in text <==> c == text[0] || c in text[1..];
      if keep(text[0]) then [text[0]] + rest else rest
  }

  lemma {:induction false} TerminalNameIdempotent(text: string, keep: char -> bool)
    ensures TerminalName(TerminalName(text, keep), keep) == TerminalName(text, keep)
  {
    if |text| > 0 {
      TerminalNameIdempotent(text[1..], keep);
      var rest := TerminalName(text[1..], keep);
      if keep(text[0]) {
        assert ([text[0]] + rest)[1..] == rest;
      }
    }
  }

  /** The latch and the next-day shift for one station time `raw`. */
  function NextEvening(evening: bool, raw: int): bool {
    evening || raw > EveningStart
  }

  function Rollover(evening: bool, raw: int): (v: int)
    ensures v >= raw
    ensures v != raw <==> evening && raw < MorningEnd
    ensures v != raw ==> v == raw + DaySeconds
  {
    if evening && raw < MorningEnd then raw + DaySeconds else raw
  }

  /** The station text parses to a time after 22:00. */
  predicate TimeAfterEvening(value: string) {
    !IsSkipMarker(value) && Times.FromStr(value).Ok? && Times.Seconds(Times.FromStr(value).value) > EveningStart
  }

  /** The cell is a station time that switches the latch on. */
  predicate RaisesEvening(c: Cell) {
    c.text != "" && c.row.StationRow? && TimeAfterEvening(Shown(c))
  }

  /** Station rows name one of the two times of a stop. */
  predicate WellKinded(c: Cell) {
    c.row.StationRow? ==> c.row.kind == "arr" || c.row.kind == "dep"
  }

  /** Every train's stop list names each station once. */
  predicate AllUnique(trains: map<int, Train>) {
    forall k :: k in trains ==> UniqueNames(trains[k].stations)
  }

  /** The train in a column, failing like the dictionary lookup. */
  function TrainAt(trains: map<int, Train>, col: int): (r: Result<Train>)
    ensures r.Ok? <==> col in trains
    ensures r.Ok? ==> r.value == trains[col]
    ensures r.Err? ==> r.error == NoSuchColumn(col)
  {
    if col in trains then Ok(trains[col]) else Err(NoSuchColumn(col))
  }

  /** A station time written into a train's stop list. If the station is
      already listed and `kind` names one of its two times, that time is
      overwritten. Otherwise a new stop is appended with both times equal. */
  function Upsert(stations: seq<Stop>, name: string, kind: string, v: int): (r: seq<Stop>)
    ensures Names(r) == Names(stations) + {name}
    ensures UniqueNames(stations) && (kind == "arr" || kind == "dep") ==> UniqueNames(r)
    ensures |r| == |stations| || |r| == |stations| + 1
    ensures |r| == |stations| <==> name in Names(stations) && (kind == "arr" || kind == "dep")
    ensures |r| == |stations| + 1 ==> r[..|stations|] == stations && r[|stations|] == Stop(name, v, v)
    ensures |r| == |stations| ==>
      forall j :: 0 <= j < |r| && r[j] != stations[j] ==>
        j == HasStation(stations, name) && r[j].station == name &&
        (if kind == "dep" then r[j] == stations[j].(dep := v) else r[j] == stations[j].(arr := v))
    ensures name in Names(stations) && kind == "dep" ==>
              var i := HasStation(stations, name); r == stations[i := stations[i].(dep := v)]
    ensures name in Names(stations) && kind == "arr" ==>
              var i := HasStation(stations, name); r == stations[i := stations[i].(arr := v)]
  {
    var i := HasStation(stations, name);
    if i >= 0 && kind == "dep" then
      var r := stations[i := stations[i].(dep := v)];
      assert forall j :: 0 <= j < |r| ==> r[j].station == stations[j].station;
      assert Names(r) == Names(stations);
      r
    else if i >= 0 && kind == "arr" then
      var r := stations[i := stations[i].(arr := v)];
      assert forall j :: 0 <= j < |r| ==> r[j].station == stations[j].station;
      assert Names(r) == Names(stations);
      r
    else
      NamesOfAppend(stations, Stop(name, v, v));
      stations + [Stop(name, v, v)]
  }

  /** A `station_*` cell. */
  function StationCell(st: Scan, col: int, name: string, kind: string, value: string): (r: Result<Scan>)
    ensures r.Ok? ==> r.value.trains.Keys == st.trains.Keys
    ensures r.Ok? ==> forall k :: k in st.trains && k != col ==> r.value.trains[k] == st.trains[k]
    ensures r.Ok? ==> (r.value.evening <==> st.evening || TimeAfterEvening(value))
    ensures r.Ok? && !IsSkipMarker(value) ==> col in st.trains
    ensures r.Ok? && !IsSkipMarker(value) ==> Names(r.value.trains[col].stations) == Names(st.trains[col].stations) + {name}
    ensures r.Ok? && col in st.trains && (kind == "arr" || kind == "dep") && UniqueNames(st.trains[col].stations) ==>
              UniqueNames(r.value.trains[col].stations)
    ensures r.Err? ==> !IsSkipMarker(value) && (Times.FromStr(value).Err? || col !in st.trains)
    ensures IsSkipMarker(value) ==> r == Ok(st)
    ensures !IsSkipMarker(value) ==> (r.Ok? <==> Times.FromStr(value).Ok? && col in st.trains)
    ensures !IsSkipMarker(value) && Times.FromStr(value).Err? ==> r == Err(Times.FromStr(value).error)
    ensures r.Ok? && !IsSkipMarker(value) ==>
              && r.value.trains[col] == st.trains[col].(stations := r.value.trains[col].stations)
              && r.value.trains[col].stations ==
                   Upsert(st.trains[col].stations, name, kind,
                          Rollover(r.value.evening, Times.Seconds(Times.FromStr(value).value)))
  {
    if IsSkipMarker(value) then Ok(st)
    else
      var t :- Times.FromStr(value);
      var raw := Times.Seconds(t);
      var evening := NextEvening(st.evening, raw);
      var train :- TrainAt(st.trains, col);
      var stations := Upsert(train.stations, name, kind, Rollover(evening, raw));
      Ok(Scan(evening, st.trains[col := train.(stations := stations)]))
  }

  /** A `first_station` or `last_station` cell: the terminal's name, from the
      pop-up or from the text's word characters, and the time in the text. */
  function TerminalCell(st: Scan, keep: char -> bool, c: Cell, key: string): (r: Result<Scan>)
    ensures r.Ok? <==> Times.FromStr(c.text).Ok? && c.column in st.trains
    ensures r.Ok? ==> r.value.evening == st.evening && r.value.trains.Keys == st.trains.Keys
    ensures r.Ok? ==> forall k :: k in st.trains && k != c.column ==> r.value.trains[k] == st.trains[k]
    ensures r.Ok? ==> r.value.trains[c.column].stations == st.trains[c.column].stations
    ensures r.Ok? ==>
      var end := if key == "first_station" then r.value.trains[c.column].first else r.value.trains[c.column].last;
      end.Some? && end.value.time == Times.Seconds(Times.FromStr(c.text).value) &&
      (c.popup.None? ==> forall ch :: ch in end.value.name <==> ch in c.text && keep(ch))
    ensures r.Ok? ==>
      var before := st.trains[c.column];
      var after := r.value.trains[c.column];
      var end := if key == "first_station" then after.first else after.last;
      && after.info == before.info
      && (if key == "first_station" then after.last == before.last else after.first == before.first)
      && (c.popup.Some? ==> end.value.name == c.popup.value)
      && (c.popup.None? ==> end.value.name == TerminalName(c.text, keep))
  {
    var name := if c.popup.Some? then c.popup.value else TerminalName(c.text, keep);
    var t :- Times.FromStr(c.text);
    var train :- TrainAt(st.trains, c.column);
    var end := Terminal(name, Times.Seconds(t));
    var updated := if key == "first_station" then train.(first := Some(end)) else train.(last := Some(end));
    Ok(st.(trains := st.trains[c.column := updated]))
  }

  /** Any other labelled cell. `区休` in the `active_days` row means the
      train continues the previous column's train under another calendar:
      the `sections` table, keyed by that train's calendar, gives the new
      calendar of the previous train and the calendar of this one. */
  function FieldCell(st: Scan, sections: map<string, (string, string)>, col: int, key: string, value: string): (r: Result<Scan>)
    ensures r.Ok? ==> r.value.evening == st.evening && r.value.trains.Keys == st.trains.Keys
    ensures r.Ok? ==> forall k :: k in st.trains && k != col && k != col - 1 ==> r.value.trains[k] == st.trains[k]
    ensures r.Ok? ==> col in st.trains && r.value.trains[col].stations == st.trains[col].stations
    ensures r.Ok? && col - 1 in st.trains ==> r.value.trains[col - 1].stations == st.trains[col - 1].stations
    ensures !(key == "active_days" && value == "区休") ==>
              (r.Ok? <==> col in st.trains) &&
              (r.Ok? ==> r.value.trains[col].info == st.trains[col].info[key := value] &&
                         (col - 1 in st.trains ==> r.value.trains[col - 1] == st.trains[col - 1]))
  {
    if key == "active_days" && value == "区休" then
      var before :- TrainAt(st.trains, col - 1);
      var calendar :- Field(before, "active_days");
      if calendar !in sections then Err(UnknownSectionChange(calendar))
      else
        var trains := st.trains[col - 1 := before.(info := before.info["active_days" := sections[calendar].0])];
        var train :- TrainAt(trains, col);
        Ok(st.(trains := trains[col := train.(info := train.info["active_days" := sections[calendar].1])]))
    else
      var train :- TrainAt(st.trains, col);
      Ok(st.(trains := st.trains[col := train.(info := train.info[key := value])]))
  }

  /** One cell of the scan. */
  function ProcessCell(st: Scan, sections: map<string, (string, string)>, keep: char -> bool, c: Cell): (r: Result<Scan>)
    ensures r.Ok? ==> r.value.trains.Keys == st.trains.Keys
    ensures r.Ok? ==> (r.value.evening <==> st.evening || RaisesEvening(c))
    ensures r.Ok? ==> forall k :: k in st.trains && k != c.column && k != c.column - 1 ==> r.value.trains[k] == st.trains[k]
    ensures r.Ok? && WellKinded(c) && AllUnique(st.trains) ==> AllUnique(r.value.trains)
  {
    if c.text == "" then Ok(st)
    else
      match c.row
      case Blank => Ok(st)
      case StationRow(name, kind) => StationCell(st, c.column, name, kind, Shown(c))
      case FieldRow(key) =>
        if key == "first_station" || key == "last_station" then TerminalCell(st, keep, c, key)
        else FieldCell(st, sections, c.column, key, Shown(c))
  }

  /** The scan over the cells in row-major order. */
  function ProcessAll(st: Scan, sections: map<string, (string, string)>, keep: char -> bool, cells: seq<Cell>): (r: Result<Scan>)
    decreases |cells|
  {
    if |cells| == 0 then Ok(st)
    else
      var next :- ProcessCell(st, sections, keep, cells[0]);
      ProcessAll(next, sections, keep, cells[1..])
  }

  /** A successful scan writes only into the columns the header created;
      the latch ends on exactly when it started on or some station cell
      holds a time after 22:00; and if every station row names an arrival
      or a departure, no train ends up listing a station twice. */
  lemma {:induction false} ScanInvariants(st: Scan, sections: map<string, (string, string)>, keep: char -> bool, cells: seq<Cell>)
    requires ProcessAll(st, sections, keep, cells).Ok?
    decreases |cells|
    ensures var r := ProcessAll(st, sections, keep, cells).value;
            && r.trains.Keys == st.trains.Keys
            && (r.evening <==> st.evening || exists i :: 0 <= i < |cells| && RaisesEvening(cells[i]))
            && (AllUnique(st.trains) && (forall i :: 0 <= i < |cells| ==> WellKinded(cells[i])) ==>
                  AllUnique(r.trains))
  {
    if |cells| > 0 {
      var next := ProcessCell(st, sections, keep, cells[0]).value;
      ScanInvariants(next, sections, keep, cells[1..]);
      assert forall i :: 1 <= i < |cells| ==> cells[i] == cells[1..][i - 1];
      if exists i :: 1 <= i < |cells| && RaisesEvening(cells[i]) {
        var i :| 1 <= i < |cells| && RaisesEvening(cells[i]);
        assert RaisesEvening(cells[1..][i - 1]);
      }
    }
  }

  /** Once on, the latch stays on for the rest of the page. */
  lemma EveningStaysOn(st: Scan, sections: map<string, (string, string)>, keep: char -> bool, cells: seq<Cell>)
    requires st.evening && ProcessAll(st, sections, keep, cells).Ok?
    ensures ProcessAll(st, sections, keep, cells).value.evening
  {
    ScanInvariants(st, sections, keep, cells);
  }

  /** `parse_web_timebody`: the latch starts off once for the whole page. */
  function ParseTimebody(trains: map<int, Train>, sections: map<string, (string, string)>, keep: char -> bool, cells: seq<Cell>): Result<map<int, Train>>
  {
    var st :- ProcessAll(Scan(false, trains), sections, keep, cells);
    Ok(st.trains)
  }

  /** A `区休` cell succeeds exactly when both columns exist, the previous
      train has a calendar, and the table knows that calendar. It then moves
      the previous train to the table's first calendar and gives this train
      the second. */
  lemma SectionChangeCell(st: Scan, sections: map<string, (string, string)>, keep: char -> bool, c: Cell)
    requires c.text != "" && c.row == FieldRow("active_days") && Shown(c) == "区休"
    ensures var prev := c.column - 1;
            var r := ProcessCell(st, sections, keep, c);
            && (r.Ok? <==> (prev in st.trains && "active_days" in st.trains[prev].info &&
                           st.trains[prev].info["active_days"] in sections && c.column in st.trains))
            && (r.Ok? ==>
                  var k := st.trains[prev].info["active_days"];
                  && r.value.trains[prev].info == st.trains[prev].info["active_days" := sections[k].0]
                  && r.value.trains[c.column].info == st.trains[c.column].info["active_days" := sections[k].1])
            && (prev in st.trains && "active_days" in st.trains[prev].info &&
                st.trains[prev].info["active_days"] !in sections ==>
                  r == Err(UnknownSectionChange(st.trains[prev].info["active_days"])))
  {
  }

  /** A readable time for a station the column's train does not list yet
      appends a stop whose two times are the (possibly shifted) time. */
  lemma NewStationAppends(st: Scan, sections: map<string, (string, string)>, keep: char -> bool,
                          name: string, kind: string, col: nat, value: string, raw: int)
    requires value != "" && !IsSkipMarker(value)
    requires Times.FromStr(value).Ok? && Times.Seconds(Times.FromStr(value).value) == raw
    requires col in st.trains && name !in Names(st.trains[col].stations)
    ensures var evening := NextEvening(st.evening, raw);
            var v := Rollover(evening, raw);
            var train := st.trains[col];
            ProcessCell(st, sections, keep, Cell(StationRow(name, kind), col, value, None)) ==
              Ok(Scan(evening, st.trains[col := train.(stations := train.stations + [Stop(name, v, v)])]))
  {
    var evening := NextEvening(st.evening, raw);
    var v := Rollover(evening, raw);
    var train := st.trains[col];
    assert Upsert(train.stations, name, kind, v) == train.stations + [Stop(name, v, v)];
  }

  /** A station cell with a readable time, spelled out on the whole scan. */
  lemma StationCellStep(st: Scan, col: int, name: string, kind: string, value: string, raw: int)
    requires !IsSkipMarker(value)
    requires Times.FromStr(value).Ok? && Times.Seconds(Times.FromStr(value).value) == raw
    requires col in st.trains
    ensures var e := NextEvening(st.evening, raw);
            var train := st.trains[col];
            StationCell(st, col, name, kind, value) ==
              Ok(Scan(e, st.trains[col := train.(stations := Upsert(train.stations, name, kind, Rollover(e, raw)))]))
  {
  }

  /** A departure for the station just appended overwrites that stop's
      departure. */
  lemma DepartureOfLast(stations: seq<Stop>, name: string, a: int, d: int)
    requires name !in Names(stations)
    ensures Upsert(stations + [Stop(name, a, a)], name, "dep", d) == stations + [Stop(name, a, d)]
  {
    var s1 := stations + [Stop(name, a, a)];
    NamesOfAppend(stations, Stop(name, a, a));
    assert HasStation(s1, name) == |stations|;
    assert s1[|stations| := Stop(name, a, d)] == stations + [Stop(name, a, d)];
  }

  /** An arrival cell and then a departure cell for a station the column's
      train does not list yet: the first appends the stop, the second
      overwrites its departure, so the one stop ends with both times. */
  lemma ArrivalThenDeparture(st: Scan, col: int, name: string, va: string, vd: string, ra: int, rd: int)
    requires !IsSkipMarker(va) && !IsSkipMarker(vd)
    requires Times.FromStr(va).Ok? && Times.Seconds(Times.FromStr(va).value) == ra
    requires Times.FromStr(vd).Ok? && Times.Seconds(Times.FromStr(vd).value) == rd
    requires col in st.trains && name !in Names(st.trains[col].stations)
    ensures var e1 := NextEvening(st.evening, ra);
            var e2 := NextEvening(e1, rd);
            var train := st.trains[col];
            var mid := StationCell(st, col, name, "arr", va);
            && mid.Ok?
            && StationCell(mid.value, col, name, "dep", vd) ==
                 Ok(Scan(e2, st.trains[col := train.(stations := train.stations +
                                                        [Stop(name, Rollover(e1, ra), Rollover(e2, rd))])]))
  {
    var e1 := NextEvening(st.evening, ra);
    var e2 := NextEvening(e1, rd);
    var a := Rollover(e1, ra);
    var d := Rollover(e2, rd);
    var train := st.trains[col];
    var s1 := train.stations + [Stop(name, a, a)];
    var train1 := train.(stations := s1);
    var trains1 := st.trains[col := train1];
    StationCellStep(st, col, name, "arr", va, ra);
    assert Upsert(train.stations, name, "arr", a) == s1;
    StationCellStep(Scan(e1, trains1), col, name, "dep", vd, rd);
    DepartureOfLast(train.stations, name, a, d);
    UpdateTwice(st.trains, col, train1, train1.(stations := train.stations + [Stop(name, a, d)]));
  }

  lemma UpdateTwice(m: map<int, Train>, k: int, x: Train, y: Train)
    ensures m[k := x][k := y] == m[k := y]
  {
  }

  /** The same step for a page with one train column, taken as the first
      cell of the rest of the scan. */
  lemma AppendToOnlyColumn(train: Train, evening: bool, sections: map<string, (string, string)>, keep: char -> bool,
                           name: string, value: string, raw: int, rest: seq<Cell>)
    requires value != "" && !IsSkipMarker(value)
    requires Times.FromStr(value).Ok? && Times.Seconds(Times.FromStr(value).value) == raw
    requires name !in Names(train.stations)
    ensures var v := Rollover(NextEvening(evening, raw), raw);
            ProcessAll(Scan(evening, map[0 := train]), sections, keep, [Cell(StationRow(name, "dep"), 0, value, None)] + rest) ==
              ProcessAll(Scan(NextEvening(evening, raw), map[0 := train.(stations := train.stations + [Stop(name, v, v)])]),
                         sections, keep, rest)
  {
    var st := Scan(evening, map[0 := train]);
    NewStationAppends(st, sections, keep, name, "dep", 0, value, raw);
    var v := Rollover(NextEvening(evening, raw), raw);
    assert st.trains[0 := train.(stations := train.stations + [Stop(name, v, v)])] ==
           map[0 := train.(stations := train.stations + [Stop(name, v, v)])];
    assert ([Cell(StationRow(name, "dep"), 0, value, None)] + rest)[1..] == rest;
  }

  /** A time after 22:00 in the one column: the stop is appended as read
      and the scan latches into the evening, whatever it was before. */
  lemma EveningStation(train: Train, evening: bool, sections: map<string, (string, string)>, keep: char -> bool,
                       name: string, value: string, raw: int, rest: seq<Cell>)
    requires value != "" && !IsSkipMarker(value)
    requires Times.FromStr(value).Ok? && Times.Seconds(Times.FromStr(value).value) == raw
    requires EveningStart < raw
    requires name !in Names(train.stations)
    ensures ProcessAll(Scan(evening, map[0 := train]), sections, keep, [Cell(StationRow(name, "dep"), 0, value, None)] + rest) ==
            ProcessAll(Scan(true, map[0 := train.(stations := train.stations + [Stop(name, raw, raw)])]), sections, keep, rest)
  {
    assert NextEvening(evening, raw) && Rollover(true, raw) == raw;
    AppendToOnlyColumn(train, evening, sections, keep, name, value, raw, rest);
  }

  /** A time before 04:00 once the scan is latched: the stop is moved to
      the next day and the latch stays on. */
  lemma NightStation(train: Train, sections: map<string, (string, string)>, keep: char -> bool,
                     name: string, value: string, raw: int, rest: seq<Cell>)
    requires value != "" && !IsSkipMarker(value)
    requires Times.FromStr(value).Ok? && Times.Seconds(Times.FromStr(value).value) == raw
    requires raw < MorningEnd
    requires name !in Names(train.stations)
    ensures var v := raw + DaySeconds;
            ProcessAll(Scan(true, map[0 := train]), sections, keep, [Cell(StationRow(name, "dep"), 0, value, None)] + rest) ==
            ProcessAll(Scan(true, map[0 := train.(stations := train.stations + [Stop(name, v, v)])]), sections, keep, rest)
  {
    assert NextEvening(true, raw) && Rollover(true, raw) == raw + DaySeconds;
    AppendToOnlyColumn(train, true, sections, keep, name, value, raw, rest);
  }

  /** Two more stations in the one column: a time after 22:00 latches the
      evening, so a following time before 04:00 moves to the next day. */
  lemma EveningThenNight(train: Train, evening: bool, sections: map<string, (string, string)>, keep: char -> bool,
                         nb: string, nc: string, v2: string, v3: string, t2: int, t3: int, rest: seq<Cell>)
    requires v2 != "" && v3 != "" && !IsSkipMarker(v2) && !IsSkipMarker(v3)
    requires Times.FromStr(v2).Ok? && Times.Seconds(Times.FromStr(v2).value) == t2
    requires Times.FromStr(v3).Ok? && Times.Seconds(Times.FromStr(v3).value) == t3
    requires EveningStart < t2 && t3 < MorningEnd
    requires nb != nc && nb !in Names(train.stations) && nc !in Names(train.stations)
    ensures ProcessAll(Scan(evening, map[0 := train]), sections, keep,
                       [Cell(StationRow(nb, "dep"), 0, v2, None)] + ([Cell(StationRow(nc, "dep"), 0, v3, None)] + rest)) ==
            ProcessAll(Scan(true, map[0 := train.(stations := train.stations + [Stop(nb, t2, t2)] +
                                                                 [Stop(nc, t3 + DaySeconds, t3 + DaySeconds)])]),
                       sections, keep, rest)
  {
    var c := Cell(StationRow(nc, "dep"), 0, v3, None);
    var sb := Stop(nb, t2, t2);
    var sc := Stop(nc, t3 + DaySeconds, t3 + DaySeconds);
    var train2 := train.(stations := train.stations + [sb]);
    EveningStation(train, evening, sections, keep, nb, v2, t2, [c] + rest);
    NamesOfAppend(train.stations, sb);
    NightStation(train2, sections, keep, nc, v3, t3, rest);
    assert train2.(stations := train2.stations + [sc]) == train.(stations := train.stations + [sb] + [sc]);
  }

  /** A first time of day, before 22:00, into an empty train: the stop is
      appended as read and the latch stays off. */
  lemma DayStationFirst(sections: map<string, (string, string)>, keep: char -> bool,
                        na: string, v1: string, t1: int, rest: seq<Cell>)
    requires v1 != "" && !IsSkipMarker(v1)
    requires Times.FromStr(v1).Ok? && Times.Seconds(Times.FromStr(v1).value) == t1
    requires MorningEnd <= t1 <= EveningStart
    ensures var train := Train(0, [], map[], None, None);
            ProcessAll(Scan(false, map[0 := train]), sections, keep, [Cell(StationRow(na, "dep"), 0, v1, None)] + rest) ==
            ProcessAll(Scan(false, map[0 := train.(stations := [Stop(na, t1, t1)])]), sections, keep, rest)
  {
    var train := Train(0, [], map[], None, None);
    assert NextEvening(false, t1) == false && Rollover(false, t1) == t1;
    AppendToOnlyColumn(train, false, sections, keep, na, v1, t1, rest);
    assert train.stations + [Stop(na, t1, t1)] == [Stop(na, t1, t1)];
  }

  /** Three stations read in one column: a time up to 22:00, then one
      after 22:00, then one before 04:00. The second latches the scan into
      the evening, so the third is moved to the next day. */
  lemma EveningLatchScenario(sections: map<string, (string, string)>, keep: char -> bool,
                             na: string, nb: string, nc: string,
                             v1: string, v2: string, v3: string, t1: int, t2: int, t3: int)
    requires na != nb && na != nc && nb != nc
    requires v1 != "" && v2 != "" && v3 != ""
    requires !IsSkipMarker(v1) && !IsSkipMarker(v2) && !IsSkipMarker(v3)
    requires Times.FromStr(v1).Ok? && Times.Seconds(Times.FromStr(v1).value) == t1
    requires Times.FromStr(v2).Ok? && Times.Seconds(Times.FromStr(v2).value) == t2
    requires Times.FromStr(v3).Ok? && Times.Seconds(Times.FromStr(v3).value) == t3
    requires MorningEnd <= t1 <= EveningStart < t2 && t3 < MorningEnd
    ensures var train := Train(0, [], map[], None, None);
            var cells := [Cell(StationRow(na, "dep"), 0, v1, None),
                          Cell(StationRow(nb, "dep"), 0, v2, None),
                          Cell(StationRow(nc, "dep"), 0, v3, None)];
            ParseTimebody(map[0 := train], sections, keep, cells) ==
              Ok(map[0 := train.(stations := [Stop(na, t1, t1)] + [Stop(nb, t2, t2)] +
                                             [Stop(nc, t3 + DaySeconds, t3 + DaySeconds)])])
  {
    var a := Cell(StationRow(na, "dep"), 0, v1, None);
    var b := Cell(StationRow(nb, "dep"), 0, v2, None);
    var c := Cell(StationRow(nc, "dep"), 0, v3, None);
    var sa := Stop(na, t1, t1);
    var sb := Stop(nb, t2, t2);
    var sc := Stop(nc, t3 + DaySeconds, t3 + DaySeconds);
    var last := Scan(true, map[0 := Train(0, [sa] + [sb] + [sc], map[], None, None)]);
    assert [a, b, c] == [a] + ([b] + ([c] + []));
    DayStationFirst(sections, keep, na, v1, t1, [b] + ([c] + []));
    NamesOfCons(sa, []);
    EveningThenNight(Train(0, [sa], map[], None, None), false, sections, keep, nb, nc, v2, v3, t2, t3, []);
    assert ProcessAll(last, sections, keep, []) == Ok(last);
  }

  /** The filter `get_trains` applies: a train must stop somewhere, and its
      calendar, when it has one, must not be "times vary" or "extra stop". */
  predicate Usable(t: Train) {
    |t.stations| > 0 && Lookup(t, "active_days") != Some("時変") && Lookup(t, "active_days") != Some("臨停")
  }

  function KeepUsable(trains: seq<Train>): (r: seq<Train>)
    ensures |r| <= |trains|
    ensures forall t :: t in r <==> t in trains && Usable(t)
    ensures forall i :: 0 <= i < |r| ==> |r[i].stations| > 0
  {
    if |trains| == 0 then []
    else
      var rest := KeepUsable(trains[1..]);
      assert forall t :: t in trains <==> t == trains[0] || t in trains[1..];
      if Usable(trains[0]) then [trains[0]] + rest else rest
  }

  /** Filtering one timetable after another is filtering each: the
      filter keeps the trains in their order. */
  lemma {:induction false} KeepUsableConcat(xs: seq<Train>, ys: seq<Train>)
    ensures KeepUsable(xs + ys) == KeepUsable(xs) + KeepUsable(ys)
  {
    if |xs| > 0 {
      assert (xs + ys)[1..] == xs[1..] + ys;
      KeepUsableConcat(xs[1..], ys);
    } else {
      assert xs + ys == ys;
    }
  }
}

=== FILE: trains.dfy ===
/** The train record that the timetable scraper builds and every later
    stage reads.

    A scraped train is a dictionary. Three of its keys have fixed shapes:
    the direction, the list of stops, and the two terminal pairs (name,
    time) from the header rows. Every other row of the timetable stores a
    plain string under the row's own label, for example `trip_name`,
    `trip_number`, `type` or `active_days`. */
module Trains {
  import opened Results

  /** One stop: the station name and its arrival and departure times, in
      seconds since the service day's midnight. */
  datatype Stop = Stop(station: string, arr: int, dep: int)

  /** A `first_station` / `last_station` value: where the train as a whole
      starts or ends, and at what time. */
  datatype Terminal = Terminal(name: string, time: int)

  datatype Train = Train(
    dir: int,
    stations: seq<Stop>,
    info: map<string, string>,
    first: Option<Terminal>,
    last: Option<Terminal>)

  /** `has_station`: the index of the first stop at `name`, or -1. */
  function HasStation(stations: seq<Stop>, name: string): (i: int)
    decreases |stations|
    ensures -1 <= i < |stations|
    ensures i >= 0 ==> stations[i].station == name
    ensures forall j :: 0 <= j < |stations| && (i == -1 || j < i) ==> stations[j].station != name
    ensures i == -1 <==> name !in Names(stations)
  {
    if |stations| == 0 then -1
    else if stations[0].station == name then 0
    else
      var k := HasStation(stations[1..], name);
      assert Names(stations) == {stations[0].station} + Names(stations[1..]);
      if k == -1 then -1 else k + 1
  }

  /** The names of the stations a list of stops visits. */
  function Names(stations: seq<Stop>): set<string> {
    set i | 0 <= i < |stations| :: stations[i].station
  }

  /** Appending a stop adds exactly its station to the names. */
  lemma NamesOfAppend(stations: seq<Stop>, x: Stop)
    ensures Names(stations + [x]) == Names(stations) + {x.station}
  {
    var r := stations + [x];
    forall n | n in Names(r) ensures n in Names(stations) + {x.station} {
      var j :| 0 <= j < |r| && r[j].station == n;
      if j < |stations| { assert stations[j].station == n; }
    }
    forall n | n in Names(stations) ensures n in Names(r) {
      var j :| 0 <= j < |stations| && stations[j].station == n;
      assert r[j].station == n;
    }
    assert r[|stations|].station == x.station;
  }

  /** The names of two lists of stops together. */
  lemma NamesOfConcat(xs: seq<Stop>, ys: seq<Stop>)
    ensures Names(xs + ys) == Names(xs) + Names(ys)
  {
    var r := xs + ys;
    forall n | n in Names(r) ensures n in Names(xs) + Names(ys) {
      var j :| 0 <= j < |r| && r[j].station == n;
      if j < |xs| { assert xs[j].station == n; } else { assert ys[j - |xs|].station == n; }
    }
    forall n | n in Names(xs) + Names(ys) ensures n in Names(r) {
      if n in Names(xs) {
        var j :| 0 <= j < |xs| && xs[j].station == n;
        assert r[j].station == n;
      } else {
        var j :| 0 <= j < |ys| && ys[j].station == n;
        assert r[|xs| + j].station == n;
      }
    }
  }

  /** Putting a stop in front adds exactly its station to the names. */
  lemma NamesOfCons(x: Stop, stations: seq<Stop>)
    ensures Names([x] + stations) == {x.station} + Names(stations)
  {
    var r := [x] + stations;
    forall n | n in Names(r) ensures n in {x.station} + Names(stations) {
      var j :| 0 <= j < |r| && r[j].station == n;
      if j > 0 { assert stations[j - 1].station == n; }
    }
    forall n | n in {x.station} + Names(stations) ensures n in Names(r) {
      if n == x.station {
        assert r[0].station == n;
      } else {
        var j :| 0 <= j < |stations| && stations[j].station == n;
        assert r[j + 1].station == n;
      }
    }
  }

  /** No station appears twice. */
  predicate UniqueNames(stations: seq<Stop>) {
    forall i, j :: 0 <= i < j < |stations| ==> stations[i].station != stations[j].station
  }

  /** A string-valued key of the train, failing like a missing dictionary
      key. */
  function Field(t: Train, key: string): (r: Result<string>)
    ensures r.Ok? <==> key in t.info
    ensures r.Err? ==> r.error == MissingKey(key)
  {
    if key in t.info then Ok(t.info[key]) else Err(MissingKey(key))
  }

  /** A string-valued key that is allowed to be absent. */
  function Lookup(t: Train, key: string): Option<string> {
    if key in t.info then Some(t.info[key]) else None
  }
}

=== FILE: untenbi_grammar.dfy ===
/** The grammar of operating-day (運転日) texts, as an ordered-choice
    backtracking parser over strings.

    Every parser takes the remaining input. It either yields a value with
    the input left after it (`Parsed`) or fails without consuming anything
    (`NoParse`), and the enclosing choice then tries its next alternative.
    A `ValueError` or `KeyError` raised while a rule is being built is no
    parse failure: no choice catches it and it ends the whole parse
    (`Raised`).

    Grammar, alternatives in the order they are tried:
      number       := 1-2 digits (ASCII or full-width), longest first
      month        := number "月" | ""
      day          := number "日"?
      endpoint     := month day
      date         := endpoint "～" endpoint | endpoint
      dates        := date ("・" date)*
      boundary     := endpoint ("から運転" | "からは運転" | "からは運休" | "まで運転"
                                | "までは運転" | "まで運休" | "までは運休")
      listed       := dates "は"? ("運転" | "運休")
      rule         := boundary | listed
      rules        := rule (("、" | "。") rule)* ("、" | "。")?
      leading      := ("全日運転" | "土曜・休日") ("と" | "。") | "" */
module UntenbiGrammar {
  import opened Results
  import opened Digits
  import opened MonthDays

  datatype Parsed<+T> = Parsed(value: T, rest: string) | NoParse | Raised(error: Error)

  /** `rest` is what is left of `s` after reading some prefix of it. */
  predicate SuffixOf(rest: string, s: string) {
    |rest| <= |s| && s[|s| - |rest|..] == rest
  }

  /** A parse result that, on success, consumed at least one character. */
  predicate Consumes<T>(r: Parsed<T>, s: string) {
    r.Parsed? ==> SuffixOf(r.rest, s) && |r.rest| < |s|
  }

  lemma SuffixOfTrans(a: string, b: string, c: string)
    requires SuffixOf(a, b) && SuffixOf(b, c)
    ensures SuffixOf(a, c)
  {
    assert c[|c| - |a|..] == c[|c| - |b|..][|b| - |a|..];
  }

  lemma SuffixOfDrop(s: string, k: nat)
    requires k <= |s|
    ensures SuffixOf(s[k..], s)
  {
  }

  predicate StartsWith(s: string, lit: string) {
    |lit| <= |s| && s[..|lit|] == lit
  }

  /** `number`: one or two digits, taking two when there are two. */
  function Number(s: string): (r: Parsed<nat>)
    ensures !r.Raised?
    ensures r.Parsed? <==> |s| > 0 && IsDigit(s[0])
    ensures r.Parsed? ==> r.value < 100
    ensures r.Parsed? && |s| > 1 && IsDigit(s[1]) ==> r.rest == s[2..]
    ensures r.Parsed? && (|s| == 1 || !IsDigit(s[1])) ==> r.rest == s[1..] && r.value == DigitValue(s[0])
    ensures Consumes(r, s)
  {
    if |s| > 0 && IsDigit(s[0]) then
      if |s| > 1 && IsDigit(s[1]) then
        Parsed(10 * DigitValue(s[0]) + DigitValue(s[1]), s[2..])
      else
        Parsed(DigitValue(s[0]), s[1..])
    else
      NoParse
  }

  /** `month_def`: a number followed by 月, or else nothing at all. */
  function MonthDef(s: string): (r: Parsed<Option<nat>>)
    ensures r.Parsed?
    ensures r.value.None? <==> r.rest == s
    ensures r.value.Some? ==> |s| > 0 && IsDigit(s[0]) && r.value.value < 100 && |r.rest| < |s|
    ensures SuffixOf(r.rest, s)
  {
    match Number(s)
    case Parsed(n, rest) =>
      if |rest| > 0 && rest[0] == '月' then Parsed(Some(n), rest[1..]) else Parsed(None, s)
    case _ => Parsed(None, s)
  }

  /** `day_def`: a number with an optional 日 after it. */
  function DayDef(s: string): (r: Parsed<nat>)
    ensures !r.Raised?
    ensures r.Parsed? <==> |s| > 0 && IsDigit(s[0])
    ensures r.Parsed? ==> r.value < 100
    ensures Consumes(r, s)
  {
    match Number(s)
    case Parsed(n, rest) =>
      if |rest| > 0 && rest[0] == '日' then Parsed(n, rest[1..]) else Parsed(n, rest)
    case _ => NoParse
  }

  /** One written date: the month is absent when it is to be carried. */
  datatype Endpoint = Endpoint(month: Option<nat>, day: nat)

  /** An element of a date list. */
  datatype DateSpec = Single(at: Endpoint) | Span(from: Endpoint, to: Endpoint)

  /** `month_def` then `day_def`, the body of both `single_day_def` and
      each half of `range_def`. */
  function EndpointDef(s: string): (r: Parsed<Endpoint>)
    ensures !r.Raised?
    ensures Consumes(r, s)
  {
    var m := MonthDef(s);
    match DayDef(m.rest)
    case Parsed(d, rest) =>
      SuffixOfTrans(rest, m.rest, s);
      Parsed(Endpoint(m.value, d), rest)
    case _ => NoParse
  }

  /** `range_def`. */
  function RangeDef(s: string): (r: Parsed<DateSpec>)
    ensures !r.Raised?
    ensures r.Parsed? ==> r.value.Span?
    ensures Consumes(r, s)
  {
    match EndpointDef(s)
    case Parsed(a, rest) =>
      if |rest| > 0 && rest[0] == '～' then
        (match EndpointDef(rest[1..])
         case Parsed(b, rest2) =>
           SuffixOfTrans(rest2, rest[1..], rest);
           SuffixOfTrans(rest2, rest, s);
           Parsed(Span(a, b), rest2)
         case _ => NoParse)
      else NoParse
    case _ => NoParse
  }

  /** `single_day_def`. */
  function SingleDayDef(s: string): (r: Parsed<Endpoint>)
    ensures !r.Raised?
    ensures Consumes(r, s)
  {
    EndpointDef(s)
  }

  /** `date`: a range is tried before a single date. */
  function DateDef(s: string): (r: Parsed<DateSpec>)
    ensures !r.Raised?
    ensures Consumes(r, s)
  {
    match RangeDef(s)
    case Parsed(d, rest) => Parsed(d, rest)
    case _ =>
      match SingleDayDef(s)
      case Parsed(e, rest) => Parsed(Single(e), rest)
      case _ => NoParse
  }

  /** `multiple_dates`, one or more dates separated by ・. A ・ that is
      not followed by a date is left unread. */
  function DateList(s: string): (r: Parsed<seq<DateSpec>>)
    decreases |s|
    ensures !r.Raised?
    ensures r.Parsed? ==> |r.value| > 0
    ensures Consumes(r, s)
  {
    match DateDef(s)
    case Parsed(d, rest) =>
      if |rest| > 0 && rest[0] == '・' then
        (match DateList(rest[1..])
         case Parsed(ds, rest2) =>
           SuffixOfTrans(rest2, rest[1..], rest);
           SuffixOfTrans(rest2, rest, s);
           Parsed([d] + ds, rest2)
         case _ => Parsed([d], rest))
      else Parsed([d], rest)
    case _ => NoParse
  }

  /** The month a date gets: its own, or else the one carried from earlier
      in the same list; with neither, `flatten_multiple_dates` raises. */
  function ResolveMonth(e: Endpoint, carry: Option<nat>): (r: Result<nat>)
    ensures r.Err? <==> e.month.None? && carry.None?
    ensures r.Err? ==> r.error == MonthRequired
    ensures r.Ok? ==> Some(r.value) == CarryPast(e, carry)
  {
    if e.month.Some? then Ok(e.month.value)
    else if carry.Some? then Ok(carry.value)
    else Err(MonthRequired)
  }

  /** The carried month after reading an endpoint: every explicit month
      replaces it. */
  function CarryPast(e: Endpoint, carry: Option<nat>): Option<nat> {
    if e.month.Some? then e.month else carry
  }

  /** The carried month after reading a whole list: the last explicit month
      in it, or the one carried in when it has none. */
  function CarryAfter(dates: seq<DateSpec>, carry: Option<nat>): Option<nat>
    decreases |dates|
  {
    if |dates| == 0 then carry
    else
      var c := match dates[0]
        case Single(e) => CarryPast(e, carry)
        case Span(a, b) => CarryPast(b, CarryPast(a, carry));
      CarryAfter(dates[1..], c)
  }

  /** `flatten_multiple_dates`, from a given carried month: each single
      date becomes one (month, day) and each range is expanded day by
      day. */
  function Flatten(dates: seq<DateSpec>, carry: Option<nat>): Result<seq<MonthDay>>
    decreases |dates|
  {
    if |dates| == 0 then Ok([])
    else
      match dates[0]
      case Single(e) =>
        var m :- ResolveMonth(e, carry);
        var tail :- Flatten(dates[1..], Some(m));
        Ok([MD(m, e.day)] + tail)
      case Span(a, b) =>
        var ma :- ResolveMonth(a, carry);
        var mb :- ResolveMonth(b, Some(ma));
        var days :- ExpandRange(MD(ma, a.day), MD(mb, b.day));
        var tail :- Flatten(dates[1..], Some(mb));
        Ok(days + tail)
  }

  /** Flattening a concatenation flattens the first part, then the second
      part from the month the first part leaves carried; the first error
      met is the one reported. */
  lemma {:induction false} FlattenConcat(a: seq<DateSpec>, b: seq<DateSpec>, carry: Option<nat>)
    decreases |a|
    ensures Flatten(a + b, carry) ==
      match Flatten(a, carry)
      case Err(e) => Err(e)
      case Ok(xa) =>
        match Flatten(b, CarryAfter(a, carry))
        case Err(e) => Err(e)
        case Ok(xb) => Ok(xa + xb)
  {
    if |a| == 0 {
      assert a + b == b;
      assert Flatten(a, carry) == Ok([]);
      assert CarryAfter(a, carry) == carry;
      if Flatten(b, carry).Ok? {
        assert [] + Flatten(b, carry).value == Flatten(b, carry).value;
      }
    } else {
      assert (a + b)[0] == a[0];
      assert (a + b)[1..] == a[1..] + b;
      match a[0]
      case Single(e) =>
        if ResolveMonth(e, carry).Ok? {
          var m := ResolveMonth(e, carry).value;
          assert CarryAfter(a, carry) == CarryAfter(a[1..], Some(m));
          FlattenConcat(a[1..], b, Some(m));
          var ta := Flatten(a[1..], Some(m));
          if ta.Ok? {
            var tb := Flatten(b, CarryAfter(a, carry));
            if tb.Ok? {
              assert [MD(m, e.day)] + (ta.value + tb.value) == ([MD(m, e.day)] + ta.value) + tb.value;
            }
          }
        }
      case Span(x, y) =>
        if ResolveMonth(x, carry).Ok? {
          var ma := ResolveMonth(x, carry).value;
          if ResolveMonth(y, Some(ma)).Ok? {
            var mb := ResolveMonth(y, Some(ma)).value;
            assert CarryAfter(a, carry) == CarryAfter(a[1..], Some(mb));
            FlattenConcat(a[1..], b, Some(mb));
            var days := ExpandRange(MD(ma, x.day), MD(mb, y.day));
            var ta := Flatten(a[1..], Some(mb));
            if days.Ok? && ta.Ok? {
              var tb := Flatten(b, CarryAfter(a, carry));
              if tb.Ok? {
                assert days.value + (ta.value + tb.value) == (days.value + ta.value) + tb.value;
              }
            }
          }
        }
    }
  }

  /** Month carry: a date written without a month, placed after a list
      that flattens, takes the last explicit month of that list (or of
      the carried one); when there is none the list is an error. */
  lemma MonthlessDateTakesCarriedMonth(prefix: seq<DateSpec>, day: nat, carry: Option<nat>)
    requires Flatten(prefix, carry).Ok?
    ensures CarryAfter(prefix, carry).None? ==>
              Flatten(prefix + [Single(Endpoint(None, day))], carry) == Err(MonthRequired)
    ensures CarryAfter(prefix, carry).Some? ==>
              Flatten(prefix + [Single(Endpoint(None, day))], carry) ==
              Ok(Flatten(prefix, carry).value + [MD(CarryAfter(prefix, carry).value, day)])
  {
    var last := [Single(Endpoint(None, day))];
    FlattenConcat(prefix, last, carry);
    assert last[1..] == [];
    if CarryAfter(prefix, carry).Some? {
      var m := CarryAfter(prefix, carry).value;
      assert Flatten(last[1..], Some(m)) == Ok([]);
      assert ResolveMonth(last[0].at, Some(m)) == Ok(m);
      assert [MD(m, day)] + [] == [MD(m, day)];
      assert Flatten(last, Some(m)) == Ok([MD(m, day)]);
    }
  }

  /** A list whose first date has no month, read with nothing carried,
      raises. */
  lemma FirstDateNeedsMonth(dates: seq<DateSpec>)
    requires |dates| > 0
    requires (dates[0].Single? && dates[0].at.month.None?) || (dates[0].Span? && dates[0].from.month.None?)
    ensures Flatten(dates, None) == Err(MonthRequired)
  {
  }

  /** The seven boundary keywords, tried in this order. */
  datatype BoundaryKind = StartDate | StartDatePlusOne | EndDate | EndDateMinusOne

  function BoundaryKeyword(s: string): (r: Parsed<BoundaryKind>)
    ensures !r.Raised?
    ensures Consumes(r, s)
  {
    if StartsWith(s, "から運転") then Parsed(StartDate, s[4..])
    else if StartsWith(s, "からは運転") then Parsed(StartDate, s[5..])
    else if StartsWith(s, "からは運休") then Parsed(EndDateMinusOne, s[5..])
    else if StartsWith(s, "まで運転") then Parsed(EndDate, s[4..])
    else if StartsWith(s, "までは運転") then Parsed(EndDate, s[5..])
    else if StartsWith(s, "まで運休") then Parsed(StartDatePlusOne, s[4..])
    else if StartsWith(s, "までは運休") then Parsed(StartDatePlusOne, s[5..])
    else NoParse
  }

  /** A parsed rule: a boundary on one day, or a list of days on which the
      train runs (`running`) or does not. */
  datatype Rule =
    | Boundary(kind: BoundaryKind, day: MonthDay)
    | Listed(running: bool, days: seq<MonthDay>)

  /** `single_day_rule`. A boundary rule must name its month: once the
      keyword has been read, a missing month raises. */
  function SingleDayRule(s: string): (r: Parsed<Rule>)
    ensures r.Raised? ==> r.error == MonthRequired
    ensures r.Parsed? ==> r.value.Boundary?
    ensures Consumes(r, s)
  {
    match SingleDayDef(s)
    case Parsed(e, rest) =>
      (match BoundaryKeyword(rest)
       case Parsed(kind, rest2) =>
         SuffixOfTrans(rest2, rest, s);
         if e.month.None? then Raised(MonthRequired)
         else Parsed(Boundary(kind, MD(e.month.value, e.day)), rest2)
       case _ => NoParse)
    case _ => NoParse
  }

  /** `rule_type_def`: an optional は, then 運転 (true) or 運休 (false). */
  function RuleTypeDef(s: string): (r: Parsed<bool>)
    ensures !r.Raised?
    ensures Consumes(r, s)
  {
    var t := if |s| > 0 && s[0] == 'は' then s[1..] else s;
    if StartsWith(t, "運転") then Parsed(true, t[2..])
    else if StartsWith(t, "運休") then Parsed(false, t[2..])
    else NoParse
  }

  /** `multi_day_rule`: the dates are flattened once the rule type has
      been read, and a flattening error raises. */
  function MultiDayRule(s: string): (r: Parsed<Rule>)
    ensures r.Parsed? ==> r.value.Listed?
    ensures Consumes(r, s)
  {
    match DateList(s)
    case Parsed(dates, rest) =>
      (match RuleTypeDef(rest)
       case Parsed(running, rest2) =>
         SuffixOfTrans(rest2, rest, s);
         (match Flatten(dates, None)
          case Ok(days) => Parsed(Listed(running, days), rest2)
          case Err(e) => Raised(e))
       case _ => NoParse)
    case _ => NoParse
  }

  /** `rule`: a boundary rule is tried before a listed one. */
  function RuleDef(s: string): (r: Parsed<Rule>)
    ensures Consumes(r, s)
  {
    match SingleDayRule(s)
    case NoParse => MultiDayRule(s)
    case other => other
  }

  predicate IsRuleSeparator(c: char) {
    c == '、' || c == '。'
  }

  /** `all_rules`: one or more rules separated by 、 or 。, with an
      optional trailing separator, which is read. */
  function AllRules(s: string): (r: Parsed<seq<Rule>>)
    decreases |s|
    ensures r.Parsed? ==> |r.value| > 0
    ensures Consumes(r, s)
  {
    match RuleDef(s)
    case Parsed(x, rest) =>
      if |rest| > 0 && IsRuleSeparator(rest[0]) then
        SuffixOfTrans(rest[1..], rest, s);
        (match AllRules(rest[1..])
         case Parsed(xs, rest2) =>
           SuffixOfTrans(rest2, rest[1..], s);
           Parsed([x] + xs, rest2)
         case NoParse => Parsed([x], rest[1..])
         case Raised(e) => Raised(e))
      else Parsed([x], rest)
    case NoParse => NoParse
    case Raised(e) => Raised(e)
  }

  /** `s` starts with the pattern name `name` and then と or 。. */
  predicate PatternAt(s: string, name: string) {
    StartsWith(s, name) && |s| > |name| && (s[|name|] == 'と' || s[|name|] == '。')
  }

  /** `pattern_def ^ string("")`: a leading 全日運転 or 土曜・休日 counts only
      when と or 。 follows it. Otherwise nothing is read. */
  function LeadingPattern(s: string): (r: Parsed<Option<string>>)
    ensures r.Parsed?
    ensures r.value.None? <==> r.rest == s
    ensures r.value.Some? ==> r.value.value in {"全日運転", "土曜・休日"}
    ensures r.value.Some? <==> PatternAt(s, "全日運転") || PatternAt(s, "土曜・休日")
    ensures r.value.Some? ==> PatternAt(s, r.value.value) && r.rest == s[|r.value.value| + 1..]
    ensures SuffixOf(r.rest, s)
  {
    var name: string :=
      if StartsWith(s, "全日運転") then "全日運転"
      else if StartsWith(s, "土曜・休日") then "土曜・休日"
      else "";
    var len := |name|;
    assert StartsWith(s, "全日運転") ==> !StartsWith(s, "土曜・休日") by {
      if StartsWith(s, "全日運転") {
        assert s[0] == "全日運転"[0] != "土曜・休日"[0];
      }
    }
    if len > 0 && |s| > len && (s[len] == 'と' || s[len] == '。') then
      Parsed(Some(name), s[len + 1..])
    else
      Parsed(None, s)
  }
}

=== FILE: untenbi_rules.dfy ===
/** Interpretation of parsed operating-day rules into a service
    description: a weekly pattern name, an optional validity window and
    the dates explicitly added or removed. */
module UntenbiRules {
  import opened Results
  import opened MonthDays
  import opened UntenbiGrammar

  /** Pattern names the interpreter itself chooses. */
  const EveryDay: string := "毎日"
  const AllSuspended: string := "全休"

  /** The interpreted result. Each field is `None` while its key is absent
      from the result dictionary. Key presence matters to the
      reconciliation step, and a missing key reads as its default when
      calendars are generated. */
  datatype Untenbi = Untenbi(
    pattern: Option<string>,
    start: Option<MonthDay>,
    end: Option<MonthDay>,
    added: Option<set<MonthDay>>,
    removed: Option<set<MonthDay>>)

  const NoFields: Untenbi := Untenbi(None, None, None, None, None)

  /** `pattern_translate`, defined on the two leading literals. */
  function TranslatePattern(raw: string): (p: string)
    requires raw in {"全日運転", "土曜・休日"}
    ensures raw == "全日運転" ==> p == EveryDay
    ensures raw == "土曜・休日" ==> p == raw
  {
    if raw == "全日運転" then EveryDay else raw
  }

  function SetOrEmpty(s: Option<set<MonthDay>>): set<MonthDay> {
    if s.Some? then s.value else {}
  }

  function OrDefault(p: Option<string>, default: string): Option<string> {
    if p.None? then Some(default) else p
  }

  predicate IsStartKind(r: Rule) {
    r.Boundary? && (r.kind == StartDate || r.kind == StartDatePlusOne)
  }

  predicate IsEndKind(r: Rule) {
    r.Boundary? && (r.kind == EndDate || r.kind == EndDateMinusOne)
  }

  /** The day a boundary rule really sets: the day after for "until ...
      suspended", the day before for "from ... suspended". */
  function BoundaryDay(kind: BoundaryKind, day: MonthDay): Result<MonthDay> {
    match kind
    case StartDatePlusOne => DayPlusOne(day)
    case EndDateMinusOne => DayMinusOne(day)
    case _ => Ok(day)
  }

  /** One step of the interpretation loop in `parse_untenbi`. */
  function Apply(acc: Untenbi, rule: Rule): Result<Untenbi> {
    match rule
    case Boundary(kind, day) =>
      var d :- BoundaryDay(kind, day);
      if IsStartKind(rule) then
        Ok(acc.(start := Some(d),
                end := if acc.end.None? then Some(MD(12, 31)) else acc.end,
                pattern := OrDefault(acc.pattern, EveryDay)))
      else
        Ok(acc.(end := Some(d),
                start := if acc.start.None? then Some(MD(1, 1)) else acc.start,
                pattern := OrDefault(acc.pattern, EveryDay)))
    case Listed(running, days) =>
      var pattern := OrDefault(acc.pattern, if running then AllSuspended else EveryDay);
      var listed := set d | d in days;
      if running then
        Ok(acc.(pattern := pattern, added := Some(SetOrEmpty(acc.added) + listed)))
      else
        Ok(acc.(pattern := pattern, removed := Some(SetOrEmpty(acc.removed) + listed)))
  }

  /** The whole loop, left to right; the first failing step stops it. */
  function ApplyAll(acc: Untenbi, rules: seq<Rule>): Result<Untenbi>
    decreases |rules|
  {
    if |rules| == 0 then Ok(acc)
    else
      var next :- Apply(acc, rules[0]);
      ApplyAll(next, rules[1..])
  }

  /** "Nullifying exceptions": when both an added and a removed set are
      present, a 毎日 result drops the added set and removes its dates
      from the removed set. A 全休 result drops the removed set and
      removes its dates from the added set. Any other pattern keeps both. */
  function Reconcile(u: Untenbi): (r: Untenbi)
    ensures r.pattern == u.pattern && r.start == u.start && r.end == u.end
    ensures u.added.Some? && u.removed.Some? && u.pattern == Some(EveryDay) ==>
              && r.added.None? && r.removed.Some?
              && forall x :: x in r.removed.value <==> x in u.removed.value && x !in u.added.value
    ensures u.added.Some? && u.removed.Some? && u.pattern == Some(AllSuspended) ==>
              && r.removed.None? && r.added.Some?
              && forall x :: x in r.added.value <==> x in u.added.value && x !in u.removed.value
    ensures u.added.None? || u.removed.None? || (u.pattern != Some(EveryDay) && u.pattern != Some(AllSuspended)) ==>
              r == u
  {
    if u.added.Some? && u.removed.Some? then
      if u.pattern == Some(EveryDay) then
        u.(removed := Some(u.removed.value - u.added.value), added := None)
      else if u.pattern == Some(AllSuspended) then
        u.(added := Some(u.added.value - u.removed.value), removed := None)
      else u
    else u
  }

  /** Reconciling twice changes nothing more. */
  lemma ReconcileIdempotent(u: Untenbi)
    ensures Reconcile(Reconcile(u)) == Reconcile(u)
  {
  }

  /** Interpretation after parsing: the leading literal, if any, fixes the
      pattern before the rules are applied. */
  function Interpret(lead: Option<string>, rules: seq<Rule>): Result<Untenbi>
    requires lead.Some? ==> lead.value in {"全日運転", "土曜・休日"}
  {
    var init := NoFields.(pattern := if lead.Some? then Some(TranslatePattern(lead.value)) else None);
    var u :- ApplyAll(init, rules);
    Ok(Reconcile(u))
  }

  /** `parse_untenbi.parse(text)`. Parsing need not reach the end of the
      text: what follows the last rule that parses is ignored. */
  function ParseUntenbi(text: string): Result<Untenbi> {
    var lead := LeadingPattern(text);
    match AllRules(lead.rest)
    case NoParse => Err(GrammarError)
    case Raised(e) => Err(e)
    case Parsed(rules, _) => Interpret(lead.value, rules)
  }

  // What the loop computes, field by field, stated without the loop.

  /** The pattern a first rule chooses when none is set yet. */
  function DefaultPattern(r: Rule): string {
    if r.Listed? && r.running then AllSuspended else EveryDay
  }

  ghost predicate AllBoundariesStep(rules: seq<Rule>) {
    forall i :: 0 <= i < |rules| && rules[i].Boundary? ==> BoundaryDay(rules[i].kind, rules[i].day).Ok?
  }

  ghost predicate IsLastStart(rules: seq<Rule>, i: int) {
    0 <= i < |rules| && IsStartKind(rules[i]) && forall j :: i < j < |rules| ==> !IsStartKind(rules[j])
  }

  ghost predicate IsLastEnd(rules: seq<Rule>, i: int) {
    0 <= i < |rules| && IsEndKind(rules[i]) && forall j :: i < j < |rules| ==> !IsEndKind(rules[j])
  }

  ghost predicate HasStart(rules: seq<Rule>) {
    exists i :: 0 <= i < |rules| && IsStartKind(rules[i])
  }

  ghost predicate HasEnd(rules: seq<Rule>) {
    exists i :: 0 <= i < |rules| && IsEndKind(rules[i])
  }

  ghost predicate HasListed(rules: seq<Rule>, running: bool) {
    exists i :: 0 <= i < |rules| && rules[i].Listed? && rules[i].running == running
  }

  /** Every date listed by a rule of the given kind. */
  ghost function ListedDays(rules: seq<Rule>, running: bool): set<MonthDay> {
    set i, x | 0 <= i < |rules| && rules[i].Listed? && rules[i].running == running && x in rules[i].days :: x
  }

  /** How the summary predicates of a rule list split into its first rule
      and the rest. */
  lemma SplitFirst(rules: seq<Rule>)
    requires |rules| > 0
    ensures AllBoundariesStep(rules) <==>
              (rules[0].Boundary? ==> BoundaryDay(rules[0].kind, rules[0].day).Ok?) && AllBoundariesStep(rules[1..])
    ensures HasStart(rules) <==> IsStartKind(rules[0]) || HasStart(rules[1..])
    ensures HasEnd(rules) <==> IsEndKind(rules[0]) || HasEnd(rules[1..])
    ensures IsLastStart(rules, 0) <==> IsStartKind(rules[0]) && !HasStart(rules[1..])
    ensures IsLastEnd(rules, 0) <==> IsEndKind(rules[0]) && !HasEnd(rules[1..])
    ensures forall i :: 0 < i < |rules| ==> (IsLastStart(rules, i) <==> IsLastStart(rules[1..], i - 1))
    ensures forall i :: 0 < i < |rules| ==> (IsLastEnd(rules, i) <==> IsLastEnd(rules[1..], i - 1))
  {
    var tail := rules[1..];
    assert forall i :: 0 < i < |rules| ==> rules[i] == tail[i - 1];
    if HasStart(tail) {
      var k :| 0 <= k < |tail| && IsStartKind(tail[k]);
      assert IsStartKind(rules[k + 1]);
    }
    if HasEnd(tail) {
      var k :| 0 <= k < |tail| && IsEndKind(tail[k]);
      assert IsEndKind(rules[k + 1]);
    }
  }

  /** The loop succeeds exactly when every boundary day can be stepped. */
  lemma {:induction false} ApplyAllSucceeds(acc: Untenbi, rules: seq<Rule>)
    decreases |rules|
    ensures ApplyAll(acc, rules).Ok? <==> AllBoundariesStep(rules)
  {
    if |rules| > 0 {
      SplitFirst(rules);
      if Apply(acc, rules[0]).Ok? {
        ApplyAllSucceeds(Apply(acc, rules[0]).value, rules[1..]);
      }
    }
  }

  /** The pattern is the one already set, or else the one the first rule
      implies. */
  lemma {:induction false} ApplyAllPattern(acc: Untenbi, rules: seq<Rule>)
    requires ApplyAll(acc, rules).Ok?
    decreases |rules|
    ensures ApplyAll(acc, rules).value.pattern ==
              if acc.pattern.Some? || |rules| == 0 then acc.pattern else Some(DefaultPattern(rules[0]))
  {
    if |rules| > 0 {
      ApplyAllPattern(Apply(acc, rules[0]).value, rules[1..]);
    }
  }

  /** The start is the day of the last start-kind rule. With none, an
      end-kind rule defaults an unset start to 1 January. */
  lemma {:induction false} ApplyAllStart(acc: Untenbi, rules: seq<Rule>)
    requires ApplyAll(acc, rules).Ok?
    decreases |rules|
    ensures forall i :: IsLastStart(rules, i) ==>
              ApplyAll(acc, rules).value.start.Some? &&
              BoundaryDay(rules[i].kind, rules[i].day) == Ok(ApplyAll(acc, rules).value.start.value)
    ensures !HasStart(rules) ==>
              ApplyAll(acc, rules).value.start ==
              if acc.start.None? && HasEnd(rules) then Some(MD(1, 1)) else acc.start
  {
    if |rules| > 0 {
      var next := Apply(acc, rules[0]).value;
      SplitFirst(rules);
      ApplyAllStart(next, rules[1..]);
      assert ApplyAll(acc, rules) == ApplyAll(next, rules[1..]);
    }
  }

  /** The end is the day of the last end-kind rule. With none, a
      start-kind rule defaults an unset end to 31 December. */
  lemma {:induction false} ApplyAllEnd(acc: Untenbi, rules: seq<Rule>)
    requires ApplyAll(acc, rules).Ok?
    decreases |rules|
    ensures forall i :: IsLastEnd(rules, i) ==>
              ApplyAll(acc, rules).value.end.Some? &&
              BoundaryDay(rules[i].kind, rules[i].day) == Ok(ApplyAll(acc, rules).value.end.value)
    ensures !HasEnd(rules) ==>
              ApplyAll(acc, rules).value.end ==
              if acc.end.None? && HasStart(rules) then Some(MD(12, 31)) else acc.end
  {
    if |rules| > 0 {
      var next := Apply(acc, rules[0]).value;
      SplitFirst(rules);
      ApplyAllEnd(next, rules[1..]);
      assert ApplyAll(acc, rules) == ApplyAll(next, rules[1..]);
    }
  }

  /** The added (運転) or removed (運休) set. */
  function ListField(u: Untenbi, running: bool): Option<set<MonthDay>> {
    if running then u.added else u.removed
  }

  /** The added and removed sets gain every date their rules list, and are
      present as soon as one such rule is. */
  lemma {:induction false} ApplyAllListed(acc: Untenbi, rules: seq<Rule>, running: bool)
    requires ApplyAll(acc, rules).Ok?
    decreases |rules|
    ensures ListField(ApplyAll(acc, rules).value, running) ==
              if HasListed(rules, running)
              then Some(SetOrEmpty(ListField(acc, running)) + ListedDays(rules, running))
              else ListField(acc, running)
  {
    if |rules| > 0 {
      var next := Apply(acc, rules[0]).value;
      ApplyAllListed(next, rules[1..], running);
      ListedDaysSplit(rules, running);
      assert ApplyAll(acc, rules) == ApplyAll(next, rules[1..]);
      if !HasListed(rules[1..], running) {
        NoListedNoDays(rules[1..], running);
      }
      if rules[0].Listed? && rules[0].running == running {
        var listed := set x | x in rules[0].days;
        assert SetOrEmpty(ListField(next, running)) == SetOrEmpty(ListField(acc, running)) + listed;
        assert ListedDays(rules, running) == listed + ListedDays(rules[1..], running);
        var base := SetOrEmpty(ListField(acc, running));
        assert (base + listed) + ListedDays(rules[1..], running) == base + ListedDays(rules, running);
        assert HasListed(rules, running);
        if HasListed(rules[1..], running) {
          assert ListField(ApplyAll(next, rules[1..]).value, running) ==
                 Some((base + listed) + ListedDays(rules[1..], running));
        } else {
          assert ListField(ApplyAll(next, rules[1..]).value, running) == Some(base + listed);
          assert ListedDays(rules[1..], running) == {};
          assert ListedDays(rules, running) == listed;
        }
      } else {
        assert ListField(next, running) == ListField(acc, running);
        assert ListedDays(rules, running) == ListedDays(rules[1..], running);
      }
    }
  }

  /** The listed dates of a rule list are those of its first rule and
      those of the rest. */
  lemma ListedDaysSplit(rules: seq<Rule>, running: bool)
    requires |rules| > 0
    ensures HasListed(rules, running) <==>
              (rules[0].Listed? && rules[0].running == running) || HasListed(rules[1..], running)
    ensures ListedDays(rules, running) ==
              (if rules[0].Listed? && rules[0].running == running then set x | x in rules[0].days else {})
              + ListedDays(rules[1..], running)
  {
    var tail := rules[1..];
    assert forall i :: 0 < i < |rules| ==> rules[i] == tail[i - 1];
    if HasListed(tail, running) {
      var k :| 0 <= k < |tail| && tail[k].Listed? && tail[k].running == running;
      assert rules[k + 1] == tail[k];
    }
    forall x | x in ListedDays(tail, running)
      ensures x in ListedDays(rules, running)
    {
      var k :| 0 <= k < |tail| && tail[k].Listed? && tail[k].running == running && x in tail[k].days;
      assert rules[k + 1] == tail[k];
    }
  }

  lemma NoListedNoDays(rules: seq<Rule>, running: bool)
    requires !HasListed(rules, running)
    ensures ListedDays(rules, running) == {}
  {
  }

  /** Every text that interprets successfully has a pattern: there is at
      least one rule, and every rule sets an unset pattern. */
  lemma ParsedHasPattern(text: string)
    requires ParseUntenbi(text).Ok?
    ensures ParseUntenbi(text).value.pattern.Some?
  {
    var lead := LeadingPattern(text);
    var rules := AllRules(lead.rest).value;
    var init := NoFields.(pattern := if lead.value.Some? then Some(TranslatePattern(lead.value.value)) else None);
    ApplyAllPattern(init, rules);
  }
}

=== FILE: untenbi_text.dfy ===
/** A printer for the operating-day grammar, and the round trip that ties
    it to the parser: reading back what is printed yields the printed
    structure, with month carry and range expansion applied, and with
    the first error met. Every printer takes the text that follows, so
    printed pieces nest without re-association. */
module UntenbiText {
  import opened Results
  import opened Digits
  import opened MonthDays
  import opened UntenbiGrammar
  import opened UntenbiRules

  /** A number as the shortest ASCII numeral. */
  function NumThen(n: nat, rest: string): string
    requires n < 100
  {
    if n < 10 then [Digit(n)] + rest else [Digit(n / 10), Digit(n % 10)] + rest
  }

  /** A date as written: `marked` says whether 日 follows the day, which
      the grammar leaves optional. */
  datatype EndpointText = EndpointText(month: Option<nat>, day: nat, marked: bool)

  /** A date list element as written. */
  datatype DateText = SingleText(at: EndpointText) | SpanText(from: EndpointText, to: EndpointText)

  /** What the parser reads a written date as: the 日 leaves no trace. */
  function EndpointOf(e: EndpointText): Endpoint {
    Endpoint(e.month, e.day)
  }

  function DateOf(d: DateText): DateSpec {
    match d
    case SingleText(e) => Single(EndpointOf(e))
    case SpanText(a, b) => Span(EndpointOf(a), EndpointOf(b))
  }

  function DatesOf(ds: seq<DateText>): seq<DateSpec>
    decreases |ds|
  {
    if |ds| == 0 then [] else [DateOf(ds[0])] + DatesOf(ds[1..])
  }

  /** The written date a date list element ends with. */
  function LastEndpoint(d: DateText): EndpointText {
    match d
    case SingleText(e) => e
    case SpanText(_, b) => b
  }

  /** Text that may follow a day written without 日: it must not extend
      the number, and must not start a 日 or 月 that the parser would read
      as part of the date. */
  predicate DayMayEnd(rest: string) {
    |rest| == 0 || (!IsDigit(rest[0]) && rest[0] != '日' && rest[0] != '月')
  }

  /** The written date reads back when followed by `rest`. */
  predicate EndsClean(e: EndpointText, rest: string) {
    e.marked || DayMayEnd(rest)
  }

  predicate PrintableEndpoint(e: EndpointText) {
    e.day < 100 && (e.month.Some? ==> e.month.value < 100)
  }

  predicate PrintableDate(d: DateText) {
    match d
    case SingleText(e) => PrintableEndpoint(e)
    case SpanText(a, b) => PrintableEndpoint(a) && PrintableEndpoint(b)
  }

  /** `[M月]D[日]`. */
  function EndpointThen(e: EndpointText, rest: string): string
    requires PrintableEndpoint(e)
  {
    var dayText := NumThen(e.day, if e.marked then ['日'] + rest else rest);
    if e.month.Some? then NumThen(e.month.value, ['月'] + dayText) else dayText
  }

  /** `[M月]D[日]` or `[M月]D[日]～[M月]D[日]`. */
  function DateThen(d: DateText, rest: string): string
    requires PrintableDate(d)
  {
    match d
    case SingleText(e) => EndpointThen(e, rest)
    case SpanText(a, b) => EndpointThen(a, ['～'] + EndpointThen(b, rest))
  }

  /** Dates joined by ・. */
  function DatesThen(ds: seq<DateText>, rest: string): string
    requires |ds| > 0 && forall i :: 0 <= i < |ds| ==> PrintableDate(ds[i])
    decreases |ds|
  {
    if |ds| == 1 then DateThen(ds[0], rest)
    else DateThen(ds[0], ['・'] + DatesThen(ds[1..], rest))
  }

  /** The boundary keywords in the order the parser tries them, and the
      kind each one stands for. */
  const Keywords: seq<string> :=
    ["から運転", "からは運転", "からは運休", "まで運転", "までは運転", "まで運休", "までは運休"]
  const KeywordKinds: seq<BoundaryKind> :=
    [StartDate, StartDate, EndDateMinusOne, EndDate, EndDate, StartDatePlusOne, StartDatePlusOne]

  /** A rule as written: a boundary rule names its month and one of the
      seven keywords; a listed rule has dates, an optional は and 運転 or
      運休. */
  datatype RuleText =
    | BoundaryText(month: nat, day: nat, marked: bool, keyword: nat)
    | ListedText(dates: seq<DateText>, particle: bool, running: bool)

  predicate PrintableRule(r: RuleText) {
    match r
    case BoundaryText(m, d, _, k) => m < 100 && d < 100 && k < 7
    case ListedText(ds, _, _) => |ds| > 0 && forall i :: 0 <= i < |ds| ==> PrintableDate(ds[i])
  }

  function RuleThen(r: RuleText, rest: string): string
    requires PrintableRule(r)
  {
    match r
    case BoundaryText(m, d, marked, k) => EndpointThen(EndpointText(Some(m), d, marked), Keywords[k] + rest)
    case ListedText(ds, particle, running) => DatesThen(ds, RuleTypeThen(particle, running, rest))
  }

  /** `[は]運転` or `[は]運休`. */
  function RuleTypeThen(particle: bool, running: bool, rest: string): string {
    var kind := (if running then "運転" else "運休") + rest;
    if particle then ['は'] + kind else kind
  }

  /** What the parser makes of a written rule. */
  function Elaborate(r: RuleText): Result<Rule>
    requires PrintableRule(r)
  {
    match r
    case BoundaryText(m, d, _, k) => Ok(Boundary(KeywordKinds[k], MD(m, d)))
    case ListedText(ds, _, running) =>
      var days :- Flatten(DatesOf(ds), None);
      Ok(Listed(running, days))
  }

  function ElaborateAll(rs: seq<RuleText>): Result<seq<Rule>>
    requires forall i :: 0 <= i < |rs| ==> PrintableRule(rs[i])
    decreases |rs|
  {
    if |rs| == 0 then Ok([])
    else
      var x :- Elaborate(rs[0]);
      var xs :- ElaborateAll(rs[1..]);
      Ok([x] + xs)
  }

  /** Rules joined by the given separators (each 、 or 。). */
  function RulesThen(rs: seq<RuleText>, seps: seq<char>, rest: string): string
    requires |rs| > 0 && |seps| == |rs| - 1
    requires forall i :: 0 <= i < |rs| ==> PrintableRule(rs[i])
    decreases |rs|
  {
    if |rs| == 1 then RuleThen(rs[0], rest)
    else RuleThen(rs[0], [seps[0]] + RulesThen(rs[1..], seps[1..], rest))
  }

  /** A whole text: an optional leading pattern with its connector, the
      rules, and an optional trailing separator. */
  datatype Program = Program(
    lead: Option<string>, connector: char,
    rules: seq<RuleText>, seps: seq<char>, trailing: Option<char>)

  predicate PrintableProgram(p: Program) {
    && (p.lead.Some? ==> p.lead.value in {"全日運転", "土曜・休日"} && (p.connector == 'と' || p.connector == '。'))
    && |p.rules| > 0 && |p.seps| == |p.rules| - 1
    && (forall i :: 0 <= i < |p.rules| ==> PrintableRule(p.rules[i]))
    && (forall i :: 0 <= i < |p.seps| ==> IsRuleSeparator(p.seps[i]))
    && (p.trailing.Some? ==> IsRuleSeparator(p.trailing.value))
  }

  function ProgramThen(p: Program, rest: string): string
    requires PrintableProgram(p)
  {
    var tail := if p.trailing.Some? then [p.trailing.value] + rest else rest;
    var body := RulesThen(p.rules, p.seps, tail);
    if p.lead.Some? then p.lead.value + [p.connector] + body else body
  }

  /** Text after which the parser finds no further rule. */
  predicate NoMoreRules(rest: string) {
    |rest| == 0 || (!IsDigit(rest[0]) && !IsRuleSeparator(rest[0]))
  }

  // Round trips, from numerals up to whole texts.

  lemma NumberRoundTrip(n: nat, rest: string)
    requires n < 100 && (|rest| == 0 || !IsDigit(rest[0]))
    ensures Number(NumThen(n, rest)) == Parsed(n, rest)
  {
    var s := NumThen(n, rest);
    if n < 10 {
      assert s[1..] == rest;
    } else {
      assert s[2..] == rest;
      assert s[0] == Digit(n / 10) && s[1] == Digit(n % 10);
    }
  }

  lemma NumThenStartsWithDigit(n: nat, rest: string)
    requires n < 100
    ensures |NumThen(n, rest)| > 0 && IsDigit(NumThen(n, rest)[0])
  {
  }

  /** A date reads back, 日 or not, as long as a day written without 日
      is not followed by text the parser would take for part of it. */
  lemma EndpointRoundTrip(e: EndpointText, rest: string)
    requires PrintableEndpoint(e) && EndsClean(e, rest)
    ensures EndpointDef(EndpointThen(e, rest)) == Parsed(EndpointOf(e), rest)
  {
    var after := if e.marked then ['日'] + rest else rest;
    var dayText := NumThen(e.day, after);
    NumberRoundTrip(e.day, after);
    if e.marked {
      assert after[1..] == rest;
    }
    assert DayDef(dayText) == Parsed(e.day, rest);
    if e.month.Some? {
      NumberRoundTrip(e.month.value, ['月'] + dayText);
      assert (['月'] + dayText)[1..] == dayText;
      assert MonthDef(EndpointThen(e, rest)) == Parsed(e.month, dayText);
    } else {
      assert MonthDef(dayText) == Parsed(None, dayText);
    }
  }

  lemma DateRoundTrip(d: DateText, rest: string)
    requires PrintableDate(d) && EndsClean(LastEndpoint(d), rest)
    requires |rest| == 0 || rest[0] != '～'
    ensures DateDef(DateThen(d, rest)) == Parsed(DateOf(d), rest)
  {
    var s := DateThen(d, rest);
    if d.SingleText? {
      EndpointRoundTrip(d.at, rest);
      DateDefSingle(s, EndpointOf(d.at), rest);
    } else {
      var tail := EndpointThen(d.to, rest);
      var after := ['～'] + tail;
      assert DayMayEnd(after) by { assert after[0] == '～'; }
      EndpointRoundTrip(d.from, after);
      EndpointRoundTrip(d.to, rest);
      DateDefSpan(s, EndpointOf(d.from), tail, EndpointOf(d.to), rest);
    }
  }

  lemma DateDefSingle(s: string, a: Endpoint, rest: string)
    requires EndpointDef(s) == Parsed(a, rest) && (|rest| == 0 || rest[0] != '～')
    ensures DateDef(s) == Parsed(Single(a), rest)
  {
    assert RangeDef(s) == NoParse;
  }

  lemma DateDefSpan(s: string, a: Endpoint, tail: string, b: Endpoint, rest: string)
    requires EndpointDef(s) == Parsed(a, ['～'] + tail) && EndpointDef(tail) == Parsed(b, rest)
    ensures DateDef(s) == Parsed(Span(a, b), rest)
  {
    assert (['～'] + tail)[1..] == tail;
  }

  /** The first endpoint of a printed date list is read back by the
      single-date parser, leaving text that begins with ～, ・ or the text
      after the list. */
  lemma FirstEndpointOfDates(ds: seq<DateText>, rest: string)
    requires |ds| > 0 && forall i :: 0 <= i < |ds| ==> PrintableDate(ds[i])
    requires EndsClean(LastEndpoint(ds[|ds| - 1]), rest)
    ensures SingleDayDef(DatesThen(ds, rest)).Parsed?
    ensures var after := SingleDayDef(DatesThen(ds, rest)).rest;
            after == rest || (|after| > 0 && (after[0] == '～' || after[0] == '・'))
  {
    var next := if |ds| == 1 then rest else ['・'] + DatesThen(ds[1..], rest);
    assert DatesThen(ds, rest) == DateThen(ds[0], next);
    assert EndsClean(LastEndpoint(ds[0]), next);
    match ds[0]
    case SingleText(e) =>
      EndpointRoundTrip(e, next);
    case SpanText(a, b) =>
      EndpointRoundTrip(a, ['～'] + EndpointThen(b, next));
  }

  /** A printed date list reads back as the dates it was printed from;
      only its very last day, if written without 日, constrains what may
      follow. */
  lemma {:induction false} DatesRoundTrip(ds: seq<DateText>, rest: string)
    requires |ds| > 0 && forall i :: 0 <= i < |ds| ==> PrintableDate(ds[i])
    requires EndsClean(LastEndpoint(ds[|ds| - 1]), rest)
    requires |rest| == 0 || (rest[0] != '～' && rest[0] != '・')
    decreases |ds|
    ensures DateList(DatesThen(ds, rest)) == Parsed(DatesOf(ds), rest)
  {
    if |ds| == 1 {
      LastDateRoundTrip(ds[0], rest);
      assert DatesOf(ds[1..]) == [] by { assert ds[1..] == []; }
      assert DatesOf(ds) == [DateOf(ds[0])] + [];
      assert [DateOf(ds[0])] + [] == [DateOf(ds[0])];
    } else {
      var more := DatesThen(ds[1..], rest);
      assert ds[1..][|ds[1..]| - 1] == ds[|ds| - 1];
      DatesRoundTrip(ds[1..], rest);
      NextDateRoundTrip(ds[0], more, DatesOf(ds[1..]), rest);
      assert DatesOf(ds) == [DateOf(ds[0])] + DatesOf(ds[1..]);
    }
  }

  /** The last date of a printed list. */
  lemma LastDateRoundTrip(d: DateText, rest: string)
    requires PrintableDate(d) && EndsClean(LastEndpoint(d), rest)
    requires |rest| == 0 || (rest[0] != '～' && rest[0] != '・')
    ensures DateList(DateThen(d, rest)) == Parsed([DateOf(d)], rest)
  {
    DateRoundTrip(d, rest);
    DateListLast(DateThen(d, rest), DateOf(d), rest);
  }

  /** A date printed before ・ and a list that reads back. */
  lemma NextDateRoundTrip(d: DateText, more: string, ds: seq<DateSpec>, rest: string)
    requires PrintableDate(d) && DateList(more) == Parsed(ds, rest)
    ensures DateList(DateThen(d, ['・'] + more)) == Parsed([DateOf(d)] + ds, rest)
  {
    var after := ['・'] + more;
    assert DayMayEnd(after) && after[0] != '～' by { assert after[0] == '・'; }
    DateRoundTrip(d, after);
    assert after[1..] == more;
    DateListMore(DateThen(d, after), DateOf(d), after, ds, rest);
  }

  // Single steps of the list parsers, over any text.

  lemma DateListLast(s: string, d: DateSpec, rest: string)
    requires DateDef(s) == Parsed(d, rest) && (|rest| == 0 || rest[0] != '・')
    ensures DateList(s) == Parsed([d], rest)
  {
  }

  lemma DateListMore(s: string, d: DateSpec, after: string, ds: seq<DateSpec>, rest: string)
    requires DateDef(s) == Parsed(d, after) && |after| > 0 && after[0] == '・'
    requires DateList(after[1..]) == Parsed(ds, rest)
    ensures DateList(s) == Parsed([d] + ds, rest)
  {
  }

  lemma KeywordRoundTrip(k: nat, rest: string)
    requires k < 7
    ensures BoundaryKeyword(Keywords[k] + rest) == Parsed(KeywordKinds[k], rest)
  {
    var s := Keywords[k] + rest;
    assert s[|Keywords[k]|..] == rest;
    assert s[..|Keywords[k]|] == Keywords[k];
    if k == 1 {
      assert !StartsWith(s, "から運転") by { assert s[2] == 'は'; }
    } else if k == 2 {
      assert !StartsWith(s, "から運転") by { assert s[2] == 'は'; }
      assert !StartsWith(s, "からは運転") by { assert s[4] == '休'; }
    } else if k == 3 {
      assert s[0] == 'ま';
    } else if k == 4 {
      assert s[0] == 'ま';
      assert !StartsWith(s, "まで運転") by { assert s[2] == 'は'; }
    } else if k == 5 {
      assert s[0] == 'ま';
      assert !StartsWith(s, "まで運転") by { assert s[3] == '休'; }
      assert !StartsWith(s, "までは運転") by { assert s[2] == '運'; }
    } else if k == 6 {
      assert s[0] == 'ま';
      assert !StartsWith(s, "まで運転") by { assert s[2] == 'は'; }
      assert !StartsWith(s, "までは運転") by { assert s[4] == '休'; }
      assert !StartsWith(s, "まで運休") by { assert s[2] == 'は'; }
    }
  }

  lemma NoKeywordHere(s: string)
    requires |s| == 0 || (s[0] != 'か' && s[0] != 'ま')
    ensures BoundaryKeyword(s) == NoParse
  {
  }

  /** Text that does not start with a digit holds no rule. */
  lemma NoRuleHere(s: string)
    requires |s| == 0 || !IsDigit(s[0])
    ensures RuleDef(s) == NoParse
    ensures AllRules(s) == NoParse
  {
    assert MonthDef(s) == Parsed(None, s);
    assert EndpointDef(s) == NoParse;
    assert DateDef(s) == NoParse;
    assert DateList(s) == NoParse;
  }

  /** A parse outcome made from an elaboration outcome. */
  function Outcome<T>(r: Result<T>, rest: string): Parsed<T> {
    match r
    case Ok(x) => Parsed(x, rest)
    case Err(e) => Raised(e)
  }

  lemma RuleDefBoundary(s: string, e: Endpoint, after: string, kind: BoundaryKind, rest: string)
    requires SingleDayDef(s) == Parsed(e, after) && e.month.Some?
    requires BoundaryKeyword(after) == Parsed(kind, rest)
    ensures RuleDef(s) == Parsed(Boundary(kind, MD(e.month.value, e.day)), rest)
  {
  }

  lemma RuleDefListed(s: string, dates: seq<DateSpec>, after: string, running: bool, rest: string)
    requires SingleDayDef(s).Parsed? && BoundaryKeyword(SingleDayDef(s).rest) == NoParse
    requires DateList(s) == Parsed(dates, after) && RuleTypeDef(after) == Parsed(running, rest)
    ensures RuleDef(s) == Outcome(var days :- Flatten(dates, None); Ok(Listed(running, days)), rest)
  {
  }

  lemma AllRulesRaised(s: string, e: Error)
    requires RuleDef(s) == Raised(e)
    ensures AllRules(s) == Raised(e)
  {
  }

  lemma AllRulesLast(s: string, x: Rule, rest: string)
    requires RuleDef(s) == Parsed(x, rest) && NoMoreRules(rest)
    ensures AllRules(s) == Parsed([x], rest)
  {
  }

  lemma AllRulesTrailing(s: string, x: Rule, sep: char, rest: string)
    requires RuleDef(s) == Parsed(x, [sep] + rest) && IsRuleSeparator(sep)
    requires AllRules(rest) == NoParse
    ensures AllRules(s) == Parsed([x], rest)
  {
    assert ([sep] + rest)[1..] == rest;
  }

  lemma AllRulesMore(s: string, x: Rule, sep: char, more: string, xs: Result<seq<Rule>>, rest: string)
    requires RuleDef(s) == Parsed(x, [sep] + more) && IsRuleSeparator(sep)
    requires AllRules(more) == Outcome(xs, rest)
    ensures AllRules(s) == Outcome(var ys :- xs; Ok([x] + ys), rest)
  {
    assert ([sep] + more)[1..] == more;
  }

  lemma RuleTypeRoundTrip(particle: bool, running: bool, rest: string)
    ensures RuleTypeDef(RuleTypeThen(particle, running, rest)) == Parsed(running, rest)
  {
    var kind := (if running then "運転" else "運休") + rest;
    assert kind[2..] == rest;
    if particle {
      assert (['は'] + kind)[1..] == kind;
    }
  }

  lemma RuleRoundTrip(r: RuleText, rest: string)
    requires PrintableRule(r)
    ensures RuleDef(RuleThen(r, rest)) == Outcome(Elaborate(r), rest)
  {
    match r
    case BoundaryText(m, d, marked, k) =>
      var after := Keywords[k] + rest;
      var e := EndpointText(Some(m), d, marked);
      assert after[0] == Keywords[k][0];
      EndpointRoundTrip(e, after);
      KeywordRoundTrip(k, rest);
      RuleDefBoundary(RuleThen(r, rest), EndpointOf(e), after, KeywordKinds[k], rest);
    case ListedText(ds, particle, running) =>
      var after := RuleTypeThen(particle, running, rest);
      var s := DatesThen(ds, after);
      assert after[0] == 'は' || after[0] == '運';
      FirstEndpointOfDates(ds, after);
      NoKeywordHere(SingleDayDef(s).rest);
      DatesRoundTrip(ds, after);
      RuleTypeRoundTrip(particle, running, rest);
      RuleDefListed(s, DatesOf(ds), after, running, rest);
  }

  lemma ElaborateOne(r: RuleText)
    requires PrintableRule(r)
    ensures ElaborateAll([r]) == (var x :- Elaborate(r); Ok([x]))
  {
    assert [r][1..] == [];
    assert ElaborateAll([r][1..]) == Ok([]);
    if Elaborate(r).Ok? {
      assert [Elaborate(r).value] + [] == [Elaborate(r).value];
    }
  }

  lemma {:induction false} RulesRoundTrip(rs: seq<RuleText>, seps: seq<char>, trailing: Option<char>, rest: string)
    requires |rs| > 0 && |seps| == |rs| - 1
    requires forall i :: 0 <= i < |rs| ==> PrintableRule(rs[i])
    requires forall i :: 0 <= i < |seps| ==> IsRuleSeparator(seps[i])
    requires trailing.Some? ==> IsRuleSeparator(trailing.value)
    requires NoMoreRules(rest)
    decreases |rs|
    ensures var tail := if trailing.Some? then [trailing.value] + rest else rest;
      AllRules(RulesThen(rs, seps, tail)) == Outcome(ElaborateAll(rs), rest)
  {
    var tail := if trailing.Some? then [trailing.value] + rest else rest;
    var s := RulesThen(rs, seps, tail);
    if |rs| == 1 {
      RuleRoundTrip(rs[0], tail);
      ElaborateOne(rs[0]);
      assert [rs[0]] == rs;
      match Elaborate(rs[0])
      case Err(e) => AllRulesRaised(s, e);
      case Ok(x) =>
        if trailing.Some? {
          NoRuleHere(rest);
          AllRulesTrailing(s, x, trailing.value, rest);
        } else {
          AllRulesLast(s, x, rest);
        }
    } else {
      var more := RulesThen(rs[1..], seps[1..], tail);
      RuleRoundTrip(rs[0], [seps[0]] + more);
      RulesRoundTrip(rs[1..], seps[1..], trailing, rest);
      match Elaborate(rs[0])
      case Err(e) => AllRulesRaised(s, e);
      case Ok(x) => AllRulesMore(s, x, seps[0], more, ElaborateAll(rs[1..]), rest);
    }
  }

  /** The round trip for whole texts: a printed text parses and interprets
      exactly as its rules, elaborated in order, interpreted after the
      leading pattern. Nothing printed after it that starts no new rule
      matters. */
  lemma ProgramRoundTrip(p: Program, rest: string)
    requires PrintableProgram(p) && NoMoreRules(rest)
    ensures ParseUntenbi(ProgramThen(p, rest)) ==
      var rules :- ElaborateAll(p.rules); Interpret(p.lead, rules)
  {
    var tail := if p.trailing.Some? then [p.trailing.value] + rest else rest;
    var body := RulesThen(p.rules, p.seps, tail);
    RulesRoundTrip(p.rules, p.seps, p.trailing, rest);
    RulesStartWithDigit(p.rules, p.seps, tail);
    if p.lead.Some? {
      LeadingPatternRead(p.lead.value, p.connector, body);
    } else {
      NoLeadingPattern(body);
    }
  }

  lemma NoLeadingPattern(s: string)
    requires |s| > 0 && IsDigit(s[0])
    ensures LeadingPattern(s) == Parsed(None, s)
  {
    assert !StartsWith(s, "全日運転") by {
      assert s[0] != '全';
    }
    assert !StartsWith(s, "土曜・休日") by {
      assert s[0] != '土';
    }
  }

  lemma LeadingPatternRead(name: string, connector: char, body: string)
    requires name in {"全日運転", "土曜・休日"} && (connector == 'と' || connector == '。')
    ensures LeadingPattern(name + [connector] + body) == Parsed(Some(name), body)
  {
    var text := name + [connector] + body;
    var n := |name|;
    assert text[..n] == name;
    assert text[n] == connector;
    assert text[n + 1..] == body;
    if name == "土曜・休日" {
      assert text[0] == '土';
    }
  }

  lemma EndpointStartsWithDigit(e: EndpointText, rest: string)
    requires PrintableEndpoint(e)
    ensures |EndpointThen(e, rest)| > 0 && IsDigit(EndpointThen(e, rest)[0])
  {
    var after := if e.marked then ['日'] + rest else rest;
    var dayText := NumThen(e.day, after);
    NumThenStartsWithDigit(e.day, after);
    if e.month.Some? {
      NumThenStartsWithDigit(e.month.value, ['月'] + dayText);
    }
  }

  lemma DatesStartWithDigit(ds: seq<DateText>, rest: string)
    requires |ds| > 0 && forall i :: 0 <= i < |ds| ==> PrintableDate(ds[i])
    ensures |DatesThen(ds, rest)| > 0 && IsDigit(DatesThen(ds, rest)[0])
  {
    var next := if |ds| == 1 then rest else ['・'] + DatesThen(ds[1..], rest);
    assert DatesThen(ds, rest) == DateThen(ds[0], next);
    match ds[0]
    case SingleText(e) => EndpointStartsWithDigit(e, next);
    case SpanText(a, b) => EndpointStartsWithDigit(a, ['～'] + EndpointThen(b, next));
  }

  lemma RulesStartWithDigit(rs: seq<RuleText>, seps: seq<char>, rest: string)
    requires |rs| > 0 && |seps| == |rs| - 1
    requires forall i :: 0 <= i < |rs| ==> PrintableRule(rs[i])
    ensures |RulesThen(rs, seps, rest)| > 0 && IsDigit(RulesThen(rs, seps, rest)[0])
  {
    var next := if |rs| == 1 then rest else [seps[0]] + RulesThen(rs[1..], seps[1..], rest);
    assert RulesThen(rs, seps, rest) == RuleThen(rs[0], next);
    match rs[0]
    case BoundaryText(m, d, marked, k) => EndpointStartsWithDigit(EndpointText(Some(m), d, marked), Keywords[k] + next);
    case ListedText(ds, particle, running) =>
      DatesStartWithDigit(ds, RuleTypeThen(particle, running, next));
  }

  // What particular texts mean.

  /** "M月D日まで運転": every day from 1 January up to the given day. */
  lemma UntilDayRuns(m: nat, d: nat)
    requires m < 100 && d < 100
    ensures ParseUntenbi(NumThen(m, ['月'] + NumThen(d, "日まで運転"))) ==
            Ok(Untenbi(Some(EveryDay), Some(MD(1, 1)), Some(MD(m, d)), None, None))
  {
    var p := Program(None, '。', [BoundaryText(m, d, true, 3)], [], None);
    assert ProgramThen(p, "") == NumThen(m, ['月'] + NumThen(d, "日まで運転")) by {
      assert ProgramThen(p, "") == EndpointThen(EndpointText(Some(m), d, true), Keywords[3] + "");
      assert ['日'] + (Keywords[3] + "") == "日まで運転";
    }
    var rule := Boundary(EndDate, MD(m, d));
    assert ElaborateAll(p.rules) == Ok([rule]) by {
      ElaborateOne(p.rules[0]);
    }
    assert Interpret(None, [rule]) == Ok(Untenbi(Some(EveryDay), Some(MD(1, 1)), Some(MD(m, d)), None, None)) by {
      ApplyOne(NoFields, rule);
    }
    ProgramRoundTrip(p, "");
  }

  lemma ApplyOne(acc: Untenbi, rule: Rule)
    ensures ApplyAll(acc, [rule]) == Apply(acc, rule)
  {
    assert [rule][1..] == [];
  }

  /** A boundary rule without a month is rejected, although the grammar
      reads it. */
  lemma FromDayNeedsMonth(d: nat)
    requires d < 100
    ensures ParseUntenbi(NumThen(d, "日から運転")) == Err(MonthRequired)
  {
    var s := NumThen(d, "日から運転");
    assert ['日'] + (Keywords[0] + "") == "日から運転";
    EndpointRoundTrip(EndpointText(None, d, true), Keywords[0] + "");
    KeywordRoundTrip(0, "");
    assert SingleDayRule(s) == Raised(MonthRequired);
    AllRulesRaised(s, MonthRequired);
    NoLeadingPattern(s);
  }

  /** Two dates on which the train runs, and no leading pattern: the
      service is suspended on every other day. */
  lemma TwoDatesRun(a: MonthDay, b: MonthDay)
    requires a.month < 100 && a.day < 100 && b.month < 100 && b.day < 100
    ensures ParseUntenbi(EndpointThen(EndpointText(Some(a.month), a.day, true),
                                      ['・'] + EndpointThen(EndpointText(Some(b.month), b.day, true), "運転"))) ==
            Ok(Untenbi(Some(AllSuspended), None, None, Some({a, b}), None))
  {
    var ds := [SingleText(EndpointText(Some(a.month), a.day, true)), SingleText(EndpointText(Some(b.month), b.day, true))];
    var specs := [Single(Endpoint(Some(a.month), a.day)), Single(Endpoint(Some(b.month), b.day))];
    var p := Program(None, '。', [ListedText(ds, false, true)], [], None);
    assert ProgramThen(p, "") == EndpointThen(ds[0].at, ['・'] + EndpointThen(ds[1].at, "運転")) by {
      assert ProgramThen(p, "") == DatesThen(ds, RuleTypeThen(false, true, ""));
      assert RuleTypeThen(false, true, "") == "運転";
      assert ds[1..] == [ds[1]];
    }
    assert DatesOf(ds) == specs by {
      assert ds[1..] == [ds[1]] && ds[1..][1..] == [];
      assert DatesOf(ds[1..]) == [specs[1]] + [];
    }
    var rule := Listed(true, [a, b]);
    assert ElaborateAll(p.rules) == Ok([rule]) by {
      ElaborateOne(p.rules[0]);
      assert specs[1..] == [specs[1]] && specs[1..][1..] == [];
      assert Flatten(specs[1..][1..], Some(b.month)) == Ok([]);
      assert Flatten(specs[1..], Some(a.month)) == Ok([MD(b.month, b.day)] + []);
      assert [MD(b.month, b.day)] + [] == [b];
      assert Flatten(specs, None) == Ok([MD(a.month, a.day)] + [b]);
      assert [MD(a.month, a.day)] + [b] == [a, b];
    }
    var u := Untenbi(Some(AllSuspended), None, None, Some({a, b}), None);
    assert Interpret(None, [rule]) == Ok(u) by {
      ApplyOne(NoFields, rule);
      assert SetOrEmpty(NoFields.added) + (set x | x in [a, b]) == {a, b};
      assert Apply(NoFields, rule) == Ok(u);
      assert Reconcile(u) == u;
    }
    ProgramRoundTrip(p, "");
  }

  /** A range within one month, written "M月D1日～D2日運転" (or with the
      second 日 left out), adds exactly the calendar dates it spans, when
      expansion does not reach the end of November. */
  lemma RangeRuns(m: nat, d1: nat, d2: nat, marked: bool)
    requires m < 100 && d1 < 100 && d2 < 100 && ExpandsExactly(MD(m, d1), MD(m, d2))
    ensures var r := ParseUntenbi(EndpointThen(EndpointText(Some(m), d1, true), ['～'] + EndpointThen(EndpointText(None, d2, marked), "運転")));
      && r.Ok? && r.value.pattern == Some(AllSuspended)
      && r.value.start.None? && r.value.end.None? && r.value.removed.None?
      && r.value.added.Some?
      && forall x :: x in r.value.added.value <==> Valid(x) && NotAfter(MD(m, d1), x) && NotAfter(x, MD(m, d2))
  {
    var ds := [SpanText(EndpointText(Some(m), d1, true), EndpointText(None, d2, marked))];
    var specs := [Span(Endpoint(Some(m), d1), Endpoint(None, d2))];
    var p := Program(None, '。', [ListedText(ds, false, true)], [], None);
    assert ProgramThen(p, "") == EndpointThen(ds[0].from, ['～'] + EndpointThen(ds[0].to, "運転")) by {
      assert ProgramThen(p, "") == DatesThen(ds, RuleTypeThen(false, true, ""));
      assert RuleTypeThen(false, true, "") == "運転";
    }
    assert DatesOf(ds) == specs by {
      assert ds[1..] == [];
    }
    ExpandRangeExact(MD(m, d1), MD(m, d2));
    var days := ExpandRange(MD(m, d1), MD(m, d2)).value;
    var rule := Listed(true, days);
    assert ElaborateAll(p.rules) == Ok([rule]) by {
      ElaborateOne(p.rules[0]);
      assert specs[1..] == [];
      assert Flatten(specs, None) == Ok(days + []);
      assert days + [] == days;
    }
    ApplyOne(NoFields, rule);
    ProgramRoundTrip(p, "");
  }

  /** A range followed by a single day written without a month, as in
      "3月19日～4月10・13日運転": the second end may leave out 日 before
      the ・, and the single day takes the month the range ended in. The
      train runs on the days of the range and on that day. */
  lemma RangeThenDayRuns(m1: nat, d1: nat, m2: nat, d2: nat, d3: nat)
    requires m1 < 100 && d1 < 100 && m2 < 100 && d2 < 100 && d3 < 100
    requires ExpandsExactly(MD(m1, d1), MD(m2, d2))
    ensures var r := ParseUntenbi(RangeThenDayText(m1, d1, m2, d2, d3));
      && r.Ok? && r.value.pattern == Some(AllSuspended)
      && r.value.start.None? && r.value.end.None? && r.value.removed.None?
      && r.value.added.Some?
      && forall x :: x in r.value.added.value <==>
           (Valid(x) && NotAfter(MD(m1, d1), x) && NotAfter(x, MD(m2, d2))) || x == MD(m2, d3)
  {
    var ds := RangeThenDay(m1, d1, m2, d2, d3);
    var specs := [Span(Endpoint(Some(m1), d1), Endpoint(Some(m2), d2)), Single(Endpoint(None, d3))];
    var p := Program(None, '。', [ListedText(ds, false, true)], [], None);
    assert ProgramThen(p, "") == RangeThenDayText(m1, d1, m2, d2, d3) by {
      assert ProgramThen(p, "") == DatesThen(ds, RuleTypeThen(false, true, ""));
      assert RuleTypeThen(false, true, "") == "運転";
      assert ds[1..] == [ds[1]];
    }
    assert DatesOf(ds) == specs by {
      assert ds[1..] == [ds[1]] && ds[1..][1..] == [];
      assert DatesOf(ds[1..]) == [specs[1]] + [];
    }
    ExpandRangeExact(MD(m1, d1), MD(m2, d2));
    var days := ExpandRange(MD(m1, d1), MD(m2, d2)).value;
    var rule := Listed(true, days + [MD(m2, d3)]);
    assert ElaborateAll(p.rules) == Ok([rule]) by {
      ElaborateOne(p.rules[0]);
      assert specs[1..] == [specs[1]] && specs[1..][1..] == [];
      assert Flatten(specs[1..][1..], Some(m2)) == Ok([]);
      assert Flatten(specs[1..], Some(m2)) == Ok([MD(m2, d3)] + []);
      assert [MD(m2, d3)] + [] == [MD(m2, d3)];
    }
    ApplyOne(NoFields, rule);
    ProgramRoundTrip(p, "");
  }

  /** The dates of "M1月D1日～M2月D2・D3日", the second 日 left out. */
  function RangeThenDay(m1: nat, d1: nat, m2: nat, d2: nat, d3: nat): seq<DateText> {
    [SpanText(EndpointText(Some(m1), d1, true), EndpointText(Some(m2), d2, false)),
     SingleText(EndpointText(None, d3, true))]
  }

  function RangeThenDayText(m1: nat, d1: nat, m2: nat, d2: nat, d3: nat): string
    requires m1 < 100 && d1 < 100 && m2 < 100 && d2 < 100 && d3 < 100
  {
    DatesThen(RangeThenDay(m1, d1, m2, d2, d3), "運転")
  }

  /** The example itself: 19 March to 10 April, and 13 April. */
  lemma SpringExampleRuns()
    ensures var r := ParseUntenbi("3月19日～4月10・13日運転");
      && r.Ok? && r.value.pattern == Some(AllSuspended) && r.value.added.Some?
      && forall x :: x in r.value.added.value <==>
           (x.month == 3 && 19 <= x.day <= 31) || (x.month == 4 && 1 <= x.day <= 10) || x == MD(4, 13)
  {
    SpringExampleText();
    RangeThenDayRuns(3, 19, 4, 10, 13);
    SpringRangeDays();
  }

  /** The real dates from 19 March to 10 April. */
  lemma SpringRangeDays()
    ensures forall x: MonthDay :: (Valid(x) && NotAfter(MD(3, 19), x) && NotAfter(x, MD(4, 10))) <==>
              (x.month == 3 && 19 <= x.day <= 31) || (x.month == 4 && 1 <= x.day <= 10)
  {
  }

  /** The example text, printed numeral by numeral from its end. */
  lemma SpringExampleText()
    ensures RangeThenDayText(3, 19, 4, 10, 13) == "3月19日～4月10・13日運転"
  {
    var ds := RangeThenDay(3, 19, 4, 10, 13);
    assert ds[1..] == [SingleText(EndpointText(None, 13, true))];
    SpringSingle();
    SpringTo();
    SpringFrom();
  }

  lemma SpringSingle()
    ensures DatesThen([SingleText(EndpointText(None, 13, true))], "運転") == "13日運転"
  {
    SpringDigits(13, "日運転", "13日運転");
  }

  lemma SpringTo()
    ensures EndpointThen(EndpointText(Some(4), 10, false), ['・'] + "13日運転") == "4月10・13日運転"
  {
    SpringDigits(10, ['・'] + "13日運転", "10・13日運転");
    SpringDigits(4, ['月'] + "10・13日運転", "4月10・13日運転");
  }

  lemma SpringFrom()
    ensures EndpointThen(EndpointText(Some(3), 19, true), ['～'] + "4月10・13日運転") == "3月19日～4月10・13日運転"
  {
    SpringFromDay();
    SpringDigits(3, ['月'] + "19日～4月10・13日運転", "3月19日～4月10・13日運転");
  }

  lemma SpringFromDay()
    ensures NumThen(19, ['日'] + (['～'] + "4月10・13日運転")) == "19日～4月10・13日運転"
  {
    var rest := "日～4月10・13日運転";
    assert ['日'] + (['～'] + "4月10・13日運転") == rest;
    SpringDigits(19, rest, "19日～4月10・13日運転");
  }

  /** One numeral of the example, checked character by character. */
  lemma SpringDigits(n: nat, rest: string, text: string)
    requires n < 100 && |text| == |rest| + (if n < 10 then 1 else 2)
    requires n < 10 ==> text[0] == Digit(n) && text[1..] == rest
    requires n >= 10 ==> text[0] == Digit(n / 10) && text[1] == Digit(n % 10) && text[2..] == rest
    ensures NumThen(n, rest) == text
  {
    if n < 10 {
      assert text == [text[0]] + text[1..];
    } else {
      assert text == [text[0], text[1]] + text[2..];
    }
  }

  /** A range over New Year, "12月D1日～1月D2日運転", adds no date at all:
      with no year, 1 January is before 25 December. */
  lemma NewYearRangeAddsNothing(d1: nat, d2: nat)
    requires d1 < 100 && d2 < 100
    ensures ParseUntenbi(EndpointThen(EndpointText(Some(12), d1, true), ['～'] + EndpointThen(EndpointText(Some(1), d2, true), "運転"))) ==
            Ok(Untenbi(Some(AllSuspended), None, None, Some({}), None))
  {
    var ds := [SpanText(EndpointText(Some(12), d1, true), EndpointText(Some(1), d2, true))];
    var specs := [Span(Endpoint(Some(12), d1), Endpoint(Some(1), d2))];
    var p := Program(None, '。', [ListedText(ds, false, true)], [], None);
    assert ProgramThen(p, "") == EndpointThen(ds[0].from, ['～'] + EndpointThen(ds[0].to, "運転")) by {
      assert ProgramThen(p, "") == DatesThen(ds, RuleTypeThen(false, true, ""));
      assert RuleTypeThen(false, true, "") == "運転";
    }
    assert DatesOf(ds) == specs by {
      assert ds[1..] == [];
    }
    var rule := Listed(true, []);
    assert ElaborateAll(p.rules) == Ok([rule]) by {
      ElaborateOne(p.rules[0]);
      assert specs[1..] == [];
      assert ExpandRange(MD(12, d1), MD(1, d2)) == Ok([]);
      assert Flatten(specs[1..], Some(1)) == Ok([]);
      var none: seq<MonthDay> := [];
      assert Flatten(specs, None) == Ok(none + none);
      assert none + none == none;
    }
    var u := Untenbi(Some(AllSuspended), None, None, Some({}), None);
    assert Interpret(None, [rule]) == Ok(u) by {
      ApplyOne(NoFields, rule);
      assert SetOrEmpty(NoFields.added) + (set x: MonthDay | x in []) == {};
      assert Apply(NoFields, rule) == Ok(u);
      assert Reconcile(u) == u;
    }
    ProgramRoundTrip(p, "");
  }
}
